=== FILE: README.md ===
# Match-bot interaction rules in Dafny

This project models the rule-bearing core of a ranked-queue bot for a card
game, as a set of immutable datatypes and pure step functions with proved
contracts. The bot drives each match through chat-platform buttons and select
menus. Two source files are covered.

`src/events/interactionCreate.ts` is the interaction dispatcher. The model
covers:

- the deck-ban turn check and the "use default bans" button;
- the stake-ban elimination draft and the veto that overrides it;
- the best-of series: scoring a game on each team's MMR line, deciding the
  series, and escalating from a single game to a best of 3 and then 5;
- the two process-wide duplicate guards, for queue joins and for match ends,
  plus the paths that end a match without consulting them;
- how every `customId` is built and read back, and which button handler a
  built identifier reaches;
- the small eligibility rules: helper authority, who may contest, party
  invite expiry and the priority-queue choice.

`src/utils/canvasHelpers.ts` draws the stats card. Only its text and number
rules are modelled: `timeAgo`, the rating colour band of `getColor`,
`normalizeDataPosition`, the rank-progress label of `rankupBar` with
`toProperCase`, and the rows of `drawPreviousGames`.

Modules follow the concepts:

- `Base`: `Option`, `Result`, and `Call`, the outcome of an awaited
  collaborator that returns or throws.
- `JsText`: the JavaScript string built-ins the handlers rely on:
  `parseInt`, `String(n)`, `split`, `join`, `includes`, `trimEnd` and ASCII
  case mapping.
- `Teams`: the two-team roster.
- `CustomIds`: identifier formats and dispatch.
- `DeckBan`, `StakeBan`, `ScoreLines`, `BestOf`, `Guards`, `Eligibility`:
  the dispatcher's rules.
- `TimeAgo`, `EloBand`, `EloGraph`, `StatsPanel`: the stats card.

A handler is modelled as a function from the state it reads, and the outcomes
of the collaborators it awaits, to the new state, the effects in order, and
how it left.

## Model

| member | source | states |
|---|---|---|
| DeckBan.TurnParity | src/events/interactionCreate.ts:424 | With team 0 starting, team 0 acts on even steps and team 1 on odd steps, and the other way round when team 1 starts. |
| DeckBan.NoTwoStepsInARow | src/events/interactionCreate.ts:424-434 | When the two first players differ, whoever acted at one step is refused at the next. |
| DeckBan.SubmitBans | src/events/interactionCreate.ts:415-447 | A deck ban goes through exactly when the user is the active team's first player. Any other user is refused as "not your turn", and an empty active team makes the handler fail. A refused click changes nothing. An accepted one removes the menu and asks for exactly one advance, with the clicked decks. |
| DeckBan.UseDefaultBans | src/events/interactionCreate.ts:524-569 | The default bans go through exactly when the user is the active team's first player and has bans saved. Any other user gets the same "not your turn" refusal as the menu, whatever is saved. The captain with nothing saved is refused with the draft untouched. Otherwise the saved bans are advanced, marked as defaults, and the menu is removed. |
| StakeBan.Ban | src/events/interactionCreate.ts:1120-1180 | A user outside the voting team is refused with no change. Any other click first hands the turn to the other team. A valid click disables exactly the clicked slot. When that leaves one enabled slot, its stake is picked and the board is taken down, or, when the store has no such stake, nothing else changes. Any other valid click, on an enabled or an already disabled slot, reposts the board. |
| StakeBan.DisableEnabledCount | src/events/interactionCreate.ts:1141-1150 | Disabling an enabled button leaves exactly one fewer enabled. |
| StakeBan.LastBan | src/events/interactionCreate.ts:1153-1164 | A legal ban on a board with two enabled stakes picks the other stake. |
| StakeBan.MiddleBan | src/events/interactionCreate.ts:1165-1179 | A legal ban on a board with more enabled stakes reposts it, with the turn passed on and one fewer enabled. |
| StakeBan.BansEndInPick | src/events/interactionCreate.ts:1120-1180 | Over N enabled stakes, N-1 legal alternating bans end in a pick of the one stake nobody banned; a shorter run leaves the draft open with N minus the bans still enabled. |
| StakeBan.Veto | src/events/interactionCreate.ts:1182-1211 | The veto is ignored silently exactly when there is no match, or the rating or threshold is missing or 0. It is refused exactly when the rating is above the threshold, fractional ratings included. It goes through exactly in every other case: the board is taken down and White Stake is picked when the store lists it, with no look at the turn or the board. |
| ScoreLines.ReadScoreNonNegative | src/events/interactionCreate.ts:354-356 | The score read off a line is never negative. |
| ScoreLines.UntaggedLine | src/events/interactionCreate.ts:354-356 | A line without a `Score:` tag reads 0, and the removal leaves it alone. |
| ScoreLines.RewriteReadsBack | src/events/interactionCreate.ts:359-362 | After a game result, a line with at most one tag reads back exactly the new score, and still has exactly one tag. |
| ScoreLines.ResetReadsZero | src/events/interactionCreate.ts:1098-1102 | After a series vote, a line with at most one tag reads 0 and still has exactly one tag. |
| ScoreLines.MmrSurvivesRewrite | src/events/interactionCreate.ts:351-362 | The MMR line still contains "MMR" after its score is rewritten, so the next result finds the same line. |
| ScoreLines.MmrSurvivesReset | src/events/interactionCreate.ts:1096-1102 | The MMR line still contains "MMR" after its score is reset. |
| ScoreLines.RewriteKeepsOneLine | src/events/interactionCreate.ts:359-365 | Neither rewrite adds a line break, so the field still splits into the same lines. |
| BestOf.CleanKeepsFirst | src/events/interactionCreate.ts:347-351 | Clearing vote tallies and mentions keeps the first MMR line first, when that line is not itself cleared. |
| BestOf.CleanKeepsAll | src/events/interactionCreate.ts:346-348 | The filter drops nothing from lines that show neither a vote tally nor a mention. |
| BestOf.CleanAppend | src/events/interactionCreate.ts:346-348 | The filter judges each line on its own: filtering two runs of lines in turn is filtering them together. |
| BestOf.ScoreGameCounts | src/events/interactionCreate.ts:343-366 | A game result adds one to the score a team field shows when that team won, and leaves it as it was otherwise. |
| BestOf.UntaggedScoresFromZero | src/events/interactionCreate.ts:354-358 | An absent score counts as 0, so the winner's field then shows 1 and the loser's 0. |
| BestOf.ScoreGameKeepsLines | src/events/interactionCreate.ts:343-364 | On a field without tallies or mentions, a game result keeps the number of lines and every line but the first MMR line, blank lines included. |
| BestOf.ScoreGameClears | src/events/interactionCreate.ts:347-350 | Of the lines a game result leaves, only the MMR line may still show a vote tally or a mention. |
| BestOf.GameResult | src/events/interactionCreate.ts:342-366 | A game result keeps the number and names of the fields and touches none after the first two. |
| BestOf.GameResultScores | src/events/interactionCreate.ts:342-358 | Winner 1 is credited to field 0 and any other winner to field 1; only that field's score goes up, by one. |
| BestOf.RequiredIsMajority | src/events/interactionCreate.ts:370 | The required wins (3 for best of 5, 2 for best of 3, 1 otherwise) are the smallest majority of the series length. |
| BestOf.SingleGameEnds | src/events/interactionCreate.ts:328-336 | A single game records the voted winner at once, whatever the fields show. |
| BestOf.SeriesDecision | src/events/interactionCreate.ts:369-401 | In an undecided series, a game ends the series exactly when it brings the game's winner to the required wins, and that team is recorded. Otherwise the winner's tally is one higher and the other's unchanged. |
| BestOf.WinnerAfterGame | src/events/interactionCreate.ts:374-379 | Team 1 is checked first. From an undecided tally one more win decides the series for that team or for nobody. |
| BestOf.AddVoteField | src/events/interactionCreate.ts:1061-1065 | The tally field is added, showing `-`, exactly when no field of its name is there; the rest is kept. |
| BestOf.EmbedVoteFields | src/events/interactionCreate.ts:1059-1065 | An embed with a field list ends up with the tally field, added exactly when none of its name was there. An embed without a field list still has none afterwards, since the field is pushed onto a fresh array. |
| BestOf.AddVoteFieldOnce | src/events/interactionCreate.ts:1063-1065 | Adding the tally field twice is the same as adding it once. |
| BestOf.SetVoteButton | src/events/interactionCreate.ts:1074-1087 | A message without a second action row fails. A best-of-3 vote puts the best-of-5 button at index 2 of row 1: it replaces the third button, or is appended to a two-button row. Any other vote disables the third button. A row 1 too short for either is modelled as `ShortVoteRow`. No other button changes. |
| BestOf.EscalationOneWay | src/events/interactionCreate.ts:1078-1087 | After a best-of-3 vote, the slot holds an enabled button read back as a best-of-5 vote on the same match. Passing that vote disables it, and passing it again changes nothing. |
| BestOf.SlotSurvivesEscalation | src/events/interactionCreate.ts:1078-1087 | Any layout that takes the best-of-3 vote, a two-button row 1 included, also takes the best-of-5 vote after it. |
| BestOf.ResetFieldZero | src/events/interactionCreate.ts:1093-1104 | After a series vote, a team field whose MMR line has at most one tag shows 0. |
| BestOf.CompleteSeriesVote | src/events/interactionCreate.ts:1072-1105 | A passed series vote goes through exactly when its button can be set. Without a second row nothing is recorded. With a row 1 too short for the button, the voted length has already been recorded when it fails. |
| BestOf.SeriesVoteResets | src/events/interactionCreate.ts:1072-1105 | A passed series vote records the voted length, restarts both team fields at 0, and touches no other field. |
| Guards.AcquireJoin | src/events/interactionCreate.ts:143-151 | A join is let in exactly when the user is not already joining, and letting it in adds exactly that user to the guard. |
| Guards.JoinBody | src/events/interactionCreate.ts:153-192 | `joinQueues` runs only after the first reply succeeded and the user is not blacklisted. |
| Guards.JoinRefreshes | src/events/interactionCreate.ts:175-191 | A join past the ban check always refreshes the queue message, and edits its reply exactly when `joinQueues` gave a truthy result: the effects are the first reply, the join, that edit when due, then the refresh. |
| Guards.JoinReleases | src/events/interactionCreate.ts:141-197 | A join for a user already joining is refused and changes nothing. Every other join leaves the guard as it found it, on every path, and runs `joinQueues` only after taking the guard. |
| Guards.AcquireEnd | src/events/interactionCreate.ts:314-322 | A result vote takes the end guard exactly when the match is not already being ended, and taking it adds exactly that match. |
| Guards.FinishVoteReleases | src/events/interactionCreate.ts:301-408 | A result vote for a match being ended does nothing. One that takes the guard gives it back on every path, and only such a vote records a winner or ends the match. A failure before the guard is taken still deletes the id. |
| Guards.OverrideChecksOnce | src/events/interactionCreate.ts:258-297 | The helper override checks the guard once, at the start. When a vote takes the guard during the lookups, the helper still ends the match and then deletes the id the vote holds. A successful override still goes on to the vote. |
| Guards.CancelClick | src/events/interactionCreate.ts:711-773 | The cancel button never touches the guards. When the settings or team lookup throws, it does nothing and leaves through the outer `catch`. |
| Guards.CancelIgnoresGuard | src/events/interactionCreate.ts:745-773 | Once the lookups succeed, the cancel button ends a match even while its end is in flight. It ends the match twice when a helper clicks in the log channel, and always goes on to the vote. |
| Guards.CancelTwiceThenVote | src/events/interactionCreate.ts:744-773 | A helper's click in the log channel ends the match twice and then still registers the cancel vote. |
| Guards.CancelClickIntended | src/events/interactionCreate.ts:744-773 | As the comment before the vote describes it: after successful lookups, a helper's click or a click in the log channel cancels the match exactly once; only any other click starts the vote. A failed lookup does nothing. |
| Guards.CancelAsDescribed | src/events/interactionCreate.ts:744-773 | The cancel button as written agrees with the described one exactly when the lookups fail or the click is neither a helper's nor in the log channel. |
| Guards.ChangeWinner | src/events/interactionCreate.ts:476-499 | Changing the winner never touches the guards. |
| Guards.ChangeWinnerIgnoresGuard | src/events/interactionCreate.ts:476-499 | Changing the winner records it and ends the match even while its end is in flight. |
| Eligibility.OverrideOrContest | src/events/interactionCreate.ts:282-285 | Nobody both holds helper authority over a match and may contest it. A player never has the authority; anyone else has it exactly when they hold either staff role. |
| Eligibility.InviteWindow | src/events/interactionCreate.ts:1242-1252 | An invite is accepted exactly up to and including the five-minute mark and while the party exists, and once expired it stays expired. |
| Eligibility.PriorityOptions | src/events/interactionCreate.ts:200-216 | The option -1 clears the priority and says so. A queue's own option stores that queue and names it exactly when its id is not 0. |
| CustomIds.HelpersConfirmRoundTrip | src/events/interactionCreate.ts:820-821 | The helpers-confirm button built at line 804 is read back as the match it was built for. |
| CustomIds.ContestConfirmRoundTrip | src/events/interactionCreate.ts:848-851 | The contest-confirm button built at line 1032 is read back as both its match and its results message, when the message id has no dash. |
| CustomIds.DeleteContestRoundTrip | src/events/interactionCreate.ts:950-951 | The delete-contest button built at line 929 is read back as its match. |
| CustomIds.BestOfVoteRoundTrip | src/events/interactionCreate.ts:1049-1052 | The best-of vote button built at line 1081 is read back as its series length and match. |
| CustomIds.DeckBansRoundTrip | src/events/interactionCreate.ts:415-422 | A deck-ban menu identifier is read back as its step, match and starting team. |
| CustomIds.UseDefaultBansRoundTrip | src/events/interactionCreate.ts:524-528 | A use-default-bans identifier is read back as its step, match and starting team. |
| CustomIds.StakeButtonRoundTrip | src/events/interactionCreate.ts:1120-1123 | A stake button identifier is read back as its slot and match. Piece 1, read for the last enabled button at line 1156, is its stake. |
| CustomIds.WinMatchRoundTrip | src/events/interactionCreate.ts:258-278 | A finish-vote value is read back as its match and team. |
| CustomIds.OneWordButtonsRoundTrip | src/events/interactionCreate.ts:711-712 | The cancel and rematch buttons carry their match at piece 1. |
| CustomIds.MatchContestRoundTrip | src/events/interactionCreate.ts:1010-1011 | The contest button carries its match at piece 2. |
| CustomIds.CallHelpersRoundTrip | src/events/interactionCreate.ts:775-776 | The call-helpers button carries its match at piece 2. |
| CustomIds.ChangeWinnerRoundTrip | src/events/interactionCreate.ts:476-477 | The winner-change menu carries its match at piece 3. |
| CustomIds.HelpersConfirmReachesOneHandler | src/events/interactionCreate.ts:820 | The dispatcher's tests are separate `if`s, yet a helpers-confirm identifier passes only its own. |
| CustomIds.HelpersCancelReachesOneHandler | src/events/interactionCreate.ts:843 | A helpers-cancel identifier passes only its own handler's test. |
| CustomIds.ContestConfirmReachesOneHandler | src/events/interactionCreate.ts:848 | A contest-confirm identifier passes only its own handler's test. |
| CustomIds.ContestCancelReachesOneHandler | src/events/interactionCreate.ts:945 | A contest-cancel identifier passes only its own handler's test. |
| CustomIds.DeleteContestReachesOneHandler | src/events/interactionCreate.ts:950 | A delete-contest identifier passes only its own handler's test. |
| CustomIds.BestOfFiveReachesOneHandler | src/events/interactionCreate.ts:1049 | The best-of-5 button passes only the best-of vote handler's test. |
| JsText.ParseIntOfIntToString | src/events/interactionCreate.ts:417-422 | `parseInt` reads back every integer that `String(n)` printed in plain decimal digits. |
| JsText.JoinOfSplit | src/events/interactionCreate.ts:345-365 | Joining the lines of a split restores the text. |
| JsText.SplitOfJoin | src/events/interactionCreate.ts:345-365 | Splitting a join of line-free pieces gives the pieces back. |
| TimeAgo.TimeAgoByThresholds | src/utils/canvasHelpers.ts:56-76 | The cascade of floor divisions picks the largest unit, from years down to minutes, that fits at least once, and shows the whole number of that unit. The text is "<1 min ago" exactly when less than a minute has passed, negative differences included. |
| TimeAgo.CountRange | src/utils/canvasHelpers.ts:61-74 | A shown count is at least 1 and below the next unit up: at most 12 months, 4 weeks, 6 days, 23 hours or 59 minutes. |
| TimeAgo.AgoCount | src/utils/canvasHelpers.ts:69-74 | The number at the front of the text reads back as the count. |
| TimeAgo.AgoPlural | src/utils/canvasHelpers.ts:69-74 | The unit gets its plural "s" exactly when the count is above one. |
| EloBand.BandIndex | src/utils/canvasHelpers.ts:573-579 | The index is one past the last split the rating reaches; every later split is above the rating. For ascending splits it is the number of splits reached. |
| EloBand.GetColour | src/utils/canvasHelpers.ts:573-579 | The colour is the one of the band given by the number of configured splits the rating reaches. |
| EloBand.ReachedMonotone | src/utils/canvasHelpers.ts:573-579 | A higher rating never falls in a lower band. |
| EloBand.EloBands | src/utils/canvasHelpers.ts:53 | The five bands of the configured splits are below 250, from 250 to below 320, from 320 to below 460, from 460 to below 620, and 620 up; fractional ratings fall in the band of the range they lie in. |
| EloGraph.SortByDate | src/utils/canvasHelpers.ts:367-369 | The sort puts the points in date order and is a permutation of them. |
| EloGraph.SortSorted | src/utils/canvasHelpers.ts:394-396 | Sorting points already in date order changes nothing. |
| EloGraph.NormalizeEmpty | src/utils/canvasHelpers.ts:363-365 | Missing or empty data plots nothing. |
| EloGraph.NormalizeAll | src/utils/canvasHelpers.ts:359-408 | Without grouping, every point is plotted once, in date order, at its position, at the height of its rating. |
| EloGraph.GroupKeepsBest | src/utils/canvasHelpers.ts:373-387 | Grouping keeps exactly one point per UTC day of its input: the first of that day's best-rated points. |
| EloGraph.GroupedInOrder | src/utils/canvasHelpers.ts:389-396 | Grouping points in date order gives points in strictly increasing day order, so the second sort leaves them as they are. |
| EloGraph.NormalizeByDay | src/utils/canvasHelpers.ts:359-408 | Grouped by date, there is one plotted point per UTC day of the data, and each is the first of the best-rated points of its day. |
| EloGraph.NormalizeByDayAxes | src/utils/canvasHelpers.ts:394-407 | Grouped by date, the days increase, the first point sits at 0 and each next one further right, at the height of its rating. |
| StatsPanel.ProperCaseIgnoresCase | src/utils/canvasHelpers.ts:964-966 | The case a name is stored in does not show after `toProperCase`, and proper-casing twice is proper-casing once. |
| StatsPanel.ShortRankName | src/utils/canvasHelpers.ts:992-996 | The next-rank name is cut to its first four letters exactly for HOLOGRAPHIC and POLYCHROME, and kept whole otherwise. |
| StatsPanel.RankupByMmr | src/utils/canvasHelpers.ts:998-1009 | With the three MMR values present, the bar spans the two rank MMRs. The text's number reads back as the MMR still needed, rounded, and the text ends with the full next-rank name. |
| StatsPanel.RankupByPosition | src/utils/canvasHelpers.ts:1010-1033 | Otherwise, with usable positions, the bar spans the two rank positions. The text's number reads back as the places to climb, and the text ends with the next-rank name, cut for the two long names. |
| StatsPanel.RankupPositionWord | src/utils/canvasHelpers.ts:1013-1033 | In the position label, the number is followed by the unit word. |
| StatsPanel.RankWords | src/utils/canvasHelpers.ts:1013-1033 | The word is "rank" exactly when one place is left to climb, and "ranks" otherwise. |
| StatsPanel.RankupPlaceholder | src/utils/canvasHelpers.ts:998-1043 | The placeholder and full bar show exactly when neither the MMR nor the position label applies, in particular for the player in first place. |
| StatsPanel.HolographicNames | src/utils/canvasHelpers.ts:992-1033 | The holographic rank is named "Holographic" by the MMR label and "Holo" by the position label. |
| StatsPanel.PreviousGameRows | src/utils/canvasHelpers.ts:840-880 | There is one row per game, at most five, and row i is the row of game i. |
| StatsPanel.GameRowRules | src/utils/canvasHelpers.ts:853-878 | A row reads WIN, in the win colour and with a plus sign, exactly when the rating went up; a change of 0 is a loss. Its number reads back as its place, and its time column is the `timeAgo` of the game. |
| StatsPanel.StreakColours | src/utils/canvasHelpers.ts:889-894 | The streak is neutral exactly when it is 0; otherwise it has the colour a game of the same sign would have. |

## Left out

- Every call to the chat platform goes unmodelled beyond the effect it stands for. That covers replies, follow-ups, embeds, deletion, channel creation, permission overwrites, role fetches, direct messages and the `setTimeout` auto-delete.
- The database and the collaborators whose code is not part of this model are parameters of the handlers: their results, or whether they throw. These are `joinQueues`, `advanceDeckBanStep`, `applyDefaultDeckBansAndAdvance`, `handleVoting`, `handleTwoPlayerMatchVoting`, `endMatch`, `setWinningTeam`, `getStake`, `getPlayerElo` and the settings lookups. Their own rules are not asserted.
- `getBestOfMatchScores` is not part of this model. The series tally is read back with `BestOf.FieldScore`: the score tag of each team field's first MMR line.
- Concurrency: the guard sets are modelled sequentially. The window between the override's guard check and its `add` appears as a second guard state, `held`.
- In `Guards.JoinBody`, the follow-up reply and the queue refresh succeed or fail together, as one flag.
- `getTeamsInMatch` and `getSettings` failures inside the winner select menu are not modelled. The cancel button does model them, as one lookup outcome.
- An empty team in the deck-ban check, which throws in the source, is a `HandlerFailed` error in `DeckBan` rather than a thrown exception.
- The dispatcher's tests for buttons other than the six identifiers with a `ReachesOneHandler` lemma are only listed, not proved exclusive.
- ScoreLines.RewriteReadsBack: it is stated for lines with at most one `Score:` tag. With two tags the removal takes out only the first, and the other stays in front of the appended one.
- The escalation handler does not check that no game has been scored yet; the model follows the code and does not check it either.
- Case-insensitive matching and `toUpperCase`/`toLowerCase` are modelled for ASCII letters only; other characters keep their case.
- `\s` in the regular expressions is modelled as the ASCII white space characters plus the common Unicode spaces listed in `JsText.IsSpace`.
- An embed field without a value is read as the empty text, as `value || ''` does.
- Button styles and labels other than the best-of-5 caption are left out.
- `timeAgo` takes the difference between now and the game's time as a number; the clock is left out.
- Dates are milliseconds since the epoch and the UTC day is floor division by a day's length. `toISOString` and `Date` parsing are left out.
- `xVar` is an exact rational; floating point and `toFixed(1)` are left out.
- `Math.round` is `floor(x + 0.5)`. `NaN` values are not modelled: a missing number is `None`, and truthiness is "present and not 0".
- Colours are abstract names.
- All canvas drawing, fonts and images, and the graph geometry, are left out.
- BestOf.CompleteSeriesVote: when a vote leaves row 1 with a gap (a best-of-3 vote on a row of fewer than two buttons) or puts a blank disabled button at index 2 (any other vote on a row of fewer than three), the source records the length, resets the scores and sends the update. Whether the chat library accepts such a row is not modelled, so these cases end as `ShortVoteRow` with only the recorded length.
- StakeBan.Ban: a clicked index that names no button on the board (out of range, or not a number) ends as `MissingSlot`, with only the turn flipped. The source instead stores a blank disabled button under that index, or under a non-index property for a non-number, and goes on to count the enabled buttons and pick or repost. The placeholder button is not modelled.
- JsText.ParseIntOfIntToString: `String(n)` of a JavaScript number is plain decimal only below 1e21, and integers above 2^53 are not exact. The lemma holds for the unbounded integers of the model, which cover the identifiers, steps and indexes the handlers print and read back.
- Numbers: identifiers, steps, indexes, scores and dates are unbounded integers. Ratings, MMR values, thresholds and rating changes are exact reals. The limits of 64-bit floating point are not modelled.
- BestOf.SetVoteButton: a row 1 too short for the new button ends as `ShortVoteRow`. The source carries on: it leaves a hole at index 2, or stores a blank disabled button there, and then records the length, resets the scores and sends the update. See `BestOf.CompleteSeriesVote` below.
- Party invites model only the expiry test, not the membership update or the messages.
- The stats-background, queue-ban-decks, user-default-deck-bans, view-stats, leave-queue, check-queued and rematch handlers have no rules worth stating beyond their identifiers and are left out.

## Findings

| source | as written | input that shows it | evidently intended | confidence | as-written member | corrected member |
|---|---|---|---|---|---|---|
| src/events/interactionCreate.ts:744-773 | Neither the helper branch nor the log-channel branch returns after `cancel`, so the code falls through to `handleVoting`, below the comment "Otherwise do normal vote". | A helper clicks the cancel button of a match in the queue log channel. | One cancel for a helper's click or a log-channel click, and the vote only otherwise. | medium, not executed | Guards.CancelTwiceThenVote | Guards.CancelClickIntended |

=== FILE: base.dfy ===
/** Failure-carrying wrappers shared by every module of the model. */
module Base {

  /** A value that may be absent (JavaScript's `null`/`undefined`). */
  datatype Option<+T> = None | Some(value: T)

  /** The outcome of a step: the new value, or the reason it was refused. */
  datatype Result<+T, +E> = Ok(value: T) | Err(error: E)

  /** The outcome of one awaited call into a collaborator that is not modelled:
      it either returns a value or throws. */
  datatype Call<+T> = Returns(value: T) | Throws
}

=== FILE: bestof.dfy ===
/** Best-of series: the score each team's embed field shows on its MMR line,
    the game-result vote that bumps it and decides the series, and the vote
    that turns a match into a best of 3 or 5. */
module BestOf {
  import opened Base
  import opened JsText
  import opened ScoreLines
  import opened CustomIds

  // ----- lines of an embed field -----

  /** The vote tallies and the mentions that a game result clears out of a
      team field. */
  predicate Dropped(line: string) {
    Contains(line, "Win Votes") || Contains(line, "<@")
  }

  /** `lines.filter(l => !l.includes('Win Votes') && !l.includes('<@'))`. */
  function Clean(lines: seq<string>): (kept: seq<string>)
    ensures |kept| <= |lines|
    ensures forall i :: 0 <= i < |kept| ==> !Dropped(kept[i])
  {
    if |lines| == 0 then []
    else (if Dropped(lines[0]) then [] else [lines[0]]) + Clean(lines[1..])
  }

  /** `lines.findIndex(l => l.includes(key))`, with `None` for -1. */
  function FirstLineWith(lines: seq<string>, key: string): (k: Option<nat>)
    ensures k.Some? ==> k.value < |lines| && Contains(lines[k.value], key)
    ensures forall i :: 0 <= i < |lines| && (k.None? || i < k.value) ==> !Contains(lines[i], key)
  {
    if |lines| == 0 then None
    else if Contains(lines[0], key) then Some(0)
    else match FirstLineWith(lines[1..], key)
      case None => None
      case Some(j) => Some(j + 1)
  }

  /** The first line with `key` is the one that fits the description. */
  lemma {:induction false} FirstLineIs(lines: seq<string>, key: string, k: nat)
    requires k < |lines| && Contains(lines[k], key)
    requires forall i :: 0 <= i < k ==> !Contains(lines[i], key)
    ensures FirstLineWith(lines, key) == Some(k)
  {
    if k > 0 {
      FirstLineIs(lines[1..], key, k - 1);
    }
  }

  /** Replacing the first line with `key` by another line with `key` keeps it
      the first. */
  lemma FirstAfterUpdate(lines: seq<string>, key: string, k: nat, x: string)
    requires FirstLineWith(lines, key) == Some(k) && Contains(x, key)
    ensures FirstLineWith(lines[k := x], key) == Some(k)
  {
    FirstLineIs(lines[k := x], key, k);
  }

  /** A line without `key` in front shifts the first line with `key` by one. */
  lemma FirstLineCons(x: string, rest: seq<string>, key: string)
    requires !Contains(x, key)
    ensures FirstLineWith([x] + rest, key)
         == if FirstLineWith(rest, key).Some? then Some(FirstLineWith(rest, key).value + 1) else None
  {
    var s := [x] + rest;
    assert s[0] == x && s[1..] == rest;
    assert !Contains(s[0], key);
  }

  /** The cleaning keeps the first line with `key` the first one, when that
      line is not itself cleared. */
  lemma {:induction false} CleanKeepsFirst(lines: seq<string>, key: string, k: nat)
    requires FirstLineWith(lines, key) == Some(k) && !Dropped(lines[k])
    ensures FirstLineWith(Clean(lines), key).Some?
    ensures Clean(lines)[FirstLineWith(Clean(lines), key).value] == lines[k]
  {
    var rest := Clean(lines[1..]);
    if k == 0 {
      assert Clean(lines) == [lines[0]] + rest;
    } else {
      assert !Contains(lines[0], key);
      assert FirstLineWith(lines[1..], key) == Some(k - 1);
      assert lines[1..][k - 1] == lines[k];
      CleanKeepsFirst(lines[1..], key, k - 1);
      if Dropped(lines[0]) {
        assert Clean(lines) == rest;
      } else {
        var c := Clean(lines);
        assert c == [lines[0]] + rest;
        FirstLineCons(lines[0], rest, key);
        var j := FirstLineWith(rest, key).value;
        assert FirstLineWith(c, key) == Some(j + 1);
        assert c[j + 1] == rest[j];
      }
    }
  }

  /** The cleaning adds no character: a separator-free list stays so. */
  lemma {:induction false} CleanWithout(lines: seq<string>, c: char)
    requires forall i :: 0 <= i < |lines| ==> c !in lines[i]
    ensures forall i :: 0 <= i < |Clean(lines)| ==> c !in Clean(lines)[i]
  {
    if |lines| > 0 {
      CleanWithout(lines[1..], c);
    }
  }

  /** The cleaning drops nothing from lines that show neither a tally nor a
      mention. */
  lemma {:induction false} CleanKeepsAll(lines: seq<string>)
    requires forall i :: 0 <= i < |lines| ==> !Dropped(lines[i])
    ensures Clean(lines) == lines
  {
    if |lines| > 0 {
      CleanKeepsAll(lines[1..]);
      assert lines == [lines[0]] + lines[1..];
    }
  }

  /** The cleaning looks at each line on its own: cleaning two runs of lines
      one after the other is cleaning them together. */
  lemma {:induction false} CleanAppend(a: seq<string>, b: seq<string>)
    ensures Clean(a + b) == Clean(a) + Clean(b)
  {
    if |a| == 0 {
      assert a + b == b;
    } else {
      assert (a + b)[0] == a[0];
      assert (a + b)[1..] == a[1..] + b;
      CleanAppend(a[1..], b);
    }
  }

  // ----- the team fields -----

  /** An embed field. A field without a value is read as the empty text,
      which is what `value || ''` makes of it. */
  datatype Field = Field(name: string, value: string)

  /** The field a game result is credited to: `winner === 1 ? 0 : 1`. */
  function WinnerField(winner: int): nat {
    if winner == 1 then 0 else 1
  }

  /** The score a line shows, as the number the rewrite prints. */
  function LineScore(line: string): nat {
    ReadScoreNonNegative(line);
    ReadScore(line)
  }

  /** One team field after a game result (`interactionCreate.ts:344-365`): vote tallies and
      mentions cleared, and the first MMR line's score bumped when the team
      won the game. A field without an MMR line is only cleaned. */
  function ScoreGame(value: string, won: bool): string {
    var cleaned := Clean(Split(value, '\n'));
    match FirstLineWith(cleaned, "MMR")
    case None => Join(cleaned, '\n')
    case Some(k) =>
      var line := cleaned[k];
      Join(cleaned[k := RewriteScore(line, LineScore(line) + if won then 1 else 0)], '\n')
  }

  /** The score a team field shows: the tag of its first MMR line, 0
      without one. This is how the series tally is read back. */
  function FieldScore(value: string): nat {
    var lines := Split(value, '\n');
    match FirstLineWith(lines, "MMR")
    case None => 0
    case Some(k) => LineScore(lines[k])
  }

  /** A field whose score a game result moves: it has an MMR line, the
      cleaning keeps it, and it carries at most one tag. */
  predicate Scorable(value: string) {
    var lines := Split(value, '\n');
    match FirstLineWith(lines, "MMR")
    case None => false
    case Some(k) => !Dropped(lines[k]) && SingleTag(lines[k])
  }

  /** Replacing a separator-free line of separator-free lines and joining
      them: the first `MMR` line of the result is the new line. */
  lemma JoinedFirstMmr(cleaned: seq<string>, j: nat, x: string)
    requires FirstLineWith(cleaned, "MMR") == Some(j)
    requires forall i :: 0 <= i < |cleaned| ==> '\n' !in cleaned[i]
    requires '\n' !in x && Contains(x, "MMR")
    ensures Split(Join(cleaned[j := x], '\n'), '\n') == cleaned[j := x]
    ensures FirstLineWith(cleaned[j := x], "MMR") == Some(j)
  {
    var updated := cleaned[j := x];
    assert forall i :: 0 <= i < |updated| ==> '\n' !in updated[i];
    SplitOfJoin(updated, '\n');
    FirstAfterUpdate(cleaned, "MMR", j, x);
  }

  /** A game result adds one to the winning team's score and leaves the
      other team's as it was. */
  lemma ScoreGameCounts(value: string, won: bool)
    requires Scorable(value)
    ensures FieldScore(ScoreGame(value, won)) == FieldScore(value) + if won then 1 else 0
  {
    var lines := Split(value, '\n');
    var k := FirstLineWith(lines, "MMR").value;
    var line := lines[k];
    assert FieldScore(value) == LineScore(line);
    CleanKeepsFirst(lines, "MMR", k);
    CleanWithout(lines, '\n');
    var cleaned := Clean(lines);
    var j := FirstLineWith(cleaned, "MMR").value;
    var n := LineScore(line) + if won then 1 else 0;
    ScoreGameIs(value, won, cleaned, j, n);
    RewrittenFieldReads(cleaned, j, line, n);
  }

  /** The text a game result leaves, in terms of the cleaned lines. */
  lemma ScoreGameIs(value: string, won: bool, cleaned: seq<string>, j: nat, n: nat)
    requires cleaned == Clean(Split(value, '\n'))
    requires FirstLineWith(cleaned, "MMR") == Some(j)
    requires n == LineScore(cleaned[j]) + if won then 1 else 0
    ensures ScoreGame(value, won) == Join(cleaned[j := RewriteScore(cleaned[j], n)], '\n')
  {
  }

  /** Rewriting the first MMR line of separator-free lines and joining them
      gives a field that shows the new score. */
  lemma RewrittenFieldReads(cleaned: seq<string>, j: nat, line: string, n: nat)
    requires FirstLineWith(cleaned, "MMR") == Some(j) && cleaned[j] == line && SingleTag(line)
    requires forall i :: 0 <= i < |cleaned| ==> '\n' !in cleaned[i]
    ensures FieldScore(Join(cleaned[j := RewriteScore(line, n)], '\n')) == n
  {
    var x := RewriteScore(line, n);
    RewriteReadsBack(line, n);
    MmrSurvivesRewrite(line, n);
    RewriteKeepsOneLine(line, n);
    JoinedFirstMmr(cleaned, j, x);
  }

  /** A line without a tag counts as 0, so the winner's field then shows 1. */
  lemma UntaggedScoresFromZero(value: string, won: bool)
    requires FirstLineWith(Split(value, '\n'), "MMR").Some?
    requires !Dropped(Split(value, '\n')[FirstLineWith(Split(value, '\n'), "MMR").value])
    requires FindTag(Split(value, '\n')[FirstLineWith(Split(value, '\n'), "MMR").value]).None?
    ensures FieldScore(ScoreGame(value, won)) == if won then 1 else 0
  {
    var lines := Split(value, '\n');
    UntaggedLine(lines[FirstLineWith(lines, "MMR").value]);
    ScoreGameCounts(value, won);
  }

  /** No line but the first MMR line shows a vote tally or a mention. */
  predicate ClearedExceptMmr(lines: seq<string>) {
    forall i :: 0 <= i < |lines| && Some(i) != FirstLineWith(lines, "MMR") ==> !Dropped(lines[i])
  }

  /** Of the lines a game result leaves, only the MMR line may show a vote
      tally or a mention: all others were cleared out. */
  lemma ScoreGameClears(value: string, won: bool)
    ensures ClearedExceptMmr(Split(ScoreGame(value, won), '\n'))
  {
    var lines := Split(value, '\n');
    var cleaned := Clean(lines);
    CleanWithout(lines, '\n');
    match FirstLineWith(cleaned, "MMR")
    case None =>
      if |cleaned| > 0 {
        SplitOfJoin(cleaned, '\n');
      } else {
        assert Split("", '\n') == [""];
        assert !Contains("", "Win Votes") && !Contains("", "<@");
      }
    case Some(j) =>
      var line := cleaned[j];
      var n := LineScore(line) + if won then 1 else 0;
      var x := RewriteScore(line, n);
      MmrSurvivesRewrite(line, n);
      RewriteKeepsOneLine(line, n);
      JoinedFirstMmr(cleaned, j, x);
  }

  /** A game result changes nothing in a field without tallies or mentions
      but its first MMR line: every other line, blank ones included, stays
      where it was. */
  lemma ScoreGameKeepsLines(value: string, won: bool)
    requires forall i :: 0 <= i < |Split(value, '\n')| ==> !Dropped(Split(value, '\n')[i])
    ensures |Split(ScoreGame(value, won), '\n')| == |Split(value, '\n')|
    ensures forall i :: 0 <= i < |Split(value, '\n')| && Some(i) != FirstLineWith(Split(value, '\n'), "MMR") ==>
      Split(ScoreGame(value, won), '\n')[i] == Split(value, '\n')[i]
  {
    var lines := Split(value, '\n');
    CleanKeepsAll(lines);
    match FirstLineWith(lines, "MMR")
    case None =>
      JoinOfSplit(value, '\n');
      assert ScoreGame(value, won) == value;
    case Some(j) =>
      var line := lines[j];
      var n := LineScore(line) + if won then 1 else 0;
      var x := RewriteScore(line, n);
      ScoreGameIs(value, won, lines, j, n);
      MmrSurvivesRewrite(line, n);
      RewriteKeepsOneLine(line, n);
      JoinedFirstMmr(lines, j, x);
  }

  /** The fields after a game result (`interactionCreate.ts:342-366`): the first two are the
      teams', credited by `WinnerField`; later fields are left alone. */
  function GameResult(fields: seq<Field>, winner: int): (r: seq<Field>)
    ensures |r| == |fields|
    ensures forall i :: 0 <= i < |fields| ==> r[i].name == fields[i].name
    ensures forall i :: 2 <= i < |fields| ==> r[i] == fields[i]
  {
    seq(|fields|, i requires 0 <= i < |fields| =>
      if i < 2 then fields[i].(value := ScoreGame(fields[i].value, i == WinnerField(winner)))
      else fields[i])
  }

  /** Only the winner's team field gains a point. */
  lemma GameResultScores(fields: seq<Field>, winner: int, i: nat)
    requires i < |fields| && i < 2 && Scorable(fields[i].value)
    ensures FieldScore(GameResult(fields, winner)[i].value)
         == FieldScore(fields[i].value) + if i == WinnerField(winner) then 1 else 0
  {
    ScoreGameCounts(fields[i].value, i == WinnerField(winner));
  }

  // ----- deciding the series -----

  /** The series flags of the match record; both may be set. */
  datatype SeriesKind = SeriesKind(bestOf3: bool, bestOf5: bool)

  /** A single game rather than a series. */
  predicate SingleGame(kind: SeriesKind) {
    !kind.bestOf3 && !kind.bestOf5
  }

  /** Games a series lasts at most: five wins over the three flag. */
  function SeriesLength(kind: SeriesKind): nat {
    if kind.bestOf5 then 5 else if kind.bestOf3 then 3 else 1
  }

  /** Wins that take the series (`interactionCreate.ts:370`). */
  function RequiredWins(kind: SeriesKind): nat {
    if kind.bestOf5 then 3 else if kind.bestOf3 then 2 else 1
  }

  /** A team that wins `RequiredWins` games has won a majority of the
      series, and no smaller number of wins is one. */
  lemma RequiredIsMajority(kind: SeriesKind)
    ensures 2 * RequiredWins(kind) > SeriesLength(kind)
    ensures 2 * (RequiredWins(kind) - 1) < SeriesLength(kind)
  {
  }

  /** The wins a team field shows, 0 for a missing field. */
  function TeamWins(fields: seq<Field>, i: nat): nat {
    if i < |fields| then FieldScore(fields[i].value) else 0
  }

  /** `interactionCreate.ts:374-379`: team 1 is checked first; 0 means nobody has won yet. */
  function SeriesWinner(team1Wins: int, team2Wins: int, required: int): nat {
    if team1Wins >= required then 1
    else if team2Wins >= required then 2
    else 0
  }

  /** What a finished game-result vote does. */
  datatype GameOutcome =
    | SetWinner(team: int)            // the winner is recorded and the match ended
    | Continue(fields: seq<Field>)    // the series goes on, showing these fields

  /** A passed game-result vote (`interactionCreate.ts:325-402`): a single game records the
      voted winner; a series credits the game, reads the tally back and ends
      once a team has the required wins. */
  function FinishGame(kind: SeriesKind, fields: seq<Field>, winner: int): GameOutcome {
    if SingleGame(kind) then SetWinner(winner)
    else
      var scored := GameResult(fields, winner);
      var w := SeriesWinner(TeamWins(scored, 0), TeamWins(scored, 1), RequiredWins(kind));
      if w != 0 then SetWinner(w) else Continue(scored)
  }

  /** A single game ends at once with the voted winner, whatever the fields
      show. */
  lemma SingleGameEnds(kind: SeriesKind, fields: seq<Field>, winner: int)
    requires SingleGame(kind)
    ensures FinishGame(kind, fields, winner) == SetWinner(winner)
  {
  }

  /** In an undecided series a game result ends the series exactly when it
      brings the game's winner to the required wins, and then that team is
      recorded; otherwise the winner's tally is one higher and the other's
      unchanged. */
  lemma SeriesDecision(kind: SeriesKind, fields: seq<Field>, winner: int)
    requires !SingleGame(kind) && |fields| >= 2
    requires Scorable(fields[0].value) && Scorable(fields[1].value)
    requires TeamWins(fields, 0) < RequiredWins(kind) && TeamWins(fields, 1) < RequiredWins(kind)
    ensures FinishGame(kind, fields, winner).SetWinner?
        <==> TeamWins(fields, WinnerField(winner)) + 1 >= RequiredWins(kind)
    ensures FinishGame(kind, fields, winner).SetWinner? ==>
      FinishGame(kind, fields, winner).team == WinnerField(winner) + 1
    ensures FinishGame(kind, fields, winner).Continue? ==>
      && TeamWins(FinishGame(kind, fields, winner).fields, WinnerField(winner))
         == TeamWins(fields, WinnerField(winner)) + 1
      && TeamWins(FinishGame(kind, fields, winner).fields, 1 - WinnerField(winner))
         == TeamWins(fields, 1 - WinnerField(winner))
  {
    var scored := GameResult(fields, winner);
    var w := WinnerField(winner);
    var r := RequiredWins(kind);
    GameResultScores(fields, winner, 0);
    GameResultScores(fields, winner, 1);
    assert TeamWins(scored, 0) == TeamWins(fields, 0) + if w == 0 then 1 else 0;
    assert TeamWins(scored, 1) == TeamWins(fields, 1) + if w == 1 then 1 else 0;
    WinnerAfterGame(TeamWins(fields, 0), TeamWins(fields, 1), w, r);
    var decided := SeriesWinner(TeamWins(scored, 0), TeamWins(scored, 1), r);
    assert FinishGame(kind, fields, winner) == if decided != 0 then SetWinner(decided) else Continue(scored);
  }

  /** The series arithmetic: from an undecided tally, one more win for team
      `w + 1` decides the series for that team or for nobody. */
  lemma WinnerAfterGame(wins1: nat, wins2: nat, w: nat, required: nat)
    requires w < 2 && wins1 < required && wins2 < required
    ensures SeriesWinner(wins1 + (if w == 0 then 1 else 0), wins2 + (if w == 1 then 1 else 0), required)
         == if (if w == 0 then wins1 else wins2) + 1 >= required then w + 1 else 0
  {
  }

  // ----- turning a match into a series -----

  /** The tally field a best-of vote keeps (`interactionCreate.ts:1061-1062`); any length other
      than 3 is treated as 5. */
  function VoteFieldName(bestOf: int): string {
    if bestOf == 3 then "Best of 3 Votes" else "Best of 5 Votes"
  }

  /** A field of that name is present. */
  predicate HasField(fields: seq<Field>, name: string) {
    exists i :: 0 <= i < |fields| && fields[i].name == name
  }

  /** `interactionCreate.ts:1063-1065`: the tally field is appended, showing `-`, when missing. */
  function AddVoteField(fields: seq<Field>, bestOf: int): (r: seq<Field>)
    ensures fields <= r && HasField(r, VoteFieldName(bestOf))
    ensures |r| == |fields| + 1 <==> !HasField(fields, VoteFieldName(bestOf))
    ensures |r| == |fields| + 1 ==> r[|fields|] == Field(VoteFieldName(bestOf), "-")
    ensures |r| <= |fields| + 1
  {
    if HasField(fields, VoteFieldName(bestOf)) then fields
    else
      var r := fields + [Field(VoteFieldName(bestOf), "-")];
      assert r[|fields|].name == VoteFieldName(bestOf);
      r
  }

  /** `interactionCreate.ts:1059-1065` on the message embed itself: an embed
      with a field list gets the tally field through `AddVoteField`, while
      for an embed without one `fields || []` is a fresh array, so the pushed
      field never reaches the embed. */
  function EmbedVoteFields(fields: Option<seq<Field>>, bestOf: int): (r: Option<seq<Field>>)
    ensures r.Some? <==> fields.Some?
    ensures r.Some? ==> fields.value <= r.value && HasField(r.value, VoteFieldName(bestOf))
    ensures r.Some? ==> (|r.value| == |fields.value| + 1 <==> !HasField(fields.value, VoteFieldName(bestOf)))
  {
    match fields
    case None => None
    case Some(fs) => Some(AddVoteField(fs, bestOf))
  }

  /** Adding the tally field twice is adding it once. */
  lemma AddVoteFieldOnce(fields: seq<Field>, bestOf: int)
    ensures AddVoteField(AddVoteField(fields, bestOf), bestOf) == AddVoteField(fields, bestOf)
  {
  }

  /** A message button: its caption, its identifier and whether it is
      disabled. The style is left out. */
  datatype Button = Button(caption: string, customId: string, disabled: bool)

  /** The action rows of the match message. */
  type Rows = seq<seq<Button>>

  /** Why the vote button cannot be set: the message has no second action row
      (`rows[1].components` throws), or row 1 is too short for index 2 to be
      an ordinary replacement or append. */
  datatype LayoutError = NoSecondRow | ShortVoteRow

  /** The button a passed best-of-3 vote puts up (`interactionCreate.ts:1079-1082`). */
  function BestOfFiveButton(matchId: nat): Button {
    Button("Vote BO5", BestOfVoteId(5, matchId), false)
  }

  /** The third button of row 1 is where the series vote sits. */
  predicate HasVoteSlot(rows: Rows) {
    |rows| >= 2 && |rows[1]| >= 3
  }

  /** `interactionCreate.ts:1078-1087`: a best-of-3 vote puts the best-of-5 button at index 2 of
      row 1, which replaces the third button or, on a two-button row, appends
      it; any other vote disables the third button. A shorter row, which the
      source fills with a hole or a blank disabled button and carries on, is
      modelled as `ShortVoteRow`. */
  function SetVoteButton(rows: Rows, bestOf: int, matchId: nat): (r: Result<Rows, LayoutError>)
    ensures r == Err(NoSecondRow) <==> |rows| < 2
    ensures r.Ok? <==> |rows| >= 2 && (|rows[1]| >= 3 || (bestOf == 3 && |rows[1]| == 2))
    ensures r.Ok? ==> |r.value| == |rows| && forall i :: 0 <= i < |rows| && i != 1 ==> r.value[i] == rows[i]
    ensures r.Ok? ==> |r.value[1]| == (if |rows[1]| >= 3 then |rows[1]| else 3)
    ensures r.Ok? ==> forall j :: 0 <= j < |rows[1]| && j != 2 ==> r.value[1][j] == rows[1][j]
    ensures r.Ok? && bestOf == 3 ==> r.value[1][2] == BestOfFiveButton(matchId)
    ensures r.Ok? && bestOf != 3 ==> r.value[1][2] == rows[1][2].(disabled := true)
  {
    if |rows| < 2 then Err(NoSecondRow)
    else if bestOf == 3 then
      if |rows[1]| >= 3 then Ok(rows[1 := rows[1][2 := BestOfFiveButton(matchId)]])
      else if |rows[1]| == 2 then Ok(rows[1 := rows[1] + [BestOfFiveButton(matchId)]])
      else Err(ShortVoteRow)
    else if |rows[1]| >= 3 then Ok(rows[1 := rows[1][2 := rows[1][2].(disabled := true)]])
    else Err(ShortVoteRow)
  }

  /** Escalation only goes one way: after a best-of-3 vote the slot holds a
      best-of-5 button whose identifier the handler reads back as a vote for
      5 on the same match; passing that vote disables it, and passing it
      again changes nothing. */
  lemma EscalationOneWay(rows: Rows, matchId: nat, afterThree: Rows, afterFive: Rows)
    requires SetVoteButton(rows, 3, matchId) == Ok(afterThree)
    requires SetVoteButton(afterThree, 5, matchId) == Ok(afterFive)
    ensures ReadBestOfVote(afterThree[1][2].customId) == BestOfRef(Some(5), Some(matchId))
    ensures !afterThree[1][2].disabled
    ensures afterFive[1][2] == BestOfFiveButton(matchId).(disabled := true)
    ensures SetVoteButton(afterFive, 5, matchId) == Ok(afterFive)
  {
    BestOfVoteRoundTrip(5, matchId);
    DisableAgain(afterFive);
  }

  /** Disabling a disabled button changes nothing. */
  lemma DisableAgain(rows: Rows)
    requires HasVoteSlot(rows) && rows[1][2].disabled
    ensures rows[1 := rows[1][2 := rows[1][2].(disabled := true)]] == rows
  {
    var b := rows[1][2];
    assert b.(disabled := true) == b;
    assert rows[1][2 := b] == rows[1];
  }

  /** Any layout that takes the best-of-3 vote, a two-button row 1
      included, takes the best-of-5 vote after it. */
  lemma SlotSurvivesEscalation(rows: Rows, matchId: nat)
    requires SetVoteButton(rows, 3, matchId).Ok?
    ensures SetVoteButton(rows, 3, matchId).Ok?
    ensures SetVoteButton(SetVoteButton(rows, 3, matchId).value, 5, matchId).Ok?
  {
  }

  /** One team field when a series vote passes (`interactionCreate.ts:1093-1104`): its first MMR
      line has its tag replaced by `Score: 0`; a field without an MMR line is
      left as it was. Unlike a game result, no line is cleared. */
  function ResetField(value: string): string {
    var lines := Split(value, '\n');
    match FirstLineWith(lines, "MMR")
    case None => value
    case Some(k) => Join(lines[k := ResetScore(lines[k])], '\n')
  }

  /** After the reset a field whose MMR line has at most one tag shows 0. */
  lemma ResetFieldZero(value: string)
    requires FirstLineWith(Split(value, '\n'), "MMR").Some?
    requires SingleTag(Split(value, '\n')[FirstLineWith(Split(value, '\n'), "MMR").value])
    ensures FieldScore(ResetField(value)) == 0
  {
    var lines := Split(value, '\n');
    var k := FirstLineWith(lines, "MMR").value;
    var x := ResetScore(lines[k]);
    ResetReadsZero(lines[k]);
    MmrSurvivesReset(lines[k]);
    RewriteKeepsOneLine(lines[k], 0);
    JoinedFirstMmr(lines, k, x);
  }

  /** What a passed series vote leaves. */
  datatype Escalation = Escalation(rows: Rows, fields: seq<Field>, bestOf: int)

  /** A series vote whose button could not be set, and the length the match
      record was given before that showed (`None`: nothing was recorded). */
  datatype SeriesVoteFailure = SeriesVoteFailure(error: LayoutError, recorded: Option<int>)

  /** `interactionCreate.ts:1072-1105`: the vote button is swapped or disabled, the match record
      takes the new length, and both team fields restart at 0. Without a
      second row the handler throws before anything is recorded; a row 1 too
      short for the button fails after `setMatchBestOf` has run. */
  function CompleteSeriesVote(rows: Rows, fields: seq<Field>, bestOf: int, matchId: nat)
    : (r: Result<Escalation, SeriesVoteFailure>)
    ensures r.Ok? <==> |rows| >= 2 && (|rows[1]| >= 3 || (bestOf == 3 && |rows[1]| == 2))
    ensures r.Err? ==> (r.error.recorded == None <==> |rows| < 2)
    ensures r.Err? && r.error.recorded.Some? ==> r.error.recorded.value == bestOf
    ensures r.Ok? ==> r.value.bestOf == bestOf && |r.value.fields| == |fields|
  {
    match SetVoteButton(rows, bestOf, matchId)
    case Err(e) => Err(SeriesVoteFailure(e, if e == NoSecondRow then None else Some(bestOf)))
    case Ok(buttons) =>
      Ok(Escalation(buttons, seq(|fields|, i requires 0 <= i < |fields| =>
        if i < 2 then fields[i].(value := ResetField(fields[i].value)) else fields[i]), bestOf))
  }

  /** A passed series vote records the voted length and restarts each team
      field with a single-tag MMR line at 0, touching no other field. */
  lemma SeriesVoteResets(rows: Rows, fields: seq<Field>, bestOf: int, matchId: nat, i: nat)
    requires SetVoteButton(rows, bestOf, matchId).Ok? && i < |fields|
    requires i < 2 ==> FirstLineWith(Split(fields[i].value, '\n'), "MMR").Some?
    requires i < 2 ==> SingleTag(Split(fields[i].value, '\n')[FirstLineWith(Split(fields[i].value, '\n'), "MMR").value])
    ensures CompleteSeriesVote(rows, fields, bestOf, matchId).value.bestOf == bestOf
    ensures |CompleteSeriesVote(rows, fields, bestOf, matchId).value.fields| == |fields|
    ensures CompleteSeriesVote(rows, fields, bestOf, matchId).value.fields[i].name == fields[i].name
    ensures i < 2 ==> FieldScore(CompleteSeriesVote(rows, fields, bestOf, matchId).value.fields[i].value) == 0
    ensures i >= 2 ==> CompleteSeriesVote(rows, fields, bestOf, matchId).value.fields[i] == fields[i]
  {
    if i < 2 {
      ResetFieldZero(fields[i].value);
    }
  }
}

=== FILE: customids.dfy ===
/** The `customId` strings that address a match, a draft step or a stake
    button, how the interaction handler builds them and how it reads them back
    (`split('-')` or `split('_')`, an index, then `parseInt`). */
module CustomIds {
  import opened Base
  import opened JsText

  /** `customId.split(sep)[k]` read with `parseInt`; a piece that is not there
      is `undefined`, which `parseInt` reads as `NaN` (`None`). */
  function NumberField(customId: string, sep: char, k: nat): (r: Option<int>)
    ensures k >= |Split(customId, sep)| ==> r == None
  {
    var parts := Split(customId, sep);
    if k < |parts| then ParseInt(parts[k]) else None
  }

  /** `customId.split(sep)[k]` kept as text. */
  function TextField(customId: string, sep: char, k: nat): (r: Option<string>)
    ensures r.Some? ==> sep !in r.value
  {
    var parts := Split(customId, sep);
    if k < |parts| then Some(parts[k]) else None
  }

  // ----- identifiers built by the interaction handler itself -----

  function HelpersConfirmId(matchId: nat): string {
    "helpers-confirm-" + NatToString(matchId)
  }

  function HelpersCancelId(matchId: nat): string {
    "helpers-cancel-" + NatToString(matchId)
  }

  function ContestConfirmId(matchId: nat, messageId: string): string {
    "contest-confirm-" + NatToString(matchId) + "-" + messageId
  }

  function ContestCancelId(matchId: nat): string {
    "contest-cancel-" + NatToString(matchId)
  }

  function DeleteContestId(matchId: nat): string {
    "delete-contest-" + NatToString(matchId)
  }

  /** The escalation button; the handler builds it with `bestOf` = 5. */
  function BestOfVoteId(bestOf: nat, matchId: nat): string {
    "bo-vote-" + NatToString(bestOf) + "-" + NatToString(matchId)
  }

  // ----- identifiers built elsewhere, in the layout this handler reads -----

  function DeckBansId(step: nat, matchId: nat, startingTeam: nat): string {
    "deck-bans-" + NatToString(step) + "-" + NatToString(matchId) + "-" + NatToString(startingTeam)
  }

  function UseDefaultBansId(step: nat, matchId: nat, startingTeam: nat): string {
    "use-default-bans-" + NatToString(step) + "-" + NatToString(matchId) + "-" + NatToString(startingTeam)
  }

  function StakeButtonId(stakeId: nat, slot: nat, matchId: nat): string {
    "stake-" + NatToString(stakeId) + "-" + NatToString(slot) + "-" + NatToString(matchId)
  }

  function CancelId(matchId: nat): string {
    "cancel-" + NatToString(matchId)
  }

  function RematchId(matchId: nat): string {
    "rematch-" + NatToString(matchId)
  }

  function MatchContestId(matchId: nat): string {
    "match-contest-" + NatToString(matchId)
  }

  function CallHelpersId(matchId: nat): string {
    "call-helpers-" + NatToString(matchId)
  }

  function ChangeWinnerId(matchId: nat): string {
    "change-match-winner-" + NatToString(matchId)
  }

  /** The select-menu value a finish vote carries: `winmatch_<match>_<team>`. */
  function WinMatchValue(matchId: nat, team: nat): string {
    "winmatch_" + NatToString(matchId) + "_" + NatToString(team)
  }

  // ----- what each handler reads out of its identifier -----

  datatype DraftStepRef = DraftStepRef(step: Option<int>, matchId: Option<int>, startingTeam: Option<int>)

  datatype StakeRef = StakeRef(stakeId: Option<int>, slot: Option<int>, matchId: Option<int>)

  datatype ContestRef = ContestRef(matchId: Option<int>, messageId: Option<string>)

  datatype BestOfRef = BestOfRef(bestOf: Option<int>, matchId: Option<int>)

  datatype WinRef = WinRef(matchId: Option<int>, team: Option<int>)

  function ReadDeckBans(customId: string): DraftStepRef {
    DraftStepRef(NumberField(customId, '-', 2), NumberField(customId, '-', 3), NumberField(customId, '-', 4))
  }

  function ReadUseDefaultBans(customId: string): DraftStepRef {
    DraftStepRef(NumberField(customId, '-', 3), NumberField(customId, '-', 4), NumberField(customId, '-', 5))
  }

  /** The stake handler reads the slot and match from its own identifier and,
      for the last enabled button, the stake from piece 1 of that button's. */
  function ReadStake(customId: string): StakeRef {
    StakeRef(NumberField(customId, '-', 1), NumberField(customId, '-', 2), NumberField(customId, '-', 3))
  }

  function ReadContestConfirm(customId: string): ContestRef {
    ContestRef(NumberField(customId, '-', 2), TextField(customId, '-', 3))
  }

  function ReadBestOfVote(customId: string): BestOfRef {
    BestOfRef(NumberField(customId, '-', 2), NumberField(customId, '-', 3))
  }

  function ReadWinMatch(value: string): WinRef {
    WinRef(NumberField(value, '_', 1), NumberField(value, '_', 2))
  }

  /** The match id of the identifiers that carry nothing else, at the piece
      their handler reads. */
  function ReadMatchAt(customId: string, k: nat): Option<int> {
    NumberField(customId, '-', k)
  }

  // ----- round trips -----

  /** A piece free of the separator followed by the separator splits off as the first piece. */
  lemma SplitAfter(a: string, b: string, sep: char)
    requires sep !in a
    ensures Split(a + [sep] + b, sep) == [a] + Split(b, sep)
  {
    var s := a + [sep] + b;
    assert IndexOf(s, sep) == |a| by {
      assert s[|a|] == sep;
      assert forall k :: 0 <= k < |a| ==> s[k] == a[k];
    }
    assert s[..|a|] == a;
    assert s[|a| + 1..] == b;
  }

  lemma SplitWhole(a: string, sep: char)
    requires sep !in a
    ensures Split(a, sep) == [a]
  {
    NoIndex(a, sep);
  }

  lemma NumbersHaveNoSeparator(n: nat, sep: char)
    requires !IsDigit(sep)
    ensures sep !in NatToString(n)
  {
    var s := NatToString(n);
    assert forall c :: c in s ==> IsDigit(c);
  }

  lemma SplitPieces3(a: string, b: string, c: string, sep: char)
    requires sep !in a && sep !in b && sep !in c
    ensures Split(a + [sep] + (b + [sep] + c), sep) == [a, b, c]
  {
    SplitWhole(c, sep);
    SplitAfter(b, c, sep);
    SplitAfter(a, b + [sep] + c, sep);
  }

  lemma Cons4(a: string, b: string, c: string, d: string)
    ensures [a] + [b, c, d] == [a, b, c, d]
  {
  }

  lemma Cons5(a: string, b: string, c: string, d: string, e: string)
    ensures [a] + [b, c, d, e] == [a, b, c, d, e]
  {
  }

  lemma Cons6(a: string, b: string, c: string, d: string, e: string, f: string)
    ensures [a] + [b, c, d, e, f] == [a, b, c, d, e, f]
  {
  }

  lemma SplitPieces4(a: string, b: string, c: string, d: string, sep: char)
    requires sep !in a && sep !in b && sep !in c && sep !in d
    ensures Split(a + [sep] + (b + [sep] + (c + [sep] + d)), sep) == [a, b, c, d]
  {
    var rest := b + [sep] + (c + [sep] + d);
    SplitPieces3(b, c, d, sep);
    assert Split(rest, sep) == [b, c, d];
    SplitAfter(a, rest, sep);
    Cons4(a, b, c, d);
  }

  lemma SplitPieces5(a: string, b: string, c: string, d: string, e: string, sep: char)
    requires sep !in a && sep !in b && sep !in c && sep !in d && sep !in e
    ensures Split(a + [sep] + (b + [sep] + (c + [sep] + (d + [sep] + e))), sep) == [a, b, c, d, e]
  {
    var rest := b + [sep] + (c + [sep] + (d + [sep] + e));
    SplitPieces4(b, c, d, e, sep);
    assert Split(rest, sep) == [b, c, d, e];
    SplitAfter(a, rest, sep);
    Cons5(a, b, c, d, e);
  }

  lemma SplitPieces6(a: string, b: string, c: string, d: string, e: string, f: string, sep: char)
    requires sep !in a && sep !in b && sep !in c && sep !in d && sep !in e && sep !in f
    ensures Split(a + [sep] + (b + [sep] + (c + [sep] + (d + [sep] + (e + [sep] + f)))), sep) == [a, b, c, d, e, f]
  {
    var rest := b + [sep] + (c + [sep] + (d + [sep] + (e + [sep] + f)));
    SplitPieces5(b, c, d, e, f, sep);
    assert Split(rest, sep) == [b, c, d, e, f];
    SplitAfter(a, rest, sep);
    Cons6(a, b, c, d, e, f);
  }

  /** The confirmation button for calling helpers addresses the match it was built for. */
  lemma HelpersConfirmRoundTrip(matchId: nat)
    ensures ReadMatchAt(HelpersConfirmId(matchId), 2) == Some(matchId)
  {
    var m := NatToString(matchId);
    NumbersHaveNoSeparator(matchId, '-');
    assert HelpersConfirmId(matchId) == "helpers" + ['-'] + ("confirm" + ['-'] + m);
    SplitPieces3("helpers", "confirm", m, '-');
    ParseIntOfNatToString(matchId);
  }

  /** The contest confirmation button carries both the match and the results
      message it was opened from, as long as the message id has no `-`
      (message ids are digit strings). */
  lemma ContestConfirmRoundTrip(matchId: nat, messageId: string)
    requires '-' !in messageId
    ensures ReadContestConfirm(ContestConfirmId(matchId, messageId)) == ContestRef(Some(matchId), Some(messageId))
  {
    var m := NatToString(matchId);
    NumbersHaveNoSeparator(matchId, '-');
    assert ContestConfirmId(matchId, messageId) == "contest" + ['-'] + ("confirm" + ['-'] + (m + ['-'] + messageId));
    SplitPieces4("contest", "confirm", m, messageId, '-');
    ParseIntOfNatToString(matchId);
  }

  /** The contest channel's delete button addresses its match. */
  lemma DeleteContestRoundTrip(matchId: nat)
    ensures ReadMatchAt(DeleteContestId(matchId), 2) == Some(matchId)
  {
    var m := NatToString(matchId);
    NumbersHaveNoSeparator(matchId, '-');
    assert DeleteContestId(matchId) == "delete" + ['-'] + ("contest" + ['-'] + m);
    SplitPieces3("delete", "contest", m, '-');
    ParseIntOfNatToString(matchId);
  }

  /** The escalation button is read back as the series length and match it was built with. */
  lemma BestOfVoteRoundTrip(bestOf: nat, matchId: nat)
    ensures ReadBestOfVote(BestOfVoteId(bestOf, matchId)) == BestOfRef(Some(bestOf), Some(matchId))
  {
    var b := NatToString(bestOf);
    var m := NatToString(matchId);
    NumbersHaveNoSeparator(bestOf, '-');
    NumbersHaveNoSeparator(matchId, '-');
    assert BestOfVoteId(bestOf, matchId) == "bo" + ['-'] + ("vote" + ['-'] + (b + ['-'] + m));
    SplitPieces4("bo", "vote", b, m, '-');
    ParseIntOfNatToString(bestOf);
    ParseIntOfNatToString(matchId);
  }

  /** A deck-ban menu is read back as its step, match and starting team. */
  lemma DeckBansRoundTrip(step: nat, matchId: nat, startingTeam: nat)
    ensures ReadDeckBans(DeckBansId(step, matchId, startingTeam))
         == DraftStepRef(Some(step), Some(matchId), Some(startingTeam))
  {
    var a := NatToString(step);
    var m := NatToString(matchId);
    var t := NatToString(startingTeam);
    NumbersHaveNoSeparator(step, '-');
    NumbersHaveNoSeparator(matchId, '-');
    NumbersHaveNoSeparator(startingTeam, '-');
    assert DeckBansId(step, matchId, startingTeam) == "deck" + ['-'] + ("bans" + ['-'] + (a + ['-'] + (m + ['-'] + t)));
    SplitPieces5("deck", "bans", a, m, t, '-');
    ParseIntOfNatToString(step);
    ParseIntOfNatToString(matchId);
    ParseIntOfNatToString(startingTeam);
  }

  /** The "use default bans" button is read back as its step, match and starting team. */
  lemma UseDefaultBansRoundTrip(step: nat, matchId: nat, startingTeam: nat)
    ensures ReadUseDefaultBans(UseDefaultBansId(step, matchId, startingTeam))
         == DraftStepRef(Some(step), Some(matchId), Some(startingTeam))
  {
    var a := NatToString(step);
    var m := NatToString(matchId);
    var t := NatToString(startingTeam);
    NumbersHaveNoSeparator(step, '-');
    NumbersHaveNoSeparator(matchId, '-');
    NumbersHaveNoSeparator(startingTeam, '-');
    assert UseDefaultBansId(step, matchId, startingTeam)
        == "use" + ['-'] + ("default" + ['-'] + ("bans" + ['-'] + (a + ['-'] + (m + ['-'] + t))));
    SplitPieces6("use", "default", "bans", a, m, t, '-');
    ParseIntOfNatToString(step);
    ParseIntOfNatToString(matchId);
    ParseIntOfNatToString(startingTeam);
  }

  /** A stake button is read back as its stake, board slot and match. */
  lemma StakeButtonRoundTrip(stakeId: nat, slot: nat, matchId: nat)
    ensures ReadStake(StakeButtonId(stakeId, slot, matchId)) == StakeRef(Some(stakeId), Some(slot), Some(matchId))
  {
    var a := NatToString(stakeId);
    var k := NatToString(slot);
    var m := NatToString(matchId);
    NumbersHaveNoSeparator(stakeId, '-');
    NumbersHaveNoSeparator(slot, '-');
    NumbersHaveNoSeparator(matchId, '-');
    assert StakeButtonId(stakeId, slot, matchId) == "stake" + ['-'] + (a + ['-'] + (k + ['-'] + m));
    SplitPieces4("stake", a, k, m, '-');
    ParseIntOfNatToString(stakeId);
    ParseIntOfNatToString(slot);
    ParseIntOfNatToString(matchId);
  }

  /** A finish-vote value is read back as its match and team. */
  lemma WinMatchRoundTrip(matchId: nat, team: nat)
    ensures ReadWinMatch(WinMatchValue(matchId, team)) == WinRef(Some(matchId), Some(team))
  {
    var m := NatToString(matchId);
    var t := NatToString(team);
    NumbersHaveNoSeparator(matchId, '_');
    NumbersHaveNoSeparator(team, '_');
    assert WinMatchValue(matchId, team) == "winmatch" + ['_'] + (m + ['_'] + t);
    SplitPieces3("winmatch", m, t, '_');
    ParseIntOfNatToString(matchId);
    ParseIntOfNatToString(team);
  }

  /** The cancel and rematch buttons carry the match at piece 1. */
  lemma OneWordButtonsRoundTrip(matchId: nat)
    ensures ReadMatchAt(CancelId(matchId), 1) == Some(matchId)
    ensures ReadMatchAt(RematchId(matchId), 1) == Some(matchId)
  {
    assert CancelId(matchId) == "cancel" + ['-'] + NatToString(matchId);
    OneWordRoundTrip("cancel", CancelId(matchId), matchId);
    assert RematchId(matchId) == "rematch" + ['-'] + NatToString(matchId);
    OneWordRoundTrip("rematch", RematchId(matchId), matchId);
  }

  /** An identifier made of one word and the match id carries the match at piece 1. */
  lemma OneWordRoundTrip(word: string, customId: string, matchId: nat)
    requires '-' !in word && customId == word + ['-'] + NatToString(matchId)
    ensures ReadMatchAt(customId, 1) == Some(matchId)
  {
    var m := NatToString(matchId);
    NumbersHaveNoSeparator(matchId, '-');
    SplitWhole(m, '-');
    SplitAfter(word, m, '-');
    assert Split(customId, '-') == [word, m];
    ParseIntOfNatToString(matchId);
  }

  /** The contest button on a results message carries the match at piece 2. */
  lemma MatchContestRoundTrip(matchId: nat)
    ensures ReadMatchAt(MatchContestId(matchId), 2) == Some(matchId)
  {
    var m := NatToString(matchId);
    NumbersHaveNoSeparator(matchId, '-');
    assert MatchContestId(matchId) == "match" + ['-'] + ("contest" + ['-'] + m);
    SplitPieces3("match", "contest", m, '-');
    ParseIntOfNatToString(matchId);
  }

  /** The call-helpers button carries the match at piece 2. */
  lemma CallHelpersRoundTrip(matchId: nat)
    ensures ReadMatchAt(CallHelpersId(matchId), 2) == Some(matchId)
  {
    var m := NatToString(matchId);
    NumbersHaveNoSeparator(matchId, '-');
    assert CallHelpersId(matchId) == "call" + ['-'] + ("helpers" + ['-'] + m);
    SplitPieces3("call", "helpers", m, '-');
    ParseIntOfNatToString(matchId);
  }

  /** The winner-change menu carries the match at piece 3. */
  lemma ChangeWinnerRoundTrip(matchId: nat)
    ensures ReadMatchAt(ChangeWinnerId(matchId), 3) == Some(matchId)
  {
    var m := NatToString(matchId);
    NumbersHaveNoSeparator(matchId, '-');
    assert ChangeWinnerId(matchId) == "change" + ['-'] + ("match" + ['-'] + ("winner" + ['-'] + m));
    SplitPieces4("change", "match", "winner", m, '-');
    ParseIntOfNatToString(matchId);
  }

  // ----- dispatch -----

  /** The button handlers, in the order the dispatcher tests them. */
  datatype ButtonHandler =
    | UseDefaultBans | RemoveUserDeckBans | ViewStats | LeaveQueue | CheckQueued
    | SetPriorityQueue | CancelMatch | CallHelpers | HelpersConfirm | HelpersCancel
    | ContestConfirm | ContestCancel | DeleteContest | Rematch | MatchContest
    | BestOfVote | StakeBan | VetoStake | AcceptPartyInvite

  /** Every button handler whose test accepts `customId`, in order: the tests
      are separate `if`s, not an `else if` chain, so more than one could run. */
  function ButtonHandlers(customId: string): seq<ButtonHandler>
  {
    (if StartsWith(customId, "use-default-bans-") then [UseDefaultBans] else [])
    + (if StartsWith(customId, "remove-user-deck-bans-") then [RemoveUserDeckBans] else [])
    + (if StartsWith(customId, "view-stats-") then [ViewStats] else [])
    + (if customId == "leave-queue" then [LeaveQueue] else [])
    + (if customId == "check-queued" then [CheckQueued] else [])
    + (if customId == "set-priority-queue" then [SetPriorityQueue] else [])
    + (if StartsWith(customId, "cancel-") then [CancelMatch] else [])
    + (if StartsWith(customId, "call-helpers-") then [CallHelpers] else [])
    + (if StartsWith(customId, "helpers-confirm") then [HelpersConfirm] else [])
    + (if StartsWith(customId, "helpers-cancel-") then [HelpersCancel] else [])
    + (if StartsWith(customId, "contest-confirm-") then [ContestConfirm] else [])
    + (if StartsWith(customId, "contest-cancel-") then [ContestCancel] else [])
    + (if StartsWith(customId, "delete-contest-") then [DeleteContest] else [])
    + (if StartsWith(customId, "rematch-") then [Rematch] else [])
    + (if StartsWith(customId, "match-contest-") then [MatchContest] else [])
    + (if StartsWith(customId, "bo-vote-") then [BestOfVote] else [])
    + (if StartsWith(customId, "stake-") then [StakeBan] else [])
    + (if customId == "veto-stake" then [VetoStake] else [])
    + (if StartsWith(customId, "accept-party-invite-") then [AcceptPartyInvite] else [])
  }

  /** `id` does not pass a test for `p` when the two differ at some position
      inside the known prefix `w` of `id`. */
  lemma DiffersAt(id: string, w: string, p: string, i: nat)
    requires w <= id && i < |w| && i < |p| && p[i] != w[i]
    ensures !StartsWith(id, p) && id != p
  {
    assert id[i] == w[i];
  }

  /** The confirmation button for calling helpers reaches its own handler and no other. */
  lemma HelpersConfirmReachesOneHandler(matchId: nat)
    ensures ButtonHandlers(HelpersConfirmId(matchId)) == [HelpersConfirm]
  {
    var id := HelpersConfirmId(matchId);
    var w := "helpers-confirm-";
    assert w <= id;
    DiffersAt(id, w, "use-default-bans-", 0);
    DiffersAt(id, w, "remove-user-deck-bans-", 0);
    DiffersAt(id, w, "view-stats-", 0);
    DiffersAt(id, w, "leave-queue", 0);
    DiffersAt(id, w, "check-queued", 0);
    DiffersAt(id, w, "set-priority-queue", 0);
    DiffersAt(id, w, "cancel-", 0);
    DiffersAt(id, w, "call-helpers-", 0);
    assert StartsWith(id, "helpers-confirm");
    DiffersAt(id, w, "helpers-cancel-", 9);
    DiffersAt(id, w, "contest-confirm-", 0);
    DiffersAt(id, w, "contest-cancel-", 0);
    DiffersAt(id, w, "delete-contest-", 0);
    DiffersAt(id, w, "rematch-", 0);
    DiffersAt(id, w, "match-contest-", 0);
    DiffersAt(id, w, "bo-vote-", 0);
    DiffersAt(id, w, "stake-", 0);
    DiffersAt(id, w, "veto-stake", 0);
    DiffersAt(id, w, "accept-party-invite-", 0);
  }

  /** The button that dismisses the call-helpers prompt reaches its own handler and no other. */
  lemma HelpersCancelReachesOneHandler(matchId: nat)
    ensures ButtonHandlers(HelpersCancelId(matchId)) == [HelpersCancel]
  {
    var id := HelpersCancelId(matchId);
    var w := "helpers-cancel-";
    assert w <= id;
    DiffersAt(id, w, "use-default-bans-", 0);
    DiffersAt(id, w, "remove-user-deck-bans-", 0);
    DiffersAt(id, w, "view-stats-", 0);
    DiffersAt(id, w, "leave-queue", 0);
    DiffersAt(id, w, "check-queued", 0);
    DiffersAt(id, w, "set-priority-queue", 0);
    DiffersAt(id, w, "cancel-", 0);
    DiffersAt(id, w, "call-helpers-", 0);
    DiffersAt(id, w, "helpers-confirm", 9);
    assert StartsWith(id, "helpers-cancel-");
    DiffersAt(id, w, "contest-confirm-", 0);
    DiffersAt(id, w, "contest-cancel-", 0);
    DiffersAt(id, w, "delete-contest-", 0);
    DiffersAt(id, w, "rematch-", 0);
    DiffersAt(id, w, "match-contest-", 0);
    DiffersAt(id, w, "bo-vote-", 0);
    DiffersAt(id, w, "stake-", 0);
    DiffersAt(id, w, "veto-stake", 0);
    DiffersAt(id, w, "accept-party-invite-", 0);
  }

  /** The contest confirmation button reaches its own handler and no other. */
  lemma ContestConfirmReachesOneHandler(matchId: nat, messageId: string)
    ensures ButtonHandlers(ContestConfirmId(matchId, messageId)) == [ContestConfirm]
  {
    var id := ContestConfirmId(matchId, messageId);
    var w := "contest-confirm-";
    assert w <= id;
    DiffersAt(id, w, "use-default-bans-", 0);
    DiffersAt(id, w, "remove-user-deck-bans-", 0);
    DiffersAt(id, w, "view-stats-", 0);
    DiffersAt(id, w, "leave-queue", 0);
    DiffersAt(id, w, "check-queued", 1);
    DiffersAt(id, w, "set-priority-queue", 0);
    DiffersAt(id, w, "cancel-", 1);
    DiffersAt(id, w, "call-helpers-", 1);
    DiffersAt(id, w, "helpers-confirm", 0);
    DiffersAt(id, w, "helpers-cancel-", 0);
    assert StartsWith(id, "contest-confirm-");
    DiffersAt(id, w, "contest-cancel-", 9);
    DiffersAt(id, w, "delete-contest-", 0);
    DiffersAt(id, w, "rematch-", 0);
    DiffersAt(id, w, "match-contest-", 0);
    DiffersAt(id, w, "bo-vote-", 0);
    DiffersAt(id, w, "stake-", 0);
    DiffersAt(id, w, "veto-stake", 0);
    DiffersAt(id, w, "accept-party-invite-", 0);
  }

  /** The button that dismisses the contest prompt reaches its own handler and no other. */
  lemma ContestCancelReachesOneHandler(matchId: nat)
    ensures ButtonHandlers(ContestCancelId(matchId)) == [ContestCancel]
  {
    var id := ContestCancelId(matchId);
    var w := "contest-cancel-";
    assert w <= id;
    DiffersAt(id, w, "use-default-bans-", 0);
    DiffersAt(id, w, "remove-user-deck-bans-", 0);
    DiffersAt(id, w, "view-stats-", 0);
    DiffersAt(id, w, "leave-queue", 0);
    DiffersAt(id, w, "check-queued", 1);
    DiffersAt(id, w, "set-priority-queue", 0);
    DiffersAt(id, w, "cancel-", 1);
    DiffersAt(id, w, "call-helpers-", 1);
    DiffersAt(id, w, "helpers-confirm", 0);
    DiffersAt(id, w, "helpers-cancel-", 0);
    DiffersAt(id, w, "contest-confirm-", 9);
    assert StartsWith(id, "contest-cancel-");
    DiffersAt(id, w, "delete-contest-", 0);
    DiffersAt(id, w, "rematch-", 0);
    DiffersAt(id, w, "match-contest-", 0);
    DiffersAt(id, w, "bo-vote-", 0);
    DiffersAt(id, w, "stake-", 0);
    DiffersAt(id, w, "veto-stake", 0);
    DiffersAt(id, w, "accept-party-invite-", 0);
  }

  /** The contest channel's delete button reaches its own handler and no other. */
  lemma DeleteContestReachesOneHandler(matchId: nat)
    ensures ButtonHandlers(DeleteContestId(matchId)) == [DeleteContest]
  {
    var id := DeleteContestId(matchId);
    var w := "delete-contest-";
    assert w <= id;
    DiffersAt(id, w, "use-default-bans-", 0);
    DiffersAt(id, w, "remove-user-deck-bans-", 0);
    DiffersAt(id, w, "view-stats-", 0);
    DiffersAt(id, w, "leave-queue", 0);
    DiffersAt(id, w, "check-queued", 0);
    DiffersAt(id, w, "set-priority-queue", 0);
    DiffersAt(id, w, "cancel-", 0);
    DiffersAt(id, w, "call-helpers-", 0);
    DiffersAt(id, w, "helpers-confirm", 0);
    DiffersAt(id, w, "helpers-cancel-", 0);
    DiffersAt(id, w, "contest-confirm-", 0);
    DiffersAt(id, w, "contest-cancel-", 0);
    assert StartsWith(id, "delete-contest-");
    DiffersAt(id, w, "rematch-", 0);
    DiffersAt(id, w, "match-contest-", 0);
    DiffersAt(id, w, "bo-vote-", 0);
    DiffersAt(id, w, "stake-", 0);
    DiffersAt(id, w, "veto-stake", 0);
    DiffersAt(id, w, "accept-party-invite-", 0);
  }

  /** The best-of-5 escalation button reaches its own handler and no other. */
  lemma BestOfFiveReachesOneHandler(matchId: nat)
    ensures ButtonHandlers(BestOfVoteId(5, matchId)) == [BestOfVote]
  {
    var id := BestOfVoteId(5, matchId);
    var w := "bo-vote-";
    assert w <= id;
    DiffersAt(id, w, "use-default-bans-", 0);
    DiffersAt(id, w, "remove-user-deck-bans-", 0);
    DiffersAt(id, w, "view-stats-", 0);
    DiffersAt(id, w, "leave-queue", 0);
    DiffersAt(id, w, "check-queued", 0);
    DiffersAt(id, w, "set-priority-queue", 0);
    DiffersAt(id, w, "cancel-", 0);
    DiffersAt(id, w, "call-helpers-", 0);
    DiffersAt(id, w, "helpers-confirm", 0);
    DiffersAt(id, w, "helpers-cancel-", 0);
    DiffersAt(id, w, "contest-confirm-", 0);
    DiffersAt(id, w, "contest-cancel-", 0);
    DiffersAt(id, w, "delete-contest-", 0);
    DiffersAt(id, w, "rematch-", 0);
    DiffersAt(id, w, "match-contest-", 0);
    assert StartsWith(id, "bo-vote-");
    DiffersAt(id, w, "stake-", 0);
    DiffersAt(id, w, "veto-stake", 0);
    DiffersAt(id, w, "accept-party-invite-", 0);
  }
}

=== FILE: deckban.dfy ===
/** The deck-ban draft as the interaction handler drives it: a select menu
    (`deck-bans-<step>-<match>-<startingTeam>`) and a "use default bans"
    button, both guarded by the same turn check before anything is deleted or
    advanced. The draft's own bookkeeping (`advanceDeckBanStep`) is a
    collaborator; the model records each advance it is asked for. */
module DeckBan {
  import opened Base
  import opened Teams

  /** The team whose turn it is at `step` of a draft that `startingTeam` opened:
      `(startingTeamId + step) % 2`. */
  function ActiveTeam(startingTeam: nat, step: nat): TeamIndex {
    (startingTeam + step) % 2
  }

  /** Turns strictly alternate: each step hands the draft to the other team. */
  lemma TurnsAlternate(startingTeam: nat, step: nat)
    ensures ActiveTeam(startingTeam, step + 1) == Other(ActiveTeam(startingTeam, step))
  {
  }

  /** With team 0 starting, team 0 acts on even steps and team 1 on odd steps;
      with team 1 starting it is the other way round. */
  lemma {:induction false} TurnParity(startingTeam: nat, step: nat)
    requires startingTeam < 2
    ensures step % 2 == 0 ==> ActiveTeam(startingTeam, step) == startingTeam
    ensures step % 2 == 1 ==> ActiveTeam(startingTeam, step) == 1 - startingTeam
    decreases step
  {
    if step >= 2 {
      TurnParity(startingTeam, step - 2);
      assert ActiveTeam(startingTeam, step) == ActiveTeam(startingTeam, step - 2);
    }
  }

  /** The one user allowed to act at a step: the first player of the active
      team, if that team has any player. */
  function Captain(teams: MatchTeams, startingTeam: nat, step: nat): Option<UserId> {
    var players := teams.Players(ActiveTeam(startingTeam, step));
    if |players| == 0 then None else Some(players[0])
  }

  /** One request to the draft collaborator to record a step's bans and move on. */
  datatype Advance = Advance(step: nat, startingTeam: nat, decks: seq<int>, fromDefaults: bool)

  /** What the handlers change: whether the step's menu message is still posted,
      and the advances requested so far. */
  datatype DraftLog = DraftLog(menuPosted: bool, advances: seq<Advance>)

  datatype DeckBanError =
    | NotYourTurn        // "It's not your turn ..."
    | NoDefaultsSaved    // "You don't have any default deck bans set ..."
    | HandlerFailed      // `players[0].user_id` of an empty team throws

  datatype DeckBanStep = DeckBanStep(log: DraftLog, outcome: Result<Advance, DeckBanError>)

  /** The turn check both handlers share. */
  function TurnCheck(teams: MatchTeams, user: UserId, startingTeam: nat, step: nat): Option<DeckBanError> {
    match Captain(teams, startingTeam, step)
    case None => Some(HandlerFailed)
    case Some(c) => if c == user then None else Some(NotYourTurn)
  }

  /** A ban chosen from the `deck-bans-...` menu. */
  function SubmitBans(log: DraftLog, teams: MatchTeams, user: UserId, step: nat, startingTeam: nat, decks: seq<int>)
    : (r: DeckBanStep)
    ensures r.outcome.Ok? <==> Captain(teams, startingTeam, step) == Some(user)
    ensures r.outcome == Err(HandlerFailed) <==> Captain(teams, startingTeam, step) == None
    ensures r.outcome == Err(NotYourTurn) <==>
      Captain(teams, startingTeam, step).Some? && Captain(teams, startingTeam, step) != Some(user)
    ensures r.outcome.Err? ==> r.log == log
    ensures r.outcome.Ok? ==>
      && !r.log.menuPosted
      && r.log.advances == log.advances + [r.outcome.value]
      && r.outcome.value == Advance(step, startingTeam, decks, false)
  {
    match TurnCheck(teams, user, startingTeam, step)
    case Some(e) => DeckBanStep(log, Err(e))
    case None =>
      var a := Advance(step, startingTeam, decks, false);
      DeckBanStep(DraftLog(false, log.advances + [a]), Ok(a))
  }

  /** The "use default bans" button; `saved` is what the collaborator finds for
      this user and queue (`None`: nothing saved). */
  function UseDefaultBans(log: DraftLog, teams: MatchTeams, user: UserId, step: nat, startingTeam: nat,
                          saved: Option<seq<int>>)
    : (r: DeckBanStep)
    ensures r.outcome.Ok? <==> Captain(teams, startingTeam, step) == Some(user) && saved.Some?
    ensures r.outcome == Err(HandlerFailed) <==> Captain(teams, startingTeam, step) == None
    ensures r.outcome == Err(NotYourTurn) <==>
      Captain(teams, startingTeam, step).Some? && Captain(teams, startingTeam, step) != Some(user)
    ensures r.outcome == Err(NoDefaultsSaved) <==> Captain(teams, startingTeam, step) == Some(user) && saved == None
    ensures r.outcome.Err? ==> r.log == log
    ensures r.outcome.Ok? ==>
      && !r.log.menuPosted
      && r.outcome.value == Advance(step, startingTeam, saved.value, true)
      && r.log.advances == log.advances + [r.outcome.value]
  {
    match TurnCheck(teams, user, startingTeam, step)
    case Some(e) => DeckBanStep(log, Err(e))
    case None =>
      match saved
      case None => DeckBanStep(log, Err(NoDefaultsSaved))
      case Some(decks) =>
        var a := Advance(step, startingTeam, decks, true);
        DeckBanStep(DraftLog(false, log.advances + [a]), Ok(a))
  }

  /** Both handlers turn away exactly the same users, for the same reason. */
  lemma SameTurnCheckForDefaults(log: DraftLog, teams: MatchTeams, user: UserId, step: nat, startingTeam: nat,
                                 decks: seq<int>, saved: Option<seq<int>>)
    ensures SubmitBans(log, teams, user, step, startingTeam, decks).outcome == Err(NotYourTurn)
        <==> UseDefaultBans(log, teams, user, step, startingTeam, saved).outcome == Err(NotYourTurn)
  {
  }

  /** At most one user can act at any step. */
  lemma OneActorPerStep(log: DraftLog, teams: MatchTeams, u1: UserId, u2: UserId, step: nat, startingTeam: nat,
                        d1: seq<int>, d2: seq<int>)
    requires SubmitBans(log, teams, u1, step, startingTeam, d1).outcome.Ok?
    requires SubmitBans(log, teams, u2, step, startingTeam, d2).outcome.Ok?
    ensures u1 == u2
  {
  }

  /** When the two teams have different first players, whoever acted at one
      step is turned away at the next. */
  lemma NoTwoStepsInARow(log: DraftLog, teams: MatchTeams, user: UserId, step: nat, startingTeam: nat,
                         d1: seq<int>, d2: seq<int>)
    requires |teams.team0| > 0 && |teams.team1| > 0 && teams.team0[0] != teams.team1[0]
    requires SubmitBans(log, teams, user, step, startingTeam, d1).outcome.Ok?
    ensures SubmitBans(log, teams, user, step + 1, startingTeam, d2).outcome == Err(NotYourTurn)
  {
    TurnsAlternate(startingTeam, step);
  }
}

=== FILE: eligibility.dfy ===
/** Who may do what: the helper override, contesting a match, accepting a
    party invite, and the priority-queue choice. */
module Eligibility {
  import opened Base
  import opened Teams

  /** The member behind an interaction, with the role ids they hold. */
  datatype Member = Member(id: UserId, roles: set<string>)

  /** The two staff roles of the bot settings. */
  datatype StaffRoles = StaffRoles(helperRole: string, queueHelperRole: string)

  /** A staff member who is not playing in the match (`interactionCreate.ts:282-285`,
      `interactionCreate.ts:745-749`); an interaction without a member has no authority. */
  predicate HelperAuthority(member: Option<Member>, staff: StaffRoles, participants: seq<UserId>) {
    && member.Some?
    && (staff.helperRole in member.value.roles || staff.queueHelperRole in member.value.roles)
    && member.value.id !in participants
  }

  /** Only a player of the match may contest it (`interactionCreate.ts:1019-1025`). */
  predicate CanContest(user: UserId, participants: seq<UserId>) {
    user in participants
  }

  /** Nobody can both override a match as a helper and contest it: the
      override is for outsiders, the contest for players. */
  lemma OverrideOrContest(member: Member, staff: StaffRoles, participants: seq<UserId>)
    ensures !(HelperAuthority(Some(member), staff, participants) && CanContest(member.id, participants))
    ensures member.id in participants ==> !HelperAuthority(Some(member), staff, participants)
    ensures member.id !in participants ==>
      (HelperAuthority(Some(member), staff, participants)
       <==> staff.helperRole in member.roles || staff.queueHelperRole in member.roles)
  {
  }

  /** How long a party invite stays valid, in milliseconds. */
  const InviteLifetime: int := 5 * 60 * 1000

  /** `!partyId`: no party, or the falsy id 0. */
  predicate NoParty(partyId: Option<int>) {
    partyId.None? || partyId.value == 0
  }

  /** `interactionCreate.ts:1242-1245`: the invite has expired when more than five minutes have
      passed since it was sent, or the inviter has no party any more. */
  predicate InviteExpired(now: int, sentAt: int, partyId: Option<int>) {
    now - sentAt > InviteLifetime || NoParty(partyId)
  }

  /** An invite is accepted up to and including the five-minute mark, only
      while the party exists, and once expired it stays expired. */
  lemma InviteWindow(now: int, later: int, sentAt: int, partyId: Option<int>)
    requires now <= later
    ensures !InviteExpired(now, sentAt, partyId) <==> now <= sentAt + 300000 && !NoParty(partyId)
    ensures InviteExpired(now, sentAt, partyId) ==> InviteExpired(later, sentAt, partyId)
  {
  }

  /** The priority queue as stored. */
  datatype Priority = PriorityQueue(queueId: int) | NoPriority | NotANumber

  /** `interactionCreate.ts:201-203`: the option value `-1` stands for no priority queue; a
      value `parseInt` cannot read stays `NaN`. */
  function PriorityChoice(parsed: Option<int>): Priority {
    match parsed
    case None => NotANumber
    case Some(v) => if v == -1 then NoPriority else PriorityQueue(v)
  }

  /** `if (queueSelId)`: the confirmation names a queue only for a truthy
      id; null, 0 and `NaN` all report the priority as removed. */
  predicate NamesQueue(p: Priority) {
    p.PriorityQueue? && p.queueId != 0
  }

  /** The menu's "remove" option clears the priority and says so; a queue's
      own option stores that queue and names it, unless its id is 0. */
  lemma PriorityOptions(queueId: nat)
    ensures PriorityChoice(Some(-1)) == NoPriority && !NamesQueue(PriorityChoice(Some(-1)))
    ensures PriorityChoice(Some(queueId)) == PriorityQueue(queueId)
    ensures NamesQueue(PriorityChoice(Some(queueId))) <==> queueId != 0
  {
  }
}

=== FILE: eloband.dfy ===
/** The colour band of a rating on the elo graph (`getColor` inside
    `createGraph`): the rating is compared with every split in turn. */
module EloBand {
  /** `config.eloSplits`. */
  const EloSplits: seq<real> := [250.0, 320.0, 460.0, 620.0]

  /** The line colours, one per band: `eloColors`. */
  datatype Colour = Stone | Steel | Gold | Lucky | Glass

  const EloColours: seq<Colour> := [Stone, Steel, Gold, Lucky, Glass]

  predicate Ascending(splits: seq<real>) {
    forall i, j :: 0 <= i < j < |splits| ==> splits[i] < splits[j]
  }

  /** How many splits the rating has reached. */
  function Reached(splits: seq<real>, rating: real): (k: nat)
    ensures k <= |splits|
  {
    if |splits| == 0 then 0
    else Reached(splits[..|splits| - 1], rating) + (if rating >= splits[|splits| - 1] then 1 else 0)
  }

  /** With ascending splits every split before a reached one is reached too. */
  lemma {:induction false} ReachedAll(splits: seq<real>, rating: real)
    requires Ascending(splits)
    requires |splits| > 0 && rating >= splits[|splits| - 1]
    ensures Reached(splits, rating) == |splits|
    decreases |splits|
  {
    var init := splits[..|splits| - 1];
    if |init| > 0 {
      assert init[|init| - 1] == splits[|splits| - 2];
      ReachedAll(init, rating);
    }
  }

  /** The loop of `getColor`: a reached split `i` sets the index to `i + 1`,
      so the index ends one past the last split the rating reaches. For the
      ascending splits of the configuration that is the number reached. */
  method BandIndex(splits: seq<real>, rating: real) returns (idx: nat)
    ensures idx <= |splits|
    ensures idx > 0 ==> rating >= splits[idx - 1]
    ensures forall j :: idx <= j < |splits| ==> rating < splits[j]
    ensures Ascending(splits) ==> idx == Reached(splits, rating)
  {
    idx := 0;
    for i := 0 to |splits|
      invariant idx <= i
      invariant idx > 0 ==> rating >= splits[idx - 1]
      invariant forall j :: idx <= j < i ==> rating < splits[j]
      invariant Ascending(splits) ==> idx == Reached(splits[..i], rating)
    {
      assert splits[..i + 1][..i] == splits[..i];
      if rating >= splits[i] {
        if Ascending(splits) {
          ReachedAll(splits[..i + 1], rating);
        }
        idx := i + 1;
      }
    }
    assert splits[..|splits|] == splits;
  }

  /** `getColor`: the colour of the band the rating falls in. */
  method GetColour(rating: real) returns (c: Colour)
    ensures c == EloColours[Reached(EloSplits, rating)]
  {
    var idx := BandIndex(EloSplits, rating);
    c := EloColours[idx];
  }

  /** A higher rating never falls in a lower band. */
  lemma {:induction false} ReachedMonotone(splits: seq<real>, low: real, high: real)
    requires low <= high
    ensures Reached(splits, low) <= Reached(splits, high)
    decreases |splits|
  {
    if |splits| > 0 {
      ReachedMonotone(splits[..|splits| - 1], low, high);
    }
  }

  /** The five bands of the configured splits: below 250, from 250 up to
      but not including 320, then up to 460, up to 620, and 620 up. */
  lemma EloBands(rating: real)
    ensures Reached(EloSplits, rating) == 0 <==> rating < 250.0
    ensures Reached(EloSplits, rating) == 1 <==> 250.0 <= rating < 320.0
    ensures Reached(EloSplits, rating) == 2 <==> 320.0 <= rating < 460.0
    ensures Reached(EloSplits, rating) == 3 <==> 460.0 <= rating < 620.0
    ensures Reached(EloSplits, rating) == 4 <==> 620.0 <= rating
  {
    var one := if rating >= 250.0 then 1 else 0;
    var two := one + if rating >= 320.0 then 1 else 0;
    var three := two + if rating >= 460.0 then 1 else 0;
    assert [250.0][..0] == [];
    assert Reached([250.0], rating) == one;
    assert [250.0, 320.0][..1] == [250.0];
    assert Reached([250.0, 320.0], rating) == two;
    assert [250.0, 320.0, 460.0][..2] == [250.0, 320.0];
    assert Reached([250.0, 320.0, 460.0], rating) == three;
    assert EloSplits[..3] == [250.0, 320.0, 460.0];
    assert Reached(EloSplits, rating) == three + if rating >= 620.0 then 1 else 0;
  }
}

=== FILE: elograph.dfy ===
/** `normalizeDataPosition`: the elo-history points of the stats card put in
    date order, optionally reduced to the best rating of each UTC day, and
    given their plot coordinates. */
module EloGraph {
  import opened Base

  /** A point of `elo_graph_data`: its time in milliseconds since the epoch
      and the rating then. */
  datatype Point = Point(date: int, rating: real)

  const MsPerDay: int := 86400000

  /** The UTC calendar day of a time (the date part of `toISOString`):
      floor division, so times before the epoch fall on earlier days. */
  function Day(date: int): int {
    date / MsPerDay
  }

  lemma DayMonotone(a: int, b: int)
    requires a <= b
    ensures Day(a) <= Day(b)
  {
  }

  // ----- the chronological sort -----

  predicate SortedByDate(ps: seq<Point>) {
    forall i :: 0 <= i < |ps| - 1 ==> ps[i].date <= ps[i + 1].date
  }

  /** Insertion before the first later point: an equal date goes first, so
      points keep their relative order as `Array.prototype.sort` does. */
  function Insert(p: Point, ps: seq<Point>): (r: seq<Point>)
    requires SortedByDate(ps)
    ensures SortedByDate(r)
    ensures multiset(r) == multiset(ps) + multiset{p}
    ensures r[0] == p || (|ps| > 0 && r[0] == ps[0])
  {
    if |ps| == 0 || p.date <= ps[0].date then [p] + ps
    else
      var rest := Insert(p, ps[1..]);
      assert ps == [ps[0]] + ps[1..];
      [ps[0]] + rest
  }

  /** `[...data].sort((a, b) => a.date - b.date)`. */
  function SortByDate(ps: seq<Point>): (r: seq<Point>)
    ensures SortedByDate(r)
    ensures multiset(r) == multiset(ps)
  {
    if |ps| == 0 then []
    else
      assert ps == [ps[0]] + ps[1..];
      Insert(ps[0], SortByDate(ps[1..]))
  }

  /** Sorting points already in date order changes nothing: the second sort
      of the source is the identity on what the first one produced. */
  lemma {:induction false} SortSorted(ps: seq<Point>)
    requires SortedByDate(ps)
    ensures SortByDate(ps) == ps
  {
    if |ps| > 0 {
      SortSorted(ps[1..]);
      assert ps == [ps[0]] + ps[1..];
    }
  }

  /** Every earlier point is no later. */
  predicate Chronological(ps: seq<Point>) {
    forall i, j :: 0 <= i <= j < |ps| ==> ps[i].date <= ps[j].date
  }

  /** In a date-ordered list every earlier point is no later. */
  lemma SortedChronological(ps: seq<Point>)
    requires SortedByDate(ps)
    ensures Chronological(ps)
  {
    forall i, j | 0 <= i <= j < |ps|
      ensures ps[i].date <= ps[j].date
    {
      SortedPairs(ps, i, j);
    }
  }

  lemma {:induction false} SortedPairs(ps: seq<Point>, i: int, j: int)
    requires SortedByDate(ps) && 0 <= i <= j < |ps|
    ensures ps[i].date <= ps[j].date
    decreases j - i
  {
    if i < j {
      SortedPairs(ps, i + 1, j);
    }
  }

  // ----- keeping the best point of each day -----

  /** The grouping loop keeps, per day, the input point it last stored.
      A group is recorded by that point's position in the input, which
      identifies the point the source stores under the day's key. */
  function DayAt(ps: seq<Point>, i: nat): int
    requires i < |ps|
  {
    Day(ps[i].date)
  }

  predicate InRange(keep: seq<nat>, n: nat) {
    forall j :: 0 <= j < |keep| ==> keep[j] < n
  }

  /** Where the group of a day is, in insertion order. */
  function FindDay(ps: seq<Point>, keep: seq<nat>, day: int): (r: Option<nat>)
    requires InRange(keep, |ps|)
    ensures r.Some? ==> r.value < |keep| && DayAt(ps, keep[r.value]) == day
    ensures r.None? ==> forall j :: 0 <= j < |keep| ==> DayAt(ps, keep[j]) != day
  {
    if |keep| == 0 then None
    else if DayAt(ps, keep[|keep| - 1]) == day then Some(|keep| - 1)
    else FindDay(ps, keep[..|keep| - 1], day)
  }

  /** A day that has a group is found. */
  lemma FindDayFinds(ps: seq<Point>, keep: seq<nat>, day: int, j: nat)
    requires InRange(keep, |ps|)
    requires j < |keep| && DayAt(ps, keep[j]) == day
    ensures FindDay(ps, keep, day).Some?
  {
  }

  /** One step of the grouping loop, at input point `i`: a new day is added
      at the end (`Object.values` keeps insertion order); the point of a day
      already seen is replaced only by a strictly higher rating. */
  function Keep(ps: seq<Point>, keep: seq<nat>, i: nat): (r: seq<nat>)
    requires i < |ps| && InRange(keep, i)
    ensures InRange(r, i + 1)
    ensures |keep| <= |r| <= |keep| + 1
  {
    match FindDay(ps, keep, DayAt(ps, i))
    case None => keep + [i]
    case Some(j) => if ps[i].rating > ps[keep[j]].rating then keep[j := i] else keep
  }

  /** The groups after the loop has seen the first `n` points. */
  function GroupUpTo(ps: seq<Point>, n: nat): (keep: seq<nat>)
    requires n <= |ps|
    ensures InRange(keep, n)
    ensures |keep| <= n
    ensures n > 0 ==> |keep| > 0
  {
    if n == 0 then [] else Keep(ps, GroupUpTo(ps, n - 1), n - 1)
  }

  /** Each step of the loop extends the groups of the points before it. */
  lemma GroupUpToStep(ps: seq<Point>, n: nat, prev: seq<nat>, keep: seq<nat>)
    requires 0 < n <= |ps| && prev == GroupUpTo(ps, n - 1) && keep == GroupUpTo(ps, n)
    ensures InRange(prev, n - 1) && keep == Keep(ps, prev, n - 1)
  {
  }

  /** `Object.values(grouped)` after the loop. */
  function Group(ps: seq<Point>): (r: seq<Point>)
    ensures |r| <= |ps|
    ensures |ps| > 0 ==> |r| > 0
  {
    var keep := GroupUpTo(ps, |ps|);
    seq(|keep|, j requires 0 <= j < |keep| => ps[keep[j]])
  }

  /** One group per day. */
  predicate DistinctDays(ps: seq<Point>, keep: seq<nat>)
    requires InRange(keep, |ps|)
  {
    forall j, k :: 0 <= j < k < |keep| ==> DayAt(ps, keep[j]) != DayAt(ps, keep[k])
  }

  /** Every day among the first `n` points has a group. */
  predicate Covers(ps: seq<Point>, keep: seq<nat>, n: nat)
    requires n <= |ps| && InRange(keep, |ps|)
  {
    forall i :: 0 <= i < n ==> FindDay(ps, keep, DayAt(ps, i)).Some?
  }

  /** No point among the first `n` rates higher than its day's group, and
      one that rates the same does not come before it. */
  predicate BestFirst(ps: seq<Point>, keep: seq<nat>, n: nat)
    requires n <= |ps| && InRange(keep, |ps|)
  {
    forall i, j :: 0 <= i < n && 0 <= j < |keep| && DayAt(ps, i) == DayAt(ps, keep[j]) ==>
      ps[i].rating < ps[keep[j]].rating || (ps[i].rating == ps[keep[j]].rating && keep[j] <= i)
  }

  predicate GroupsOf(ps: seq<Point>, keep: seq<nat>, n: nat)
    requires n <= |ps|
  {
    && InRange(keep, n)
    && DistinctDays(ps, keep)
    && Covers(ps, keep, n)
    && BestFirst(ps, keep, n)
  }

  /** Opening the group of a new day keeps the days apart. */
  lemma NewDayDistinct(ps: seq<Point>, keep: seq<nat>, n: nat)
    requires n < |ps| && InRange(keep, n) && DistinctDays(ps, keep)
    requires forall j :: 0 <= j < |keep| ==> DayAt(ps, keep[j]) != DayAt(ps, n)
    ensures DistinctDays(ps, keep + [n])
  {
    var g := keep + [n];
    forall j, k | 0 <= j < k < |g|
      ensures DayAt(ps, g[j]) != DayAt(ps, g[k])
    {
      assert g[j] == keep[j];
    }
  }

  /** Opening the group of a new day keeps every day covered. */
  lemma NewDayCovers(ps: seq<Point>, keep: seq<nat>, n: nat)
    requires n < |ps| && InRange(keep, n) && Covers(ps, keep, n)
    ensures Covers(ps, keep + [n], n + 1)
  {
    var g := keep + [n];
    forall i | 0 <= i < n + 1
      ensures FindDay(ps, g, DayAt(ps, i)).Some?
    {
      var j := if i < n then FindDay(ps, keep, DayAt(ps, i)).value else |keep|;
      FindDayFinds(ps, g, DayAt(ps, i), j);
    }
  }

  /** A new day's first point is its best so far, and the others keep theirs. */
  lemma NewDayBest(ps: seq<Point>, keep: seq<nat>, n: nat)
    requires n < |ps| && InRange(keep, n) && BestFirst(ps, keep, n)
    requires forall i :: 0 <= i < n ==> DayAt(ps, i) != DayAt(ps, n)
    ensures BestFirst(ps, keep + [n], n + 1)
  {
    var g := keep + [n];
    forall i, j | 0 <= i < n + 1 && 0 <= j < |g| && DayAt(ps, i) == DayAt(ps, g[j])
      ensures ps[i].rating < ps[g[j]].rating || (ps[i].rating == ps[g[j]].rating && g[j] <= i)
    {
      if j < |keep| {
        assert g[j] == keep[j];
      }
    }
  }

  /** The step that opens the group of a new day keeps the invariant. */
  lemma KeepNewDay(ps: seq<Point>, keep: seq<nat>, n: nat)
    requires n < |ps| && GroupsOf(ps, keep, n)
    requires FindDay(ps, keep, DayAt(ps, n)).None?
    ensures GroupsOf(ps, keep + [n], n + 1)
  {
    NewDayDistinct(ps, keep, n);
    NewDayCovers(ps, keep, n);
    forall i | 0 <= i < n
      ensures DayAt(ps, i) != DayAt(ps, n)
    {
      var k := FindDay(ps, keep, DayAt(ps, i)).value;
      assert DayAt(ps, keep[k]) == DayAt(ps, i);
    }
    NewDayBest(ps, keep, n);
  }

  /** Replacing a day's point by one of the same day keeps the days apart. */
  lemma BetterDistinct(ps: seq<Point>, keep: seq<nat>, n: nat, k: nat)
    requires n < |ps| && InRange(keep, n) && DistinctDays(ps, keep)
    requires k < |keep| && DayAt(ps, keep[k]) == DayAt(ps, n)
    ensures DistinctDays(ps, keep[k := n])
  {
    var g := keep[k := n];
    assert forall j :: 0 <= j < |g| ==> DayAt(ps, g[j]) == DayAt(ps, keep[j]);
  }

  /** Replacing a day's point keeps every day covered. */
  lemma BetterCovers(ps: seq<Point>, keep: seq<nat>, n: nat, k: nat)
    requires n < |ps| && InRange(keep, n) && Covers(ps, keep, n)
    requires k < |keep| && DayAt(ps, keep[k]) == DayAt(ps, n)
    ensures Covers(ps, keep[k := n], n + 1)
  {
    var g := keep[k := n];
    forall i | 0 <= i < n + 1
      ensures FindDay(ps, g, DayAt(ps, i)).Some?
    {
      var j := if i < n then FindDay(ps, keep, DayAt(ps, i)).value else k;
      FindDayFinds(ps, g, DayAt(ps, i), j);
    }
  }

  /** Replacing a day's point by a strictly higher one keeps it the best and
      the first of the best. */
  lemma BetterBest(ps: seq<Point>, keep: seq<nat>, n: nat, k: nat)
    requires n < |ps| && InRange(keep, n) && DistinctDays(ps, keep) && BestFirst(ps, keep, n)
    requires k < |keep| && DayAt(ps, keep[k]) == DayAt(ps, n) && ps[n].rating > ps[keep[k]].rating
    ensures BestFirst(ps, keep[k := n], n + 1)
  {
    var g := keep[k := n];
    forall i, j | 0 <= i < n + 1 && 0 <= j < |g| && DayAt(ps, i) == DayAt(ps, g[j])
      ensures ps[i].rating < ps[g[j]].rating || (ps[i].rating == ps[g[j]].rating && g[j] <= i)
    {
      if j == k {
        if i < n {
          assert DayAt(ps, i) == DayAt(ps, keep[k]);
        }
      } else {
        assert g[j] == keep[j];
      }
    }
  }

  /** The step that meets a point no higher than its day's keeps the groups. */
  lemma KeepWorse(ps: seq<Point>, keep: seq<nat>, n: nat, k: nat)
    requires n < |ps| && GroupsOf(ps, keep, n)
    requires FindDay(ps, keep, DayAt(ps, n)) == Some(k) && ps[n].rating <= ps[keep[k]].rating
    ensures GroupsOf(ps, keep, n + 1)
  {
  }

  /** Every step of the grouping loop keeps the invariant. */
  lemma KeepStep(ps: seq<Point>, keep: seq<nat>, next: seq<nat>, m: nat, n: nat)
    requires n == m + 1 && m < |ps| && GroupsOf(ps, keep, m)
    requires next == Keep(ps, keep, m)
    ensures GroupsOf(ps, next, n)
  {
    match FindDay(ps, keep, DayAt(ps, m))
    case None =>
      KeepNewDay(ps, keep, m);
    case Some(k) =>
      if ps[m].rating > ps[keep[k]].rating {
        BetterDistinct(ps, keep, m, k);
        BetterCovers(ps, keep, m, k);
        BetterBest(ps, keep, m, k);
      } else {
        KeepWorse(ps, keep, m, k);
      }
  }

  /** The grouping keeps exactly one point per day of its input: the first
      of the best-rated points of that day. */
  lemma {:induction false} GroupKeepsBest(ps: seq<Point>, n: nat, keep: seq<nat>)
    requires n <= |ps| && keep == GroupUpTo(ps, n)
    ensures GroupsOf(ps, keep, n)
  {
    if n > 0 {
      var prev := GroupUpTo(ps, n - 1);
      GroupKeepsBest(ps, n - 1, prev);
      KeepStep(ps, prev, keep, n - 1, n);
    }
  }

  predicate IncreasingDays(ps: seq<Point>, keep: seq<nat>)
    requires InRange(keep, |ps|)
  {
    forall j, k :: 0 <= j < k < |keep| ==> DayAt(ps, keep[j]) < DayAt(ps, keep[k])
  }

  /** On points in date order a step keeps the days of the groups increasing. */
  lemma SortedStep(ps: seq<Point>, keep: seq<nat>, next: seq<nat>, n: nat)
    requires n < |ps| && Chronological(ps) && InRange(keep, n) && IncreasingDays(ps, keep)
    requires next == Keep(ps, keep, n)
    ensures IncreasingDays(ps, next)
  {
    match FindDay(ps, keep, DayAt(ps, n))
    case None =>
      forall j | 0 <= j < |keep|
        ensures DayAt(ps, keep[j]) < DayAt(ps, n)
      {
        DayMonotone(ps[keep[j]].date, ps[n].date);
      }
      assert forall j :: 0 <= j < |keep| ==> next[j] == keep[j];
    case Some(k) =>
      assert forall j :: 0 <= j < |next| ==> DayAt(ps, next[j]) == DayAt(ps, keep[j]);
  }

  /** Grouping points in date order gives groups in strictly increasing
      day order. */
  lemma {:induction false} GroupOfSorted(ps: seq<Point>, n: nat, keep: seq<nat>)
    requires n <= |ps| && Chronological(ps) && keep == GroupUpTo(ps, n)
    ensures IncreasingDays(ps, keep)
  {
    if n > 0 {
      var prev := GroupUpTo(ps, n - 1);
      GroupOfSorted(ps, n - 1, prev);
      GroupUpToStep(ps, n, prev, keep);
      SortedStep(ps, prev, keep, n - 1);
    }
  }

  /** Strictly increasing days mean increasing dates. */
  lemma IncreasingDaysSorted(groups: seq<Point>)
    requires forall i :: 0 <= i < |groups| - 1 ==> Day(groups[i].date) < Day(groups[i + 1].date)
    ensures SortedByDate(groups)
  {
    forall i | 0 <= i < |groups| - 1
      ensures groups[i].date <= groups[i + 1].date
    {
      DayStrict(groups[i].date, groups[i + 1].date);
    }
  }

  /** A later day means a later time. */
  lemma DayStrict(a: int, b: int)
    requires Day(a) < Day(b)
    ensures a < b
  {
    assert a < MsPerDay * (Day(a) + 1);
    assert MsPerDay * (Day(a) + 1) <= MsPerDay * Day(b);
    assert MsPerDay * Day(b) <= b;
  }

  // ----- the plotted points -----

  /** A point with its coordinates: `xVar` is the number of days since the
      first point when grouping by date (a fraction, kept exact here), the
      position otherwise; `yVar` is the rating. */
  datatype Plotted = Plotted(point: Point, xVar: real, yVar: real)

  /** The points as plotted, in order. */
  function PointsOf(r: seq<Plotted>): seq<Point> {
    seq(|r|, i requires 0 <= i < |r| => r[i].point)
  }

  /** The coordinates given to the final points. */
  function Plot(final: seq<Point>, byDate: bool): (r: seq<Plotted>)
    requires |final| > 0
  {
    var start := final[0].date;
    seq(|final|, i requires 0 <= i < |final| =>
      Plotted(final[i],
              if byDate then (final[i].date - start) as real / MsPerDay as real else i as real,
              final[i].rating))
  }

  /** `normalizeDataPosition`: nothing for missing or empty data; otherwise
      sort, group when asked, sort again, and attach the coordinates. */
  function Normalize(data: Option<seq<Point>>, byDate: bool): seq<Plotted> {
    if data.None? || |data.value| == 0 then []
    else
      var sorted := SortByDate(data.value);
      var filtered := if byDate then Group(sorted) else sorted;
      var final := SortByDate(filtered);
      assert |final| > 0 by {
        assert multiset(final) == multiset(filtered);
        assert |multiset(final)| == |final| && |multiset(filtered)| == |filtered|;
      }
      Plot(final, byDate)
  }

  /** Without grouping every point is plotted once, in date order, at its
      position, at the height of its rating. */
  lemma NormalizeAll(data: seq<Point>)
    ensures var r := Normalize(Some(data), false);
      && |r| == |data|
      && multiset(PointsOf(r)) == multiset(data)
      && SortedByDate(PointsOf(r))
      && (forall i :: 0 <= i < |r| ==> r[i].xVar == i as real && r[i].yVar == r[i].point.rating)
  {
    if |data| > 0 {
      var sorted := SortByDate(data);
      SortSorted(sorted);
      assert PointsOf(Normalize(Some(data), false)) == sorted;
    }
  }

  /** The groups of points in date order come out in date order, with
      increasing days, so the second sort leaves them as they are. */
  lemma GroupedInOrder(sorted: seq<Point>)
    requires SortedByDate(sorted)
    ensures forall j :: 0 <= j < |Group(sorted)| - 1 ==> Day(Group(sorted)[j].date) < Day(Group(sorted)[j + 1].date)
    ensures SortByDate(Group(sorted)) == Group(sorted)
  {
    var keep := GroupUpTo(sorted, |sorted|);
    var groups := Group(sorted);
    SortedChronological(sorted);
    GroupOfSorted(sorted, |sorted|, keep);
    assert forall i :: 0 <= i < |groups| ==> groups[i] == sorted[keep[i]];
    forall i | 0 <= i < |groups| - 1
      ensures Day(groups[i].date) < Day(groups[i + 1].date)
    {
      assert DayAt(sorted, keep[i]) < DayAt(sorted, keep[i + 1]);
    }
    IncreasingDaysSorted(groups);
    SortSorted(groups);
  }

  /** The plot of points in increasing day order starts at `xVar` 0 and
      moves right. */
  lemma PlotByDay(final: seq<Point>)
    requires |final| > 0
    requires forall j :: 0 <= j < |final| - 1 ==> Day(final[j].date) < Day(final[j + 1].date)
    ensures var r := Plot(final, true);
      && r[0].xVar == 0.0
      && (forall j :: 0 <= j < |r| ==> r[j].xVar >= 0.0 && r[j].yVar == r[j].point.rating)
      && (forall j :: 0 <= j < |r| - 1 ==> r[j].xVar < r[j + 1].xVar)
  {
    var r := Plot(final, true);
    IncreasingDaysSorted(final);
    forall j | 0 <= j < |r|
      ensures r[j].xVar >= 0.0
    {
      if j > 0 {
        SortedPairs(final, 0, j);
      }
    }
  }

  /** Grouped by date, the plot has one point per UTC day of the data; each
      is the first of the best-rated points of its day in date order. */
  lemma NormalizeByDay(data: seq<Point>)
    requires |data| > 0
    ensures var r := Normalize(Some(data), true);
      var sorted := SortByDate(data);
      var keep := GroupUpTo(sorted, |sorted|);
      && |r| == |keep|
      && (forall j :: 0 <= j < |r| ==> r[j].point == sorted[keep[j]])
      && GroupsOf(sorted, keep, |sorted|)
  {
    var sorted := SortByDate(data);
    NormalizeGrouped(data);
    GroupKeepsBest(sorted, |sorted|, GroupUpTo(sorted, |sorted|));
  }

  /** Grouped by date, the days of the plotted points increase, the first
      sits at `xVar` 0 and each next one further right, at the height of
      its rating. */
  lemma NormalizeByDayAxes(data: seq<Point>)
    requires |data| > 0
    ensures var r := Normalize(Some(data), true);
      && (forall j :: 0 <= j < |r| - 1 ==> Day(r[j].point.date) < Day(r[j + 1].point.date))
      && r[0].xVar == 0.0
      && (forall j :: 0 <= j < |r| ==> r[j].xVar >= 0.0 && r[j].yVar == r[j].point.rating)
      && (forall j :: 0 <= j < |r| - 1 ==> r[j].xVar < r[j + 1].xVar)
  {
    var groups := Group(SortByDate(data));
    GroupedInOrder(SortByDate(data));
    NormalizeGrouped(data);
    PlotByDay(groups);
  }

  /** Grouped by date, the second sort changes nothing. */
  lemma NormalizeGrouped(data: seq<Point>)
    requires |data| > 0
    ensures Normalize(Some(data), true) == Plot(Group(SortByDate(data)), true)
  {
    GroupedInOrder(SortByDate(data));
  }

  /** Missing or empty data plots nothing. */
  lemma NormalizeEmpty(data: Option<seq<Point>>, byDate: bool)
    requires data.None? || data.value == []
    ensures Normalize(data, byDate) == []
  {
  }
}

=== FILE: guards.dfy ===
/** The two process-wide duplicate guards of the interaction handler: the
    users whose queue join is in flight and the matches whose end is in
    flight. Each handler is modelled as the steps it takes in order, with the
    outcome of every collaborator it awaits given as a parameter, so that
    every exit path is covered. */
module Guards {
  import opened Base
  import opened Teams
  import opened Eligibility
  import opened BestOf

  /** `processingQueueJoins` and `processingMatchEnds` (`interactionCreate.ts:70-73`). */
  datatype Processing = Processing(joins: set<UserId>, matchEnds: set<int>)

  /** What a handler did, in order. `EndedMatch` carries the second
      argument given to `endMatch`, if any. */
  datatype Effect =
    | Replied
    | JoinedQueues(user: UserId)
    | RefreshedQueues
    | RecordedWinner(matchId: int, team: int)
    | EndedMatch(matchId: int, flag: Option<bool>)
    | StartedVote(matchId: int)
    | ShowedSeries(fields: seq<Field>)

  /** How a handler left: rejected by its guard, finished, or with an
      exception that the surrounding `catch` logged. */
  datatype Exit = Rejected | Finished | Threw

  /** A handler run: the guard sets afterwards, what it did, how it left. */
  datatype Run = Run(after: Processing, effects: seq<Effect>, exit: Exit)

  // ----- queue joins (`interactionCreate.ts:143-197`) -----

  /** The check and the `add` run with no `await` between them, so they
      happen as one step: a user already joining is turned away. */
  function AcquireJoin(p: Processing, user: UserId): (h: Option<Processing>)
    ensures h.Some? <==> user !in p.joins
    ensures h.Some? ==> h.value == p.(joins := p.joins + {user})
  {
    if user in p.joins then None else Some(p.(joins := p.joins + {user}))
  }

  /** The `finally` of the join. */
  function ReleaseJoin(p: Processing, user: UserId): Processing {
    p.(joins := p.joins - {user})
  }

  /** What the awaited calls of a join do: the first reply, the ban role,
      `joinQueues` (which may report nothing joined with a falsy result),
      and the follow-up reply and queue refresh. */
  datatype JoinCalls = JoinCalls(replyOk: bool, blacklisted: bool, joined: Call<bool>, followUpOk: bool)

  /** The body of the join between the `add` and the `finally`. */
  function JoinBody(user: UserId, calls: JoinCalls): (r: (seq<Effect>, Exit))
    ensures JoinedQueues(user) in r.0 ==> calls.replyOk && !calls.blacklisted
  {
    if !calls.replyOk then ([], Threw)
    else if calls.blacklisted then ([Replied, Replied], Finished)
    else match calls.joined
      case Throws => ([Replied], Threw)
      case Returns(joined) =>
        ([Replied, JoinedQueues(user)]
           + (if !calls.followUpOk then [] else if joined then [Replied, RefreshedQueues] else [RefreshedQueues]),
         if calls.followUpOk then Finished else Threw)
  }

  /** A join that gets past the ban check refreshes the queue message
      whether or not anything was joined, and edits its reply only when
      `joinQueues` gave a truthy result. */
  lemma JoinRefreshes(user: UserId, calls: JoinCalls)
    requires calls.replyOk && !calls.blacklisted && calls.joined.Returns? && calls.followUpOk
    ensures JoinBody(user, calls).0
         == [Replied, JoinedQueues(user)] + (if calls.joined.value then [Replied] else []) + [RefreshedQueues]
    ensures JoinBody(user, calls).1 == Finished
  {
  }

  /** The whole join handler. */
  function JoinQueue(p: Processing, user: UserId, calls: JoinCalls): Run {
    match AcquireJoin(p, user)
    case None => Run(p, [Replied], Rejected)
    case Some(held) =>
      var body := JoinBody(user, calls);
      Run(ReleaseJoin(held, user), body.0, body.1)
  }

  /** While a user's join is in flight a second join of theirs is rejected,
      and the joins of other users are not affected. */
  lemma JoinExclusive(p: Processing, user: UserId, other: UserId)
    requires AcquireJoin(p, user).Some?
    ensures AcquireJoin(AcquireJoin(p, user).value, user).None?
    ensures other != user ==>
      (AcquireJoin(AcquireJoin(p, user).value, other).Some? <==> AcquireJoin(p, other).Some?)
  {
  }

  /** A join of a user already joining is rejected with a reply and changes
      nothing; any other join, on every path, leaves the guard as it found
      it, and runs `joinQueues` only after taking the guard. */
  lemma JoinReleases(p: Processing, user: UserId, calls: JoinCalls)
    ensures user in p.joins ==> JoinQueue(p, user, calls) == Run(p, [Replied], Rejected)
    ensures JoinQueue(p, user, calls).after == p
    ensures JoinedQueues(user) in JoinQueue(p, user, calls).effects ==> user !in p.joins
  {
    if user !in p.joins {
      assert p.joins + {user} - {user} == p.joins;
    }
  }

  // ----- ending a match by vote (`interactionCreate.ts:301-407`) -----

  /** The check at `interactionCreate.ts:314` and the `add` at `interactionCreate.ts:322` run with no `await`
      between them. */
  function AcquireEnd(p: Processing, matchId: int): (h: Option<Processing>)
    ensures h.Some? <==> matchId !in p.matchEnds
    ensures h.Some? ==> h.value == p.(matchEnds := p.matchEnds + {matchId})
  {
    if matchId in p.matchEnds then None else Some(p.(matchEnds := p.matchEnds + {matchId}))
  }

  function ReleaseEnd(p: Processing, matchId: int): Processing {
    p.(matchEnds := p.matchEnds - {matchId})
  }

  /** What the awaited calls of a passed result vote do: reading the
      select-menu value, the match record, recording the winner, ending the
      match, and showing the updated series. */
  datatype EndCalls = EndCalls(readOk: bool, kind: Call<SeriesKind>, recordOk: bool, endOk: bool, showOk: bool)

  /** `setWinningTeam` then `endMatch`, each of which may throw. */
  function RecordAndEnd(matchId: int, team: int, calls: EndCalls): (seq<Effect>, Exit) {
    if !calls.recordOk then ([], Threw)
    else if !calls.endOk then ([RecordedWinner(matchId, team)], Threw)
    else ([RecordedWinner(matchId, team), EndedMatch(matchId, None)], Finished)
  }

  /** The body after the `add`: the series logic of `BestOf.FinishGame`. */
  function EndBody(matchId: int, fields: seq<Field>, winner: int, calls: EndCalls): (seq<Effect>, Exit) {
    match calls.kind
    case Throws => ([], Threw)
    case Returns(kind) =>
      match FinishGame(kind, fields, winner)
      case SetWinner(team) => RecordAndEnd(matchId, team, calls)
      case Continue(shown) =>
        if calls.showOk then ([ShowedSeries(shown)], Finished) else ([], Threw)
  }

  /** The `onComplete` of a result vote. A failure reading the menu value
      comes before the guard is taken, yet the `catch` still deletes the id. */
  function FinishVote(p: Processing, matchId: int, fields: seq<Field>, winner: int, calls: EndCalls): Run {
    if !calls.readOk then Run(ReleaseEnd(p, matchId), [], Threw)
    else match AcquireEnd(p, matchId)
      case None => Run(p, [], Rejected)
      case Some(held) =>
        var body := EndBody(matchId, fields, winner, calls);
        Run(ReleaseEnd(held, matchId), body.0, body.1)
  }

  /** A result vote for a match whose end is in flight does nothing; one
      that takes the guard gives it back on every path, and is the only kind
      that records a winner or ends the match. The early failure is the one
      exit that can drop an id it never took. */
  lemma FinishVoteReleases(p: Processing, matchId: int, fields: seq<Field>, winner: int, calls: EndCalls)
    ensures calls.readOk && matchId in p.matchEnds ==> FinishVote(p, matchId, fields, winner, calls) == Run(p, [], Rejected)
    ensures calls.readOk ==> FinishVote(p, matchId, fields, winner, calls).after == p
    ensures !calls.readOk ==> FinishVote(p, matchId, fields, winner, calls).after.matchEnds == p.matchEnds - {matchId}
    ensures FinishVote(p, matchId, fields, winner, calls).effects != [] ==> matchId !in p.matchEnds
  {
    if matchId !in p.matchEnds {
      assert p.matchEnds + {matchId} - {matchId} == p.matchEnds;
    }
  }

  // ----- paths that end a match without waiting for the guard -----

  /** What the awaited calls of the helper override do. */
  datatype OverrideCalls = OverrideCalls(recordOk: bool, endOk: bool)

  /** `interactionCreate.ts:258-297`: the winner select menu. The guard is only checked at the
      start; after the awaited roster and settings lookups a helper adds the
      id without checking it again, records the winner and ends the match,
      deletes the id, and then falls through to the ordinary vote. `held` is
      the guard state when the override runs, which other handlers may have
      changed during those lookups. */
  function WinMatchSelect(p: Processing, held: Processing, matchId: int, team: int, helper: bool,
                          calls: OverrideCalls): Run
  {
    if matchId in p.matchEnds then Run(p, [Replied], Rejected)
    else if !helper then Run(held, [StartedVote(matchId)], Finished)
    else
      var after := held.(matchEnds := held.matchEnds + {matchId} - {matchId});
      if !calls.recordOk then Run(after, [], Threw)
      else if !calls.endOk then Run(after, [RecordedWinner(matchId, team)], Threw)
      else Run(after, [RecordedWinner(matchId, team), EndedMatch(matchId, None), StartedVote(matchId)], Finished)
  }

  /** The override is checked once: a match whose end is already in flight
      is turned away, but when a result vote takes the guard during the
      lookups the helper still ends the match, and the `finally` deletes the
      id the vote is holding. A successful override does not return: the
      vote is still registered after the match has ended. */
  lemma OverrideChecksOnce(p: Processing, held: Processing, matchId: int, team: int, calls: OverrideCalls)
    ensures matchId in p.matchEnds ==> WinMatchSelect(p, held, matchId, team, true, calls).effects == [Replied]
    ensures matchId !in p.matchEnds && calls.recordOk && calls.endOk ==>
      && EndedMatch(matchId, None) in WinMatchSelect(p, held, matchId, team, true, calls).effects
      && WinMatchSelect(p, held, matchId, team, true, calls).effects[2] == StartedVote(matchId)
    ensures matchId !in p.matchEnds ==>
      WinMatchSelect(p, held, matchId, team, true, calls).after.matchEnds == held.matchEnds - {matchId}
  {
  }

  /** `interactionCreate.ts:711-773`: the cancel button. `lookups` is the settings and team
      lookups the handler awaits before any branch: they throw, or they
      tell whether the clicker is a helper who is not playing. A helper's
      click and a click in the log channel each cancel the match at once,
      and neither returns, so the cancel vote is registered as well; the
      end-of-match guard is never consulted. `cancel` and the vote catch
      their own failures. */
  function CancelClick(p: Processing, matchId: int, lookups: Call<bool>, inLogChannel: bool): (r: Run)
    ensures r.after == p
    ensures r.exit == Threw <==> lookups.Throws?
    ensures lookups.Throws? ==> r.effects == []
  {
    match lookups
    case Throws => Run(p, [], Threw)
    case Returns(helper) =>
      Run(p,
          (if helper then [EndedMatch(matchId, Some(true))] else [])
          + (if inLogChannel then [EndedMatch(matchId, Some(true))] else [])
          + [StartedVote(matchId)],
          Finished)
  }

  /** Once the lookups succeed, the cancel path ends a match even while its
      end is in flight, ends it twice when a helper clicks in the log
      channel, and always goes on to the vote. */
  lemma CancelIgnoresGuard(p: Processing, matchId: int, helper: bool, inLogChannel: bool)
    requires matchId in p.matchEnds
    ensures helper || inLogChannel ==> EndedMatch(matchId, Some(true)) in CancelClick(p, matchId, Returns(helper), inLogChannel).effects
    ensures |CancelClick(p, matchId, Returns(helper), inLogChannel).effects|
         == (if helper then 1 else 0) + (if inLogChannel then 1 else 0) + 1
    ensures CancelClick(p, matchId, Returns(helper), inLogChannel).effects[|CancelClick(p, matchId, Returns(helper), inLogChannel).effects| - 1]
         == StartedVote(matchId)
  {
  }

  /** A helper's click in the log channel: the match is ended twice and the
      cancel vote is still registered for it. */
  lemma CancelTwiceThenVote(p: Processing, matchId: int)
    ensures CancelClick(p, matchId, Returns(true), true).effects
         == [EndedMatch(matchId, Some(true)), EndedMatch(matchId, Some(true)), StartedVote(matchId)]
  {
  }

  /** The cancel button as its "otherwise do normal vote" comment describes
      it: a helper's click or a click in the log channel cancels the match
      once, and only any other click starts the vote. */
  function CancelClickIntended(p: Processing, matchId: int, lookups: Call<bool>, inLogChannel: bool): (r: Run)
    ensures r.after == p
    ensures r.exit == Threw <==> lookups.Throws?
    ensures lookups.Throws? ==> r.effects == []
    ensures lookups.Returns? ==> |r.effects| == 1
    ensures lookups.Returns? ==>
      (lookups.value || inLogChannel <==> r.effects == [EndedMatch(matchId, Some(true))])
    ensures lookups.Returns? ==>
      (!lookups.value && !inLogChannel <==> r.effects == [StartedVote(matchId)])
  {
    match lookups
    case Throws => Run(p, [], Threw)
    case Returns(helper) =>
      if helper || inLogChannel then Run(p, [EndedMatch(matchId, Some(true))], Finished)
      else Run(p, [StartedVote(matchId)], Finished)
  }

  /** The code as written and as described agree exactly when the lookups
      fail or the click is neither a helper's nor in the log channel. */
  lemma CancelAsDescribed(p: Processing, matchId: int, lookups: Call<bool>, inLogChannel: bool)
    ensures CancelClick(p, matchId, lookups, inLogChannel) == CancelClickIntended(p, matchId, lookups, inLogChannel)
        <==> lookups.Throws? || (!lookups.value && !inLogChannel)
  {
    if lookups.Returns? && (lookups.value || inLogChannel) {
      assert |CancelClick(p, matchId, lookups, inLogChannel).effects| >= 2;
    }
  }

  /** `interactionCreate.ts:476-500`: changing the winner records it and ends the match again,
      with no look at the guard. Both failures are caught and reported. */
  function ChangeWinner(p: Processing, matchId: int, team: int, calls: OverrideCalls): (r: Run)
    ensures r.after == p
  {
    Run(p,
        (if calls.recordOk then [RecordedWinner(matchId, team)] else [])
        + (if calls.recordOk && calls.endOk then [EndedMatch(matchId, Some(false))] else [])
        + [Replied],
        Finished)
  }

  /** Changing the winner ends the match even while its end is in flight. */
  lemma ChangeWinnerIgnoresGuard(p: Processing, matchId: int, team: int)
    requires matchId in p.matchEnds
    ensures ChangeWinner(p, matchId, team, OverrideCalls(true, true)).effects
         == [RecordedWinner(matchId, team), EndedMatch(matchId, Some(false)), Replied]
  {
  }
}

=== FILE: jstext.dfy ===
/** The handful of JavaScript string and number built-ins the bot's handlers
    rely on, restated over `string` (a `seq<char>`). */
module JsText {
  import opened Base

  /** JavaScript's white space and line terminators (what `\s` and `trimEnd` use). */
  predicate IsSpace(c: char) {
    var u := c as int;
    || (9 <= u <= 13) || u == 32 || u == 0xA0 || u == 0x1680
    || (0x2000 <= u <= 0x200A) || u == 0x2028 || u == 0x2029
    || u == 0x202F || u == 0x205F || u == 0x3000 || u == 0xFEFF
  }

  predicate IsDigit(c: char) {
    '0' <= c <= '9'
  }

  predicate AllDigits(s: string) {
    forall i :: 0 <= i < |s| ==> IsDigit(s[i])
  }

  function DigitValue(c: char): nat
    requires IsDigit(c)
  {
    c as int - '0' as int
  }

  function DigitChar(d: nat): (c: char)
    requires d < 10
    ensures IsDigit(c) && DigitValue(c) == d
  {
    ('0' as int + d) as char
  }

  /** Decimal text of a natural number, as `String(n)` and template literals print it. */
  function NatToString(n: nat): (s: string)
    ensures |s| >= 1 && AllDigits(s)
    decreases n
  {
    if n < 10 then [DigitChar(n)] else NatToString(n / 10) + [DigitChar(n % 10)]
  }

  /** The number a string of decimal digits denotes (most significant digit first). */
  function DigitsValue(s: string): nat
    requires AllDigits(s)
  {
    if |s| == 0 then 0 else 10 * DigitsValue(s[..|s| - 1]) + DigitValue(s[|s| - 1])
  }

  /** Printing a natural number and reading its digits back gives the number again. */
  lemma {:induction false} DigitsValueOfNatToString(n: nat)
    ensures DigitsValue(NatToString(n)) == n
    decreases n
  {
    if n >= 10 {
      var s := NatToString(n);
      assert s[..|s| - 1] == NatToString(n / 10);
      DigitsValueOfNatToString(n / 10);
    }
  }

  /** Length of the longest prefix of `s` made of decimal digits. */
  function DigitRun(s: string): (k: nat)
    ensures k <= |s|
    ensures forall i :: 0 <= i < k ==> IsDigit(s[i])
    ensures k < |s| ==> !IsDigit(s[k])
  {
    if |s| == 0 || !IsDigit(s[0]) then 0 else 1 + DigitRun(s[1..])
  }

  /** Length of the longest prefix of `s` made of white space. */
  function SpaceRun(s: string): (k: nat)
    ensures k <= |s|
    ensures forall i :: 0 <= i < k ==> IsSpace(s[i])
    ensures k < |s| ==> !IsSpace(s[k])
  {
    if |s| == 0 || !IsSpace(s[0]) then 0 else 1 + SpaceRun(s[1..])
  }

  /** `parseInt(s, 10)`: leading white space is skipped, an optional sign is
      read, then the longest run of digits; `None` stands for `NaN`, the
      result when no digit follows. */
  function ParseInt(s: string): (r: Option<int>)
  {
    var t := s[SpaceRun(s)..];
    var signed := |t| > 0 && (t[0] == '-' || t[0] == '+');
    var u := if signed then t[1..] else t;
    var k := DigitRun(u);
    if k == 0 then None
    else
      var v: int := DigitsValue(u[..k]);
      Some(if signed && t[0] == '-' then -v else v)
  }

  /** `parseInt` of a non-empty run of digits is its decimal value. */
  lemma ParseIntOfDigits(s: string)
    requires |s| > 0 && AllDigits(s)
    ensures ParseInt(s) == Some(DigitsValue(s))
  {
    assert SpaceRun(s) == 0 by { assert IsDigit(s[0]); }
    assert s[0..] == s;
    assert s[0] != '-' && s[0] != '+' by { assert IsDigit(s[0]); }
    assert DigitRun(s) == |s| by { AllDigitsRun(s); }
    assert s[..|s|] == s;
  }

  /** `parseInt` reads back every number that `String(n)` printed. */
  lemma ParseIntOfNatToString(n: nat)
    ensures ParseInt(NatToString(n)) == Some(n)
  {
    ParseIntOfDigits(NatToString(n));
    DigitsValueOfNatToString(n);
  }

  /** Decimal text of an integer, `-` first when it is negative. */
  function IntToString(n: int): string {
    if n < 0 then "-" + NatToString(-n) else NatToString(n)
  }

  /** `parseInt` of digits followed by a non-digit reads the digits. */
  lemma ParseIntUnsigned(s: string, d: string, rest: string)
    requires s == d + rest && |d| > 0 && AllDigits(d)
    requires |rest| > 0 ==> !IsDigit(rest[0])
    ensures ParseInt(s) == Some(DigitsValue(d))
  {
    assert IsDigit(s[0]);
    assert SpaceRun(s) == 0;
    assert s[SpaceRun(s)..] == s;
    DigitRunPrefix(d, rest);
    assert s[..DigitRun(s)] == d;
  }

  /** `parseInt` of a minus sign, digits, and then a non-digit reads the
      negated digits. */
  lemma ParseIntNegative(s: string, d: string, rest: string)
    requires s == "-" + (d + rest) && |d| > 0 && AllDigits(d)
    requires |rest| > 0 ==> !IsDigit(rest[0])
    ensures ParseInt(s).Some? && ParseInt(s).value + DigitsValue(d) == 0
  {
    assert s[0] == '-';
    assert SpaceRun(s) == 0;
    var t := s[SpaceRun(s)..];
    assert t == s;
    var u := t[1..];
    assert u == d + rest;
    DigitRunPrefix(d, rest);
    var k := DigitRun(u);
    assert u[..k] == d;
  }

  /** `parseInt` reads back every integer that `String(n)` printed, also
      when the text goes on with something other than a digit. */
  lemma ParseIntOfIntPrefix(n: int, rest: string)
    requires |rest| > 0 ==> !IsDigit(rest[0])
    ensures ParseInt(IntToString(n) + rest) == Some(n)
  {
    var s := IntToString(n) + rest;
    if n < 0 {
      var m: nat := -n;
      var d := NatToString(m);
      DigitsValueOfNatToString(m);
      assert s == "-" + (d + rest);
      ParseIntNegative(s, d, rest);
      assert ParseInt(s).value == n;
    } else {
      var d := NatToString(n);
      DigitsValueOfNatToString(n);
      assert s == d + rest;
      ParseIntUnsigned(s, d, rest);
    }
  }

  /** `parseInt` reads back every integer that `String(n)` printed. */
  lemma ParseIntOfIntToString(n: int)
    ensures ParseInt(IntToString(n)) == Some(n)
  {
    ParseIntOfIntPrefix(n, "");
    assert IntToString(n) + "" == IntToString(n);
  }

  /** The digit run of digits followed by a non-digit stops at the end of the digits. */
  lemma {:induction false} DigitRunPrefix(d: string, rest: string)
    requires AllDigits(d) && (|rest| > 0 ==> !IsDigit(rest[0]))
    ensures DigitRun(d + rest) == |d|
  {
    if |d| > 0 {
      assert (d + rest)[1..] == d[1..] + rest;
      DigitRunPrefix(d[1..], rest);
    } else {
      assert d + rest == rest;
    }
  }

  lemma AllDigitsRun(s: string)
    requires AllDigits(s)
    ensures DigitRun(s) == |s|
  {
  }

  /** Index of the first `c` in `s`, or `|s|` when `c` does not occur. */
  function IndexOf(s: string, c: char): (i: nat)
    ensures i <= |s|
    ensures i < |s| ==> s[i] == c
    ensures forall k :: 0 <= k < i ==> s[k] != c
  {
    if |s| == 0 || s[0] == c then 0 else 1 + IndexOf(s[1..], c)
  }

  /** `s.split(sep)` for a one-character separator: the pieces between
      consecutive separators, never fewer than one. */
  function Split(s: string, sep: char): (parts: seq<string>)
    ensures |parts| >= 1
    ensures forall i :: 0 <= i < |parts| ==> sep !in parts[i]
    decreases |s|
  {
    var i := IndexOf(s, sep);
    if i == |s| then [s] else [s[..i]] + Split(s[i + 1..], sep)
  }

  /** `parts.join(sep)`. */
  function Join(parts: seq<string>, sep: char): string
  {
    if |parts| == 0 then ""
    else if |parts| == 1 then parts[0]
    else parts[0] + [sep] + Join(parts[1..], sep)
  }

  /** Joining the pieces of a split restores the string. */
  lemma {:induction false} JoinOfSplit(s: string, sep: char)
    ensures Join(Split(s, sep), sep) == s
    decreases |s|
  {
    var i := IndexOf(s, sep);
    if i < |s| {
      var tail := Split(s[i + 1..], sep);
      var parts := Split(s, sep);
      assert parts == [s[..i]] + tail;
      assert |parts| >= 2 && parts[0] == s[..i] && parts[1..] == tail;
      JoinOfSplit(s[i + 1..], sep);
      assert Join(parts, sep) == s[..i] + [sep] + Join(tail, sep);
      assert s == s[..i] + [sep] + s[i + 1..];
    }
  }

  /** Splitting a join of separator-free pieces gives the pieces back. */
  lemma {:induction false} SplitOfJoin(parts: seq<string>, sep: char)
    requires |parts| >= 1
    requires forall i :: 0 <= i < |parts| ==> sep !in parts[i]
    ensures Split(Join(parts, sep), sep) == parts
    decreases |parts|
  {
    var s := Join(parts, sep);
    if |parts| == 1 {
      assert IndexOf(s, sep) == |s| by { NoIndex(s, sep); }
    } else {
      var rest := Join(parts[1..], sep);
      assert s == parts[0] + [sep] + rest;
      var i := IndexOf(s, sep);
      assert i == |parts[0]| by {
        assert s[|parts[0]|] == sep;
        assert forall k :: 0 <= k < |parts[0]| ==> s[k] == parts[0][k];
      }
      assert s[..i] == parts[0];
      assert s[i + 1..] == rest;
      SplitOfJoin(parts[1..], sep);
      assert parts == [parts[0]] + parts[1..];
    }
  }

  lemma NoIndex(s: string, c: char)
    requires c !in s
    ensures IndexOf(s, c) == |s|
  {
  }

  /** `s.startsWith(prefix)`. */
  predicate StartsWith(s: string, prefix: string) {
    prefix <= s
  }

  /** `s.includes(sub)`: `sub` occurs somewhere in `s`. */
  predicate Contains(s: string, sub: string)
    decreases |s|
  {
    StartsWith(s, sub) || (|s| > 0 && Contains(s[1..], sub))
  }

  /** `sub` occurs in `s` at position `i`. */
  predicate OccursAt(s: string, sub: string, i: int) {
    0 <= i <= |s| - |sub| && s[i..i + |sub|] == sub
  }

  /** `includes` holds exactly when `sub` occurs at some position. */
  lemma {:induction false} ContainsAt(s: string, sub: string)
    ensures Contains(s, sub) <==> exists i :: OccursAt(s, sub, i)
    decreases |s|
  {
    if StartsWith(s, sub) {
      assert OccursAt(s, sub, 0);
    } else if |s| > 0 {
      ContainsAt(s[1..], sub);
      if Contains(s[1..], sub) {
        var i :| OccursAt(s[1..], sub, i);
        assert s[1..][i..i + |sub|] == s[i + 1..i + 1 + |sub|];
        assert OccursAt(s, sub, i + 1);
      }
      forall i | OccursAt(s, sub, i)
        ensures Contains(s[1..], sub)
      {
        assert i != 0;
        assert s[1..][i - 1..i - 1 + |sub|] == s[i..i + |sub|];
        assert OccursAt(s[1..], sub, i - 1);
      }
    }
  }

  lemma OccursContains(s: string, sub: string, i: int)
    requires OccursAt(s, sub, i)
    ensures Contains(s, sub)
  {
    ContainsAt(s, sub);
  }

  lemma ContainsOccurs(s: string, sub: string) returns (i: nat)
    requires Contains(s, sub)
    ensures OccursAt(s, sub, i)
  {
    ContainsAt(s, sub);
    var k :| OccursAt(s, sub, k);
    i := k;
  }

  /** `s.trimEnd()`: drops the trailing white space. */
  function TrimEnd(s: string): (t: string)
    ensures t <= s
    ensures |t| > 0 ==> !IsSpace(t[|t| - 1])
    ensures forall i :: |t| <= i < |s| ==> IsSpace(s[i])
  {
    if |s| > 0 && IsSpace(s[|s| - 1]) then TrimEnd(s[..|s| - 1]) else s
  }

  /** Case mapping restricted to ASCII letters. */
  function UpperChar(c: char): char {
    if 'a' <= c <= 'z' then (c as int - 32) as char else c
  }

  function LowerChar(c: char): char {
    if 'A' <= c <= 'Z' then (c as int + 32) as char else c
  }

  /** `s.toUpperCase()` for ASCII text. */
  function ToUpper(s: string): (t: string)
    ensures |t| == |s|
    ensures forall i :: 0 <= i < |s| ==> t[i] == UpperChar(s[i])
  {
    seq(|s|, i requires 0 <= i < |s| => UpperChar(s[i]))
  }

  /** `s.toLowerCase()` for ASCII text. */
  function ToLower(s: string): (t: string)
    ensures |t| == |s|
    ensures forall i :: 0 <= i < |s| ==> t[i] == LowerChar(s[i])
  {
    seq(|s|, i requires 0 <= i < |s| => LowerChar(s[i]))
  }
}

=== FILE: scorelines.dfy ===
/** The `Score: N` tag that a best-of series keeps at the end of each team's
    MMR line. Two regular expressions work on it, both case-insensitive:
    `Score:\s*(\d+)` reads the number, and `\s*-?\s*Score:\s*\d+` removes the
    tag together with the separator before it. Both are modelled exactly by
    scanning positions: none of the optional parts of the second expression
    can start the word `Score:`, so greedy matching never needs to back off. */
module ScoreLines {
  import opened Base
  import opened JsText

  /** The word both expressions look for, in lower case. */
  const ScoreWord: string := "score:"

  /** The separator and word that the handlers append before a score. */
  const ScoreSuffix: string := " - Score: "

  /** First position at or after `p` that is not white space. */
  function SkipSpaces(s: string, p: nat): (q: nat)
    requires p <= |s|
    ensures p <= q <= |s|
    ensures forall i :: p <= i < q ==> IsSpace(s[i])
    ensures q < |s| ==> !IsSpace(s[q])
    decreases |s| - p
  {
    if p < |s| && IsSpace(s[p]) then SkipSpaces(s, p + 1) else p
  }

  /** First position at or after `p` that is not a digit. */
  function SkipDigits(s: string, p: nat): (q: nat)
    requires p <= |s|
    ensures p <= q <= |s|
    ensures forall i :: p <= i < q ==> IsDigit(s[i])
    ensures q < |s| ==> !IsDigit(s[q])
    decreases |s| - p
  {
    if p < |s| && IsDigit(s[p]) then SkipDigits(s, p + 1) else p
  }

  /** The stopping point of `SkipSpaces` is the only one that fits its
      description. */
  lemma SkipSpacesIs(s: string, p: nat, q: nat)
    requires p <= q <= |s|
    requires forall i :: p <= i < q ==> IsSpace(s[i])
    requires q < |s| ==> !IsSpace(s[q])
    ensures SkipSpaces(s, p) == q
  {
  }

  lemma SkipDigitsIs(s: string, p: nat, q: nat)
    requires p <= q <= |s|
    requires forall i :: p <= i < q ==> IsDigit(s[i])
    requires q < |s| ==> !IsDigit(s[q])
    ensures SkipDigits(s, p) == q
  {
  }

  /** `Score:` in any ASCII case starts at `p`. */
  predicate WordAt(s: string, p: nat) {
    p + |ScoreWord| <= |s| && forall j :: 0 <= j < |ScoreWord| ==> LowerChar(s[p + j]) == ScoreWord[j]
  }

  /** Where a match of `Score:\s*\d+` at `start` has its digits. */
  datatype Tag = Tag(start: nat, digits: nat, end: nat)

  /** The match of `Score:\s*\d+` that starts at `p`, if there is one. */
  function TagAt(s: string, p: nat): (t: Option<Tag>)
    requires p <= |s|
    ensures t.Some? ==>
      && t.value.start == p && WordAt(s, p)
      && p + |ScoreWord| <= t.value.digits < t.value.end <= |s|
      && (forall i :: p + |ScoreWord| <= i < t.value.digits ==> IsSpace(s[i]))
      && (forall i :: t.value.digits <= i < t.value.end ==> IsDigit(s[i]))
      && (t.value.end < |s| ==> !IsDigit(s[t.value.end]))
  {
    if !WordAt(s, p) then None
    else
      var a := SkipSpaces(s, p + |ScoreWord|);
      var b := SkipDigits(s, a);
      if a < b then Some(Tag(p, a, b)) else None
  }

  /** The leftmost match of `Score:\s*\d+` at or after `p`. */
  function FindTagFrom(s: string, p: nat): (t: Option<Tag>)
    requires p <= |s|
    ensures t.Some? ==> p <= t.value.start <= |s| && TagAt(s, t.value.start) == t
    ensures forall q :: p <= q <= |s| && (t.None? || q < t.value.start) ==> TagAt(s, q).None?
    decreases |s| - p
  {
    if TagAt(s, p).Some? then TagAt(s, p)
    else if p == |s| then None
    else FindTagFrom(s, p + 1)
  }

  /** `line.match(/Score:\s*(\d+)/i)`. */
  function FindTag(s: string): (t: Option<Tag>)
    ensures t.Some? ==> t.value.start <= |s| && TagAt(s, t.value.start) == t
    ensures forall q :: 0 <= q <= |s| && (t.None? || q < t.value.start) ==> TagAt(s, q).None?
  {
    FindTagFrom(s, 0)
  }

  /** The score a line shows: `parseInt` of the first tag's digits, with
      `|| 0` turning a missing or unparsable number into 0. */
  function ReadScore(line: string): int {
    match FindTag(line)
    case None => 0
    case Some(t) =>
      match ParseInt(line[t.digits..t.end])
      case Some(v) => if v != 0 then v else 0
      case None => 0
  }

  /** The digits of a tag are a non-empty run of digits. */
  lemma TagDigits(line: string, t: Tag)
    requires FindTag(line) == Some(t)
    ensures |line[t.digits..t.end]| > 0 && AllDigits(line[t.digits..t.end])
  {
    var d := line[t.digits..t.end];
    forall i | 0 <= i < |d|
      ensures IsDigit(d[i])
    {
      assert d[i] == line[t.digits + i];
    }
  }

  /** A score is never negative: the tag holds digits only. */
  lemma ReadScoreNonNegative(line: string)
    ensures ReadScore(line) >= 0
  {
    match FindTag(line)
    case None =>
    case Some(t) =>
      TagDigits(line, t);
      ParseIntOfDigits(line[t.digits..t.end]);
  }

  /** Where `\s*-?\s*` stops when it starts at `i`: everything it passes is
      white space except possibly one `-`, where the first white space run
      stops. */
  function Lead(s: string, i: nat): (k: nat)
    requires i <= |s|
    ensures i <= k <= |s|
    ensures forall j :: i <= j < k && j != SkipSpaces(s, i) ==> IsSpace(s[j])
    ensures SkipSpaces(s, i) < k ==> s[SkipSpaces(s, i)] == '-'
  {
    var a := SkipSpaces(s, i);
    var b := if a < |s| && s[a] == '-' then a + 1 else a;
    SkipSpaces(s, b)
  }

  /** Where a match of `\s*-?\s*Score:\s*\d+` starting at `i` ends. */
  function StripAt(s: string, i: nat): (e: Option<nat>)
    requires i <= |s|
    ensures e.Some? ==> i < e.value <= |s|
  {
    match TagAt(s, Lead(s, i))
    case Some(t) => Some(t.end)
    case None => None
  }

  /** What `StripAt` gives once the lead and the tag after it are known. */
  lemma StripAtIs(s: string, i: nat, k: nat, t: Tag)
    requires i <= |s| && Lead(s, i) == k && TagAt(s, k) == Some(t)
    ensures StripAt(s, i) == Some(t.end)
  {
  }

  /** A stretch `[start, end)` of a string. */
  datatype Span = Span(start: nat, end: nat)

  /** The leftmost position at or after `i` where a match starts, given
      where a match starting at each position ends. */
  function FirstMatch(ms: seq<Option<nat>>, i: nat): (m: Option<Span>)
    requires i <= |ms|
    ensures m.Some? ==> i <= m.value.start < |ms| && ms[m.value.start] == Some(m.value.end)
    ensures forall j :: i <= j < |ms| && (m.None? || j < m.value.start) ==> ms[j].None?
    decreases |ms| - i
  {
    if i == |ms| then None
    else match ms[i]
      case Some(e) => Some(Span(i, e))
      case None => FirstMatch(ms, i + 1)
  }

  /** Where a match starting at each position `0..|s|` ends. */
  function StripMatches(s: string): (ms: seq<Option<nat>>)
    ensures |ms| == |s| + 1
    ensures forall j :: 0 <= j <= |s| ==> ms[j] == StripAt(s, j)
  {
    seq(|s| + 1, j requires 0 <= j <= |s| => StripAt(s, j))
  }

  /** The leftmost match of the removal expression at or after `i`. */
  function FindStripFrom(s: string, i: nat): (m: Option<Span>)
    requires i <= |s|
    ensures m.Some? ==>
      && i <= m.value.start < m.value.end <= |s|
      && StripAt(s, m.value.start) == Some(m.value.end)
    ensures forall j :: i <= j <= |s| && (m.None? || j < m.value.start) ==> StripAt(s, j).None?
  {
    var ms := StripMatches(s);
    var m := FirstMatch(ms, i);
    assert forall j :: i <= j <= |s| && (m.None? || j < m.value.start) ==> ms[j].None?;
    m
  }

  /** `line.replace(/\s*-?\s*Score:\s*\d+/i, '')`: the first match only. */
  function RemoveTag(s: string): (r: string)
    ensures |r| <= |s|
  {
    match FindStripFrom(s, 0)
    case None => s
    case Some(m) => s[..m.start] + s[m.end..]
  }

  lemma LowerS(c: char)
    requires LowerChar(c) == 's'
    ensures c == 's' || c == 'S'
  {
  }

  /** The removal expression removes exactly the tag the reading expression
      reads, together with the white space and dash in front of it; it
      removes nothing from a line without a tag. */
  lemma {:induction false} StripMatchesTag(s: string)
    ensures FindStripFrom(s, 0).None? <==> FindTag(s).None?
    ensures FindTag(s).Some? ==>
      && FindStripFrom(s, 0).value.start <= FindTag(s).value.start
      && FindStripFrom(s, 0).value.end == FindTag(s).value.end
      && Lead(s, FindStripFrom(s, 0).value.start) == FindTag(s).value.start
  {
    var tag := FindTag(s);
    if tag.Some? {
      var p := tag.value.start;
      assert LowerChar(s[p + 0]) == ScoreWord[0];
      LowerS(s[p]);
      assert Lead(s, p) == p by {
        SkipSpacesIs(s, p, p);
      }
      assert StripAt(s, p).Some?;
      var m := FindStripFrom(s, 0).value;
      var k := Lead(s, m.start);
      assert TagAt(s, k).Some?;
      assert !IsSpace(s[p]) && s[p] != '-';
      assert k == p;
    } else {
      forall j | 0 <= j <= |s|
        ensures StripAt(s, j).None?
      {
        assert TagAt(s, Lead(s, j)).None?;
      }
    }
  }

  /** The word is made of letters and a colon. */
  lemma WordChars(s: string, q: nat)
    requires WordAt(s, q)
    ensures forall x :: q <= x < q + |ScoreWord| ==> !IsSpace(s[x]) && !IsDigit(s[x]) && s[x] != '-'
  {
    forall x | q <= x < q + |ScoreWord|
      ensures !IsSpace(s[x]) && !IsDigit(s[x]) && s[x] != '-'
    {
      assert LowerChar(s[q + (x - q)]) == ScoreWord[x - q];
    }
  }

  /** A tag that starts inside `r` when `r` is followed by the suffix is a
      tag of `r` alone: the suffix starts with a blank and a dash, which
      neither the word, the blanks nor the digits of a tag can swallow. */
  lemma {:induction false} TagBeforeSuffix(r: string, rest: string, q: nat)
    requires q < |r|
    ensures TagAt(r + ScoreSuffix + rest, q).Some? ==> TagAt(r, q).Some?
  {
    var s := r + ScoreSuffix + rest;
    var t := TagAt(s, q);
    if t.Some? {
      var w := |ScoreWord|;
      assert s[|r|] == ' ' && s[|r| + 1] == '-';
      WordChars(s, q);
      assert q + w <= |r|;
      var d := t.value.digits;
      assert IsDigit(s[d]);
      assert d < |r|;
      forall j | 0 <= j < w
        ensures LowerChar(r[q + j]) == ScoreWord[j]
      {
        assert r[q + j] == s[q + j];
      }
      forall i | q + w <= i < d
        ensures IsSpace(r[i])
      {
        assert r[i] == s[i];
      }
      SkipSpacesIs(r, q + w, d);
      assert IsDigit(r[d]);
      assert SkipDigits(r, d) > d;
    }
  }

  /** Where the parts of `r + ScoreSuffix + digits` sit. */
  lemma SuffixLayout(r: string, digits: string)
    ensures |r + ScoreSuffix + digits| == |r| + |ScoreSuffix| + |digits|
    ensures forall i :: 0 <= i < |r| ==> (r + ScoreSuffix + digits)[i] == r[i]
    ensures forall j :: 0 <= j < |ScoreSuffix| ==> (r + ScoreSuffix + digits)[|r| + j] == ScoreSuffix[j]
    ensures forall j :: 0 <= j < |digits| ==> (r + ScoreSuffix + digits)[|r| + |ScoreSuffix| + j] == digits[j]
  {
  }

  /** No tag starts before the appended word. */
  lemma NoEarlyTag(r: string, digits: string, q: nat)
    requires q < |r| + 3
    requires q < |r| ==> TagAt(r, q).None?
    ensures TagAt(r + ScoreSuffix + digits, q).None?
  {
    if q < |r| {
      TagBeforeSuffix(r, digits, q);
    } else {
      var s := r + ScoreSuffix + digits;
      SuffixLayout(r, digits);
      assert s[|r| + (q - |r|)] == ScoreSuffix[q - |r|];
      assert LowerChar(s[q + 0]) != ScoreWord[0];
    }
  }

  /** The appended word and digits form a tag. */
  lemma AppendedTagAt(r: string, digits: string)
    requires |digits| > 0 && AllDigits(digits)
    ensures TagAt(r + ScoreSuffix + digits, |r| + 3)
         == Some(Tag(|r| + 3, |r| + |ScoreSuffix|, |r| + |ScoreSuffix| + |digits|))
  {
    var s := r + ScoreSuffix + digits;
    var w := |r| + 3;
    var a := |r| + |ScoreSuffix|;
    SuffixLayout(r, digits);
    forall j | 0 <= j < |ScoreWord|
      ensures LowerChar(s[w + j]) == ScoreWord[j]
    {
      assert s[|r| + (3 + j)] == ScoreSuffix[3 + j];
    }
    assert WordAt(s, w);
    assert s[|r| + 9] == ' ';
    assert s[a + 0] == digits[0];
    SkipSpacesIs(s, w + |ScoreWord|, a);
    forall i | a <= i < |s|
      ensures IsDigit(s[i])
    {
      assert s[a + (i - a)] == digits[i - a];
    }
    SkipDigitsIs(s, a, |s|);
  }

  /** A line that ends with the appended suffix and a number, and has no tag
      before it: the reading expression finds the appended tag. */
  lemma AppendedTagFound(r: string, digits: string)
    requires FindTag(r).None?
    requires |digits| > 0 && AllDigits(digits)
    ensures FindTag(r + ScoreSuffix + digits)
         == Some(Tag(|r| + 3, |r| + |ScoreSuffix|, |r| + |ScoreSuffix| + |digits|))
  {
    var s := r + ScoreSuffix + digits;
    forall q | 0 <= q < |r| + 3
      ensures TagAt(s, q).None?
    {
      NoEarlyTag(r, digits, q);
    }
    AppendedTagAt(r, digits);
  }

  /** What `ReadScore` gives once the first tag and its number are known. */
  lemma ReadScoreIs(line: string, t: Tag, v: int)
    requires FindTag(line) == Some(t)
    requires ParseInt(line[t.digits..t.end]) == Some(v)
    ensures ReadScore(line) == if v != 0 then v else 0
  {
  }

  /** The digits sit at the end of `r + ScoreSuffix + digits`. */
  lemma SuffixDigits(r: string, digits: string)
    ensures (r + ScoreSuffix + digits)[|r| + |ScoreSuffix|..|r| + |ScoreSuffix| + |digits|] == digits
  {
    SuffixLayout(r, digits);
  }

  /** ... and that tag reads back the number its digits denote. */
  lemma AppendedDigitsRead(r: string, digits: string, n: nat)
    requires FindTag(r).None?
    requires |digits| > 0 && AllDigits(digits) && ParseInt(digits) == Some(n)
    ensures ReadScore(r + ScoreSuffix + digits) == n
  {
    var s := r + ScoreSuffix + digits;
    var t := Tag(|r| + 3, |r| + |ScoreSuffix|, |r| + |ScoreSuffix| + |digits|);
    AppendedTagFound(r, digits);
    SuffixDigits(r, digits);
    assert s[t.digits..t.end] == digits;
    ReadScoreIs(s, t, n);
  }

  /** Printing a number after the suffix reads it back. */
  lemma AppendedTagReads(r: string, n: nat)
    requires FindTag(r).None?
    ensures ReadScore(r + ScoreSuffix + NatToString(n)) == n
  {
    ParseIntOfNatToString(n);
    AppendedDigitsRead(r, NatToString(n), n);
  }

  /** No match of the removal expression starts inside the trimmed part of
      `r`: its lead would have to cross the last non-blank of `r` and the dash
      of the suffix, and holds at most one dash. */
  lemma NoStripBeforeTrim(r: string, rest: string, j: nat)
    requires FindTag(r).None?
    requires j < |TrimEnd(r)|
    ensures StripAt(r + ScoreSuffix + rest, j).None?
  {
    var s := r + ScoreSuffix + rest;
    var z := |TrimEnd(r)|;
    assert s[z - 1] == r[z - 1] && !IsSpace(s[z - 1]);
    assert forall i :: z <= i < |r| ==> IsSpace(s[i]);
    assert s[|r|] == ' ' && s[|r| + 1] == '-';
    var a := SkipSpaces(s, j);
    assert a <= z - 1;
    var k := Lead(s, j);
    if s[a] == '-' && a == z - 1 {
      SkipSpacesIs(s, z, |r| + 1);
      assert k == |r| + 1;
      assert !WordAt(s, k) by {
        assert LowerChar(s[k + 0]) != ScoreWord[0];
      }
    } else if s[a] == '-' {
      assert k <= z - 1;
      TagBeforeSuffix(r, rest, k);
    } else {
      SkipSpacesIs(s, a, a);
      assert k == a;
      TagBeforeSuffix(r, rest, k);
    }
  }

  /** From blanks at the end of `r`, the lead of the removal expression runs
      over the separator up to the appended word. */
  lemma LeadOverSuffix(r: string, digits: string, z: nat)
    requires z <= |r|
    requires forall i :: z <= i < |r| ==> IsSpace(r[i])
    ensures Lead(r + ScoreSuffix + digits, z) == |r| + 3
  {
    var s := r + ScoreSuffix + digits;
    SuffixLayout(r, digits);
    assert s[|r| + 0] == ' ' && s[|r| + 1] == '-' && s[|r| + 2] == ' ' && s[|r| + 3] == 'S';
    SkipSpacesIs(s, z, |r| + 1);
    SkipSpacesIs(s, |r| + 2, |r| + 3);
  }

  /** The removal expression matches from the end of the trimmed `r` to the
      end of the appended number. */
  lemma AppendedStripAt(r: string, digits: string, z: nat)
    requires |digits| > 0 && AllDigits(digits)
    requires z <= |r|
    requires forall i :: z <= i < |r| ==> IsSpace(r[i])
    ensures StripAt(r + ScoreSuffix + digits, z) == Some(|r| + |ScoreSuffix| + |digits|)
  {
    LeadOverSuffix(r, digits, z);
    AppendedTagAt(r, digits);
  }

  /** The first match of the removal expression at or after `i`, when
      nothing matches before `z` and a match starts at `z`. */
  lemma FindStripFromIs(s: string, i: nat, z: nat, e: nat)
    requires i <= z <= |s| && StripAt(s, z) == Some(e)
    requires forall j :: i <= j < z ==> StripAt(s, j).None?
    ensures FindStripFrom(s, i) == Some(Span(z, e))
  {
    var m := FindStripFrom(s, i);
    assert m.Some? && m.value.start == z;
  }

  /** No match of the removal expression starts before the trimmed end. */
  lemma NoStripInTrim(r: string, digits: string)
    requires FindTag(r).None?
    ensures forall j :: 0 <= j < |TrimEnd(r)| ==> StripAt(r + ScoreSuffix + digits, j).None?
  {
    forall j | 0 <= j < |TrimEnd(r)|
      ensures StripAt(r + ScoreSuffix + digits, j).None?
    {
      NoStripBeforeTrim(r, digits, j);
    }
  }

  /** What the removal leaves once its match is known. */
  lemma RemoveTagIs(s: string, z: nat, e: nat)
    requires FindStripFrom(s, 0) == Some(Span(z, e))
    ensures RemoveTag(s) == s[..z] + s[e..]
  {
  }

  /** ... and removing it leaves `r` without its trailing white space. */
  lemma AppendedTagRemoved(r: string, digits: string)
    requires FindTag(r).None?
    requires |digits| > 0 && AllDigits(digits)
    ensures RemoveTag(r + ScoreSuffix + digits) == TrimEnd(r)
  {
    var s := r + ScoreSuffix + digits;
    var z := |TrimEnd(r)|;
    AppendedSpan(r, digits, s, z);
    RemoveTagIs(s, z, |s|);
    assert s[..z] == TrimEnd(r);
    assert s[|s|..] == [];
  }

  /** The first match in a line with an appended tag runs from the end of
      the trimmed line to the end of the number. */
  lemma AppendedSpan(r: string, digits: string, s: string, z: nat)
    requires FindTag(r).None?
    requires |digits| > 0 && AllDigits(digits)
    requires s == r + ScoreSuffix + digits && z == |TrimEnd(r)|
    ensures FindStripFrom(s, 0) == Some(Span(z, |s|))
  {
    AppendedStripAt(r, digits, z);
    assert StripAt(s, z) == Some(|s|);
    NoStripInTrim(r, digits);
    FindStripFromIs(s, 0, z, |s|);
  }

  /** Lines whose tag, if any, is the only one. */
  predicate SingleTag(line: string) {
    FindTag(RemoveTag(line)).None?
  }

  /** A line without a tag reads 0, and the removal leaves it alone. */
  lemma UntaggedLine(line: string)
    requires FindTag(line).None?
    ensures ReadScore(line) == 0
    ensures RemoveTag(line) == line
    ensures SingleTag(line)
  {
    StripMatchesTag(line);
  }

  /** A tag of a prefix is a tag of the whole string. */
  lemma TagExtends(r: string, s: string, q: nat)
    requires r <= s && q <= |r|
    ensures TagAt(r, q).Some? ==> TagAt(s, q).Some?
  {
    if TagAt(r, q).Some? {
      var t := TagAt(r, q).value;
      var w := |ScoreWord|;
      assert forall i :: 0 <= i < |r| ==> s[i] == r[i];
      assert WordAt(s, q);
      assert forall i :: q + w <= i < t.digits ==> IsSpace(s[i]);
      assert !IsSpace(s[t.digits]);
      SkipSpacesIs(s, q + w, t.digits);
      assert IsDigit(s[t.digits]);
      assert SkipDigits(s, t.digits) > t.digits;
    }
  }

  /** A string without a tag has none in any prefix either. */
  lemma NoTagInPrefix(s: string, r: string)
    requires r <= s && FindTag(s).None?
    ensures FindTag(r).None?
  {
    forall q | 0 <= q <= |r|
      ensures TagAt(r, q).None?
    {
      TagExtends(r, s, q);
    }
  }

  /** The MMR line after a game result (`interactionCreate.ts:359-362`): the old tag and its
      separator removed, trailing blanks trimmed, and the new score appended. */
  function RewriteScore(line: string, score: nat): string {
    TrimEnd(RemoveTag(line)) + ScoreSuffix + NatToString(score)
  }

  /** The MMR line when a best-of vote passes (`interactionCreate.ts:1098-1102`): the old tag
      removed and `Score: 0` appended, without trimming. */
  function ResetScore(line: string): string {
    RemoveTag(line) + ScoreSuffix + NatToString(0)
  }

  /** Appending the suffix and a number to a line without a tag gives a line
      that reads back the number and keeps exactly one tag. */
  lemma AppendedSingle(kept: string, score: nat)
    requires FindTag(kept).None?
    ensures ReadScore(kept + ScoreSuffix + NatToString(score)) == score
    ensures SingleTag(kept + ScoreSuffix + NatToString(score))
  {
    AppendedTagReads(kept, score);
    AppendedTagRemoved(kept, NatToString(score));
    NoTagInPrefix(kept, TrimEnd(kept));
  }

  /** After a game result the line reads back the new score, and still has
      exactly one tag. */
  lemma RewriteReadsBack(line: string, score: nat)
    requires SingleTag(line)
    ensures ReadScore(RewriteScore(line, score)) == score
    ensures SingleTag(RewriteScore(line, score))
  {
    NoTagInPrefix(RemoveTag(line), TrimEnd(RemoveTag(line)));
    AppendedSingle(TrimEnd(RemoveTag(line)), score);
  }

  /** After a passed best-of vote the line reads 0, and still has exactly one
      tag. */
  lemma ResetReadsZero(line: string)
    requires SingleTag(line)
    ensures ReadScore(ResetScore(line)) == 0
    ensures SingleTag(ResetScore(line))
  {
    AppendedSingle(RemoveTag(line), 0);
  }

  /** Characters a match of the removal expression can consist of. */
  predicate TagChar(c: char) {
    IsSpace(c) || c == '-' || IsDigit(c) || LowerChar(c) in ScoreWord
  }

  /** Characters a match of the removal expression can start with. */
  predicate LeadChar(c: char) {
    IsSpace(c) || c == '-' || LowerChar(c) == 's'
  }

  /** What a match of the reading expression consists of. */
  lemma TagChars(s: string, k: nat)
    requires k <= |s| && TagAt(s, k).Some?
    ensures LowerChar(s[k]) == 's'
    ensures forall x :: k <= x < TagAt(s, k).value.end ==> TagChar(s[x])
  {
    var t := TagAt(s, k).value;
    forall x | k <= x < t.end
      ensures TagChar(s[x])
    {
      if x < k + |ScoreWord| {
        assert LowerChar(s[k + (x - k)]) == ScoreWord[x - k];
      }
    }
    assert LowerChar(s[k + 0]) == ScoreWord[0];
  }

  /** What the removal expression removes. */
  lemma SpanChars(s: string)
    requires FindStripFrom(s, 0).Some?
    ensures LeadChar(s[FindStripFrom(s, 0).value.start])
    ensures forall x :: FindStripFrom(s, 0).value.start <= x < FindStripFrom(s, 0).value.end ==> TagChar(s[x])
  {
    var m := FindStripFrom(s, 0).value;
    var k := Lead(s, m.start);
    assert TagAt(s, k).value.end == m.end;
    TagChars(s, k);
  }

  /** An occurrence clear of the cut `[a, b)` survives the cut. */
  lemma OccursBeforeCut(s: string, a: nat, b: nat, key: string, i: nat)
    requires a <= b <= |s| && OccursAt(s, key, i) && i + |key| <= a
    ensures OccursAt(s[..a] + s[b..], key, i)
  {
    var r := s[..a] + s[b..];
    assert forall x :: 0 <= x < a ==> r[x] == s[x];
    assert r[i..i + |key|] == s[i..i + |key|];
  }

  lemma OccursAfterCut(s: string, a: nat, b: nat, key: string, i: nat)
    requires a <= b <= i && OccursAt(s, key, i)
    ensures OccursAt(s[..a] + s[b..], key, i - (b - a))
  {
    var r := s[..a] + s[b..];
    assert forall x :: b <= x < |s| ==> r[x - (b - a)] == s[x];
    assert r[i - (b - a)..i - (b - a) + |key|] == s[i..i + |key|];
  }

  /** An occurrence of a word is clear of a stretch when the stretch starts
      with a character the word lacks and the word starts with a character
      the stretch lacks. */
  lemma ClearOfSpan(s: string, a: nat, b: nat, key: string, i: nat)
    requires a < b <= |s| && OccursAt(s, key, i) && |key| > 0
    requires LeadChar(s[a]) && forall x :: a <= x < b ==> TagChar(s[x])
    requires !TagChar(key[0])
    requires forall j :: 0 <= j < |key| ==> !LeadChar(key[j])
    ensures i + |key| <= a || b <= i
  {
    assert forall j :: i <= j < i + |key| ==> s[j] == key[j - i];
  }

  /** A word none of whose characters can start a match, and whose first
      character cannot occur in one, survives the removal. */
  lemma KeyOutsideRemoval(s: string, key: string, i: nat) returns (j: nat)
    requires OccursAt(s, key, i) && |key| > 0
    requires !TagChar(key[0])
    requires forall x :: 0 <= x < |key| ==> !LeadChar(key[x])
    ensures OccursAt(RemoveTag(s), key, j)
  {
    var m := FindStripFrom(s, 0);
    if m.None? {
      j := i;
    } else {
      SpanChars(s);
      var a := m.value.start;
      var b := m.value.end;
      ClearOfSpan(s, a, b, key, i);
      if i + |key| <= a {
        OccursBeforeCut(s, a, b, key, i);
        j := i;
      } else {
        OccursAfterCut(s, a, b, key, i);
        j := i - (b - a);
      }
    }
  }

  /** A word without white space survives trimming the end. */
  lemma KeyInTrim(x: string, key: string, i: nat)
    requires OccursAt(x, key, i) && |key| > 0
    requires forall j :: 0 <= j < |key| ==> !IsSpace(key[j])
    ensures OccursAt(TrimEnd(x), key, i)
  {
    var t := TrimEnd(x);
    assert forall j :: i <= j < i + |key| ==> x[j] == key[j - i];
    assert !IsSpace(x[i + |key| - 1]);
    assert i + |key| <= |t|;
    assert t[i..i + |key|] == x[i..i + |key|];
  }

  /** An occurrence in a string is one in anything that extends it. */
  lemma OccursInExtension(x: string, rest: string, key: string, i: nat)
    requires OccursAt(x, key, i)
    ensures OccursAt(x + rest, key, i)
  {
    assert (x + rest)[i..i + |key|] == x[i..i + |key|];
  }

  /** The word `MMR` survives the removal of the tag. */
  lemma MmrOutsideRemoval(line: string) returns (j: nat)
    requires Contains(line, "MMR")
    ensures OccursAt(RemoveTag(line), "MMR", j)
  {
    ContainsAt(line, "MMR");
    var i :| OccursAt(line, "MMR", i);
    j := KeyOutsideRemoval(line, "MMR", i);
  }

  /** The line that shows the MMR keeps showing it after its score is
      rewritten, so the next result finds the same line. */
  lemma MmrSurvivesRewrite(line: string, score: nat)
    requires Contains(line, "MMR")
    ensures Contains(RewriteScore(line, score), "MMR")
  {
    var j := MmrOutsideRemoval(line);
    KeyInTrim(RemoveTag(line), "MMR", j);
    OccursInExtension(TrimEnd(RemoveTag(line)), ScoreSuffix + NatToString(score), "MMR", j);
    assert RewriteScore(line, score) == TrimEnd(RemoveTag(line)) + (ScoreSuffix + NatToString(score));
    OccursContains(RewriteScore(line, score), "MMR", j);
  }

  /** ... and after it is reset. */
  lemma MmrSurvivesReset(line: string)
    requires Contains(line, "MMR")
    ensures Contains(ResetScore(line), "MMR")
  {
    var j := MmrOutsideRemoval(line);
    OccursInExtension(RemoveTag(line), ScoreSuffix + NatToString(0), "MMR", j);
    assert ResetScore(line) == RemoveTag(line) + (ScoreSuffix + NatToString(0));
    OccursContains(ResetScore(line), "MMR", j);
  }

  /** Removing the tag adds no character. */
  lemma RemoveTagChars(s: string, c: char)
    requires c !in s
    ensures c !in RemoveTag(s)
  {
    match FindStripFrom(s, 0)
    case None =>
    case Some(m) =>
      assert RemoveTag(s) == s[..m.start] + s[m.end..];
  }

  /** Neither rewrite adds a line break. */
  lemma RewriteKeepsOneLine(line: string, score: nat)
    requires '\n' !in line
    ensures '\n' !in RewriteScore(line, score)
    ensures '\n' !in ResetScore(line)
  {
    RemoveTagChars(line, '\n');
    assert TrimEnd(RemoveTag(line)) <= RemoveTag(line);
    assert AllDigits(NatToString(score)) && AllDigits(NatToString(0));
  }
}

=== FILE: stakeban.dfy ===
/** The stake-ban elimination draft: a message with one button per stake
    (`stake-<stakeId>-<slot>-<match>`), the team whose turn it is kept by the
    store, and the veto button that bypasses the elimination. */
module StakeBan {
  import opened Base
  import opened Teams

  /** One stake button: the stake its identifier names and whether it can
      still be clicked. */
  datatype Slot = Slot(stakeId: int, enabled: bool)

  /** The draft as the players see it: the board on the posted message,
      the team that bans next, whether the board message is still posted,
      and the stake picked once the draft is over. */
  datatype StakeDraft = StakeDraft(board: seq<Slot>, voter: TeamIndex, posted: bool, picked: Option<string>)

  /** The stake the veto forces. */
  const SafeStake: string := "White Stake"

  datatype StakeError =
    | NotYourTurn          // "It's not your turn to ban stakes."
    | MissingSlot          // the clicked index names no button on the board
    | UnknownStake         // the store has no stake for the last button
    | AboveVetoThreshold   // "You are not allowed to veto because ..."

  datatype BanOutcome = Reposted | Picked(stake: string)

  datatype BanStep = BanStep(draft: StakeDraft, outcome: Result<BanOutcome, StakeError>)

  /** The buttons still enabled, in board order. */
  function EnabledSlots(board: seq<Slot>): (e: seq<Slot>)
    ensures |e| <= |board|
    ensures forall s :: s in e <==> s in board && s.enabled
  {
    if |board| == 0 then []
    else (if board[0].enabled then [board[0]] else []) + EnabledSlots(board[1..])
  }

  /** The board with one button disabled. */
  function Disable(board: seq<Slot>, slot: nat): (b: seq<Slot>)
    requires slot < |board|
    ensures |b| == |board|
    ensures !b[slot].enabled && b[slot].stakeId == board[slot].stakeId
    ensures forall i :: 0 <= i < |board| && i != slot ==> b[i] == board[i]
  {
    board[slot := board[slot].(enabled := false)]
  }

  /** A click on the button in `slot` by `user`; `catalog` is the stake store
      (`getStake`). */
  function Ban(d: StakeDraft, teams: MatchTeams, user: UserId, slot: Option<int>, catalog: map<int, string>)
    : (r: BanStep)
    // Someone outside the voting team changes nothing.
    ensures user !in teams.Players(d.voter) <==> r.outcome == Err(NotYourTurn)
    ensures r.outcome == Err(NotYourTurn) ==> r.draft == d
    // Every other click hands the turn to the other team first.
    ensures r.outcome != Err(NotYourTurn) ==> r.draft.voter == Other(d.voter)
    ensures r.outcome == Err(MissingSlot) <==>
      user in teams.Players(d.voter) && !(slot.Some? && 0 <= slot.value < |d.board|)
    ensures r.outcome.Err? && r.outcome != Err(NotYourTurn) ==>
      r.draft == d.(voter := Other(d.voter))
    // A valid click leaving other than one enabled slot always reposts;
    // one leaving exactly one picks it unless the store lacks its stake.
    ensures (&& user in teams.Players(d.voter) && slot.Some? && 0 <= slot.value < |d.board|
             && |EnabledSlots(Disable(d.board, slot.value))| != 1)
      ==> r.outcome == Ok(Reposted)
    ensures r.outcome == Err(UnknownStake) <==>
      && user in teams.Players(d.voter) && slot.Some? && 0 <= slot.value < |d.board|
      && var e := EnabledSlots(Disable(d.board, slot.value));
      && |e| == 1 && e[0].stakeId !in catalog
    ensures r.outcome == Ok(Reposted) ==>
      && slot.Some? && 0 <= slot.value < |d.board|
      && r.draft == d.(voter := Other(d.voter), board := Disable(d.board, slot.value))
      && |EnabledSlots(r.draft.board)| != 1
    ensures r.outcome.Ok? && r.outcome.value.Picked? ==>
      && slot.Some? && 0 <= slot.value < |d.board|
      && var e := EnabledSlots(Disable(d.board, slot.value));
      && |e| == 1 && e[0].stakeId in catalog
      && r.outcome.value.stake == catalog[e[0].stakeId]
      && r.draft.picked == Some(r.outcome.value.stake) && !r.draft.posted
  {
    if user !in teams.Players(d.voter) then BanStep(d, Err(NotYourTurn))
    else
      var flipped := d.(voter := Other(d.voter));
      if !(slot.Some? && 0 <= slot.value < |d.board|) then BanStep(flipped, Err(MissingSlot))
      else
        var board := Disable(d.board, slot.value);
        var e := EnabledSlots(board);
        if |e| == 1 then
          if e[0].stakeId in catalog then
            var stake := catalog[e[0].stakeId];
            BanStep(flipped.(board := board, posted := false, picked := Some(stake)), Ok(Picked(stake)))
          else
            // The board message is only replaced on the repost path, so it
            // keeps showing the clicked button.
            BanStep(flipped, Err(UnknownStake))
        else
          BanStep(flipped.(board := board), Ok(Reposted))
  }

  datatype VetoOutcome = VetoIgnored | Vetoed

  datatype VetoStep = VetoStep(draft: StakeDraft, outcome: Result<VetoOutcome, StakeError>)

  /** The veto button. The inputs are what the handler looks up: whether the
      channel belongs to a match of a queue, the player's rating (`getPlayerElo`),
      the queue's `veto_mmr_threshold`, both JavaScript numbers and so
      possibly fractional, and whether the store lists the safe
      stake. A falsy rating or threshold (missing or 0) ends the handler
      without a word. */
  function Veto(d: StakeDraft, inMatchChannel: bool, mmr: Option<real>, threshold: Option<real>, safeListed: bool)
    : (r: VetoStep)
    ensures r.outcome == Ok(VetoIgnored) <==>
      !inMatchChannel || mmr.None? || mmr == Some(0.0) || threshold.None? || threshold == Some(0.0)
    ensures r.outcome == Err(AboveVetoThreshold) <==>
      && inMatchChannel && mmr.Some? && mmr.value != 0.0 && threshold.Some? && threshold.value != 0.0
      && mmr.value > threshold.value
    ensures r.outcome == Ok(Vetoed) <==>
      && inMatchChannel && mmr.Some? && mmr.value != 0.0 && threshold.Some? && threshold.value != 0.0
      && mmr.value <= threshold.value
    ensures r.outcome != Ok(Vetoed) ==> r.draft == d
    ensures r.outcome == Ok(Vetoed) ==>
      && !r.draft.posted
      && r.draft.board == d.board && r.draft.voter == d.voter
      && r.draft.picked == (if safeListed then Some(SafeStake) else d.picked)
  {
    if !inMatchChannel then VetoStep(d, Ok(VetoIgnored))
    else if mmr.None? || mmr.value == 0.0 then VetoStep(d, Ok(VetoIgnored))
    else if threshold.None? || threshold.value == 0.0 then VetoStep(d, Ok(VetoIgnored))
    else if mmr.value > threshold.value then VetoStep(d, Err(AboveVetoThreshold))
    else if safeListed then VetoStep(d.(posted := false, picked := Some(SafeStake)), Ok(Vetoed))
    else VetoStep(d.(posted := false), Ok(Vetoed))
  }

  /** The veto does not look at whose turn it is nor at what is left on the
      board: any player at or below the threshold forces the safe stake. */
  lemma VetoIgnoresTurnAndBoard(d: StakeDraft, board: seq<Slot>, voter: TeamIndex, mmr: real, threshold: real)
    requires mmr != 0.0 && threshold != 0.0 && mmr <= threshold
    ensures Veto(d, true, Some(mmr), Some(threshold), true).draft.picked == Some(SafeStake)
    ensures Veto(d.(board := board, voter := voter), true, Some(mmr), Some(threshold), true).draft.picked
         == Some(SafeStake)
  {
  }

  /** Disabling an enabled button leaves one fewer enabled. */
  lemma {:induction false} DisableEnabledCount(board: seq<Slot>, slot: nat)
    requires slot < |board| && board[slot].enabled
    ensures |EnabledSlots(Disable(board, slot))| == |EnabledSlots(board)| - 1
    decreases |board|
  {
    if slot > 0 {
      DisableEnabledCount(board[1..], slot - 1);
      assert Disable(board, slot)[1..] == Disable(board[1..], slot - 1);
    } else {
      assert Disable(board, slot)[1..] == board[1..];
    }
  }

  /** One click of a run of bans. */
  datatype Click = Click(user: UserId, slot: int)

  /** The draft after a sequence of clicks. */
  function RunBans(d: StakeDraft, teams: MatchTeams, clicks: seq<Click>, catalog: map<int, string>): StakeDraft
    decreases |clicks|
  {
    if |clicks| == 0 then d
    else RunBans(Ban(d, teams, clicks[0].user, Some(clicks[0].slot), catalog).draft, teams, clicks[1..], catalog)
  }

  /** The team that bans after `i` bans, when `voter` banned first. */
  function TeamAfter(voter: TeamIndex, i: nat): TeamIndex {
    (voter + i) % 2
  }

  /** A run of bans that follows the rules: each click is by a member of the
      team whose turn it is, on a distinct button still enabled, and leaves
      `survivor` alone. */
  ghost predicate LegalRun(d: StakeDraft, teams: MatchTeams, clicks: seq<Click>, survivor: nat) {
    && survivor < |d.board| && d.board[survivor].enabled
    && (forall i :: 0 <= i < |clicks| ==>
          && 0 <= clicks[i].slot < |d.board| && clicks[i].slot != survivor
          && d.board[clicks[i].slot].enabled
          && clicks[i].user in teams.Players(TeamAfter(d.voter, i)))
    && (forall i, j :: 0 <= i < j < |clicks| ==> clicks[i].slot != clicks[j].slot)
  }

  /** Every enabled stake is known to the store. */
  ghost predicate Catalogued(board: seq<Slot>, catalog: map<int, string>) {
    forall s :: s in board && s.enabled ==> s.stakeId in catalog
  }

  /** After one legal ban the rest of the run is legal on the new draft. */
  lemma LegalRunTail(d: StakeDraft, teams: MatchTeams, clicks: seq<Click>, survivor: nat)
    requires LegalRun(d, teams, clicks, survivor) && |clicks| > 0
    ensures LegalRun(d.(voter := Other(d.voter), board := Disable(d.board, clicks[0].slot)),
                     teams, clicks[1..], survivor)
  {
    var d' := d.(voter := Other(d.voter), board := Disable(d.board, clicks[0].slot));
    var rest := clicks[1..];
    forall i | 0 <= i < |rest|
      ensures && 0 <= rest[i].slot < |d'.board| && rest[i].slot != survivor
              && d'.board[rest[i].slot].enabled
              && rest[i].user in teams.Players(TeamAfter(d'.voter, i))
    {
      assert rest[i] == clicks[i + 1];
      assert clicks[0].slot != clicks[i + 1].slot;
      assert TeamAfter(d'.voter, i) == TeamAfter(d.voter, i + 1);
    }
    forall i, j | 0 <= i < j < |rest|
      ensures rest[i].slot != rest[j].slot
    {
      assert rest[i] == clicks[i + 1] && rest[j] == clicks[j + 1];
    }
  }

  /** Disabling a button keeps the enabled ones catalogued. */
  lemma CataloguedAfterDisable(board: seq<Slot>, slot: nat, catalog: map<int, string>)
    requires slot < |board| && Catalogued(board, catalog)
    ensures Catalogued(Disable(board, slot), catalog)
  {
    var b := Disable(board, slot);
    forall s | s in b && s.enabled
      ensures s.stakeId in catalog
    {
      var k :| 0 <= k < |b| && b[k] == s;
      assert k != slot;
      assert board[k] == s;
    }
  }

  /** The last legal ban, on a board with two enabled stakes, picks the
      other one. */
  lemma LastBan(d: StakeDraft, teams: MatchTeams, c: Click, catalog: map<int, string>, survivor: nat)
    requires c.user in teams.Players(d.voter)
    requires 0 <= c.slot < |d.board| && d.board[c.slot].enabled && c.slot != survivor
    requires survivor < |d.board| && d.board[survivor].enabled
    requires |EnabledSlots(d.board)| == 2 && Catalogued(d.board, catalog)
    ensures var r := Ban(d, teams, c.user, Some(c.slot), catalog).draft;
      r.picked == Some(catalog[d.board[survivor].stakeId]) && !r.posted
  {
    var board := Disable(d.board, c.slot);
    DisableEnabledCount(d.board, c.slot);
    var e := EnabledSlots(board);
    var kept := d.board[survivor];
    assert kept.stakeId in catalog by {
      assert kept in d.board;
    }
    assert board[survivor] == kept;
    assert kept in e;
    assert |e| == 1;
    assert e == [e[0]];
  }

  /** A legal ban on a board with more than two enabled stakes reposts it
      with one fewer enabled. */
  lemma MiddleBan(d: StakeDraft, teams: MatchTeams, c: Click, catalog: map<int, string>)
    requires c.user in teams.Players(d.voter)
    requires 0 <= c.slot < |d.board| && d.board[c.slot].enabled
    requires 2 < |EnabledSlots(d.board)|
    ensures var r := Ban(d, teams, c.user, Some(c.slot), catalog).draft;
      && r == d.(voter := Other(d.voter), board := Disable(d.board, c.slot))
      && |EnabledSlots(r.board)| == |EnabledSlots(d.board)| - 1
  {
    DisableEnabledCount(d.board, c.slot);
  }

  /** An elimination draft over N enabled stakes ends in a pick after exactly
      N - 1 legal bans, and the pick is the stake nobody banned; any shorter
      run leaves the draft open with the rest of the board still enabled. */
  lemma {:induction false} BansEndInPick(d: StakeDraft, teams: MatchTeams, clicks: seq<Click>,
                                         catalog: map<int, string>, survivor: nat)
    requires LegalRun(d, teams, clicks, survivor)
    requires 2 <= |EnabledSlots(d.board)| && |clicks| <= |EnabledSlots(d.board)| - 1
    requires Catalogued(d.board, catalog)
    ensures var r := RunBans(d, teams, clicks, catalog);
      if |clicks| == |EnabledSlots(d.board)| - 1 then
        r.picked == Some(catalog[d.board[survivor].stakeId]) && !r.posted
      else
        && r.picked == d.picked && r.posted == d.posted
        && |EnabledSlots(r.board)| == |EnabledSlots(d.board)| - |clicks|
    decreases |clicks|
  {
    if |clicks| > 0 {
      var c := clicks[0];
      assert TeamAfter(d.voter, 0) == d.voter;
      var d' := Ban(d, teams, c.user, Some(c.slot), catalog).draft;
      assert RunBans(d, teams, clicks, catalog) == RunBans(d', teams, clicks[1..], catalog);
      if |EnabledSlots(d.board)| == 2 {
        LastBan(d, teams, c, catalog, survivor);
        assert clicks[1..] == [];
      } else {
        MiddleBan(d, teams, c, catalog);
        LegalRunTail(d, teams, clicks, survivor);
        CataloguedAfterDisable(d.board, c.slot, catalog);
        BansEndInPick(d', teams, clicks[1..], catalog, survivor);
      }
    }
  }
}

=== FILE: statspanel.dfy ===
/** The text rules of the stats card's side panels: the rank-progress label
    of `rankupBar` with its `toProperCase`, and the rows of
    `drawPreviousGames`. Nothing here draws; each rule yields the strings,
    colours and bar values the drawing code is handed. */
module StatsPanel {
  import opened Base
  import opened JsText
  import TimeAgo

  // ----- names -----

  /** `toProperCase`: the first character upper-cased, the rest lower-cased. */
  function ProperCase(s: string): (r: string)
    ensures |r| == |s|
  {
    if |s| == 0 then "" else [UpperChar(s[0])] + ToLower(s[1..])
  }

  /** The case a name is stored in does not show: upper-casing or
      lower-casing first changes nothing, and a proper-cased name stays as
      it is. */
  lemma ProperCaseIgnoresCase(s: string)
    ensures ProperCase(ToUpper(s)) == ProperCase(s)
    ensures ProperCase(ToLower(s)) == ProperCase(s)
    ensures ProperCase(ProperCase(s)) == ProperCase(s)
  {
    if |s| > 0 {
      assert ToUpper(s)[1..] == ToUpper(s[1..]);
      assert ToLower(ToUpper(s[1..])) == ToLower(s[1..]);
      assert ToLower(s)[1..] == ToLower(s[1..]);
      assert ToLower(ToLower(s[1..])) == ToLower(s[1..]);
      assert ProperCase(s)[1..] == ToLower(s[1..]);
    }
  }

  /** `next_rank_name` upper-cased, or empty when there is none. */
  function NextRankName(name: Option<string>): string {
    match name
    case None => ""
    case Some(n) => ToUpper(n)
  }

  /** The two rank names that are too long for the position label. */
  predicate LongRankName(name: string) {
    name == "HOLOGRAPHIC" || name == "POLYCHROME"
  }

  /** `nextRankNameConcat`: the long names cut to their first four letters. */
  function ShortRankName(name: string): (r: string)
    ensures r <= name
    ensures |r| == if LongRankName(name) then 4 else |name|
  {
    if LongRankName(name) then name[..4] else name
  }

  // ----- the rank-progress label -----

  /** The rank fields of the player data; `None` is null or missing. */
  datatype RankData = RankData(
    nextRankName: Option<string>,
    nextRankMmr: Option<real>, rankMmr: Option<real>, mmr: Option<real>,
    nextRankPosition: Option<int>, rankPosition: Option<int>, position: Option<int>)

  /** What `drawBar` is given: the range and the value within it. */
  datatype Bar = Bar(low: real, high: real, value: real)

  /** The bar and the bordered text of the panel. */
  datatype Label = Label(bar: Bar, text: string)

  /** `Math.round`: halves round up. */
  function Round(x: real): (n: int)
    ensures n as real - 0.5 <= x < n as real + 0.5
  {
    (x + 0.5).Floor
  }

  /** A number is truthy when it is present and not 0. */
  predicate Truthy(v: Option<int>) {
    v.Some? && v.value != 0
  }

  const Placeholder: string := "\U{208D}^. .^\U{208E}/"

  predicate UsesMmr(d: RankData) {
    d.nextRankMmr.Some? && d.rankMmr.Some? && d.mmr.Some?
  }

  predicate UsesPosition(d: RankData) {
    && Truthy(d.position) && Truthy(d.rankPosition) && Truthy(d.nextRankPosition)
    && d.position.value != 1
  }

  /** The unit word after the number of places still to climb. */
  function RankWord(gap: int): string {
    if gap == 1 then " rank to " else " ranks to "
  }

  /** A number, the word after it, and a name. */
  function Counted(n: int, word: string, name: string): string {
    IntToString(n) + word + name
  }

  /** The label `rankupBar` draws: the MMR still to gain when the three MMR
      values are there (`!= null` lets 0 through), else the number of places
      still to climb when the three positions are truthy and the player is
      not first, else a full bar and a placeholder. */
  function Rankup(d: RankData): Label {
    var name := NextRankName(d.nextRankName);
    if UsesMmr(d) then
      Label(Bar(d.rankMmr.value, d.nextRankMmr.value, d.mmr.value),
            Counted(Round(d.nextRankMmr.value - d.mmr.value), " MMR to ", ProperCase(name)))
    else if UsesPosition(d) then
      var gap := d.position.value - d.nextRankPosition.value;
      Label(Bar(d.rankPosition.value as real, d.nextRankPosition.value as real, d.position.value as real),
            Counted(gap, RankWord(gap), ProperCase(ShortRankName(name))))
    else Label(Bar(0.0, 1.0, 1.0), Placeholder)
  }

  /** The MMR label: its number reads back as the MMR still needed, rounded
      to the nearest whole, and it ends with the full next-rank name in
      proper case, never the cut one. */
  lemma RankupByMmr(d: RankData)
    requires UsesMmr(d)
    ensures Rankup(d).bar == Bar(d.rankMmr.value, d.nextRankMmr.value, d.mmr.value)
    ensures ParseInt(Rankup(d).text) == Some(Round(d.nextRankMmr.value - d.mmr.value))
    ensures var name := ProperCase(NextRankName(d.nextRankName));
      Rankup(d).text[|Rankup(d).text| - |name|..] == name
  {
    var n := Round(d.nextRankMmr.value - d.mmr.value);
    var name := ProperCase(NextRankName(d.nextRankName));
    var text := Rankup(d).text;
    MmrLabelIs(d, n, name, text);
    LabelReads(text, n, " MMR to ", name);
  }

  /** The position label: its number reads back as the places still to
      climb, and it ends with the next-rank name, cut for the two long
      names. */
  lemma RankupByPosition(d: RankData)
    requires !UsesMmr(d) && UsesPosition(d)
    ensures var gap := d.position.value - d.nextRankPosition.value;
      && Rankup(d).bar == Bar(d.rankPosition.value as real, d.nextRankPosition.value as real, d.position.value as real)
      && ParseInt(Rankup(d).text) == Some(gap)
    ensures var name := ProperCase(ShortRankName(NextRankName(d.nextRankName)));
      Rankup(d).text[|Rankup(d).text| - |name|..] == name
  {
    var gap := d.position.value - d.nextRankPosition.value;
    var name := ProperCase(ShortRankName(NextRankName(d.nextRankName)));
    var text := Rankup(d).text;
    PositionLabelIs(d, gap, name, text);
    LabelReads(text, gap, RankWord(gap), name);
  }

  /** The number of the position label is followed by the unit word. */
  lemma RankupPositionWord(d: RankData)
    requires !UsesMmr(d) && UsesPosition(d)
    ensures var gap := d.position.value - d.nextRankPosition.value;
      var text := Rankup(d).text;
      |IntToString(gap)| + |RankWord(gap)| <= |text|
      && text[|IntToString(gap)|..|IntToString(gap)| + |RankWord(gap)|] == RankWord(gap)
  {
    var gap := d.position.value - d.nextRankPosition.value;
    var name := ProperCase(ShortRankName(NextRankName(d.nextRankName)));
    var text := Rankup(d).text;
    PositionLabelIs(d, gap, name, text);
    LabelReads(text, gap, RankWord(gap), name);
  }

  /** The unit word is singular for exactly one place still to climb. */
  lemma RankWords(gap: int)
    ensures RankWord(gap) == " rank to " <==> gap == 1
    ensures RankWord(gap) == " ranks to " <==> gap != 1
  {
    assert |" rank to "| != |" ranks to "|;
  }

  /** The text of the position label, piece by piece. */
  lemma PositionLabelIs(d: RankData, gap: int, name: string, text: string)
    requires !UsesMmr(d) && UsesPosition(d)
    requires gap == d.position.value - d.nextRankPosition.value
    requires name == ProperCase(ShortRankName(NextRankName(d.nextRankName)))
    requires text == Rankup(d).text
    ensures text == Counted(gap, RankWord(gap), name)
  {
  }

  /** The text of the MMR label, piece by piece. */
  lemma MmrLabelIs(d: RankData, n: int, name: string, text: string)
    requires UsesMmr(d)
    requires n == Round(d.nextRankMmr.value - d.mmr.value)
    requires name == ProperCase(NextRankName(d.nextRankName))
    requires text == Rankup(d).text
    ensures text == Counted(n, " MMR to ", name)
  {
  }

  /** A label made of a number, a word starting with a blank, and a name:
      the number reads back, and the word and the name sit where they were
      put. */
  lemma LabelReads(text: string, n: int, word: string, name: string)
    requires text == Counted(n, word, name) && |word| > 0 && word[0] == ' '
    ensures ParseInt(text) == Some(n)
    ensures |IntToString(n)| + |word| <= |text|
    ensures text[|IntToString(n)|..|IntToString(n)| + |word|] == word
    ensures text[|text| - |name|..] == name
  {
    var digits := IntToString(n);
    assert text == digits + (word + name);
    ParseIntOfIntPrefix(n, word + name);
  }

  /** Without the MMR values or usable positions, and for the player in
      first place, the bar is full and the placeholder is shown. */
  lemma RankupPlaceholder(d: RankData)
    ensures Rankup(d).text == Placeholder <==> !UsesMmr(d) && !UsesPosition(d)
    ensures !UsesMmr(d) && !UsesPosition(d) ==> Rankup(d).bar == Bar(0.0, 1.0, 1.0)
    ensures !UsesMmr(d) && d.position == Some(1) ==> Rankup(d).text == Placeholder
  {
    if UsesMmr(d) || UsesPosition(d) {
      var text := Rankup(d).text;
      if UsesMmr(d) {
        RankupByMmr(d);
      } else {
        RankupByPosition(d);
      }
      assert ParseInt(text).Some?;
      assert ParseInt(Placeholder) == None by {
        assert SpaceRun(Placeholder) == 0;
        assert Placeholder[0..] == Placeholder;
      }
    }
  }

  /** The holographic rank is named in full by the MMR label and as "Holo"
      by the position label. */
  lemma HolographicNames(d: RankData)
    requires d.nextRankName == Some("holographic")
    ensures UsesMmr(d) ==> Rankup(d).text[|Rankup(d).text| - 11..] == "Holographic"
    ensures !UsesMmr(d) && UsesPosition(d) ==> Rankup(d).text[|Rankup(d).text| - 4..] == "Holo"
  {
    HolographicSpelling();
    if UsesMmr(d) {
      RankupByMmr(d);
    } else if UsesPosition(d) {
      RankupByPosition(d);
    }
  }

  lemma HolographicSpelling()
    ensures ProperCase(NextRankName(Some("holographic"))) == "Holographic"
    ensures ProperCase(ShortRankName(NextRankName(Some("holographic")))) == "Holo"
  {
    UpperHolographic();
    HolographicFull("HOLOGRAPHIC");
    HolographicCut("HOLOGRAPHIC");
  }

  lemma UpperHolographic()
    ensures NextRankName(Some("holographic")) == "HOLOGRAPHIC"
  {
    var u := ToUpper("holographic");
    assert forall i :: 0 <= i < 11 ==> u[i] == "HOLOGRAPHIC"[i];
  }

  lemma HolographicFull(u: string)
    requires u == "HOLOGRAPHIC"
    ensures ProperCase(u) == "Holographic"
  {
    var tail := ToLower(u[1..]);
    assert forall i :: 0 <= i < 10 ==> tail[i] == "olographic"[i];
    assert ProperCase(u) == ['H'] + tail;
  }

  lemma HolographicCut(u: string)
    requires u == "HOLOGRAPHIC"
    ensures ProperCase(ShortRankName(u)) == "Holo"
  {
    var cut := ShortRankName(u);
    assert cut == "HOLO";
    var tail := ToLower(cut[1..]);
    assert tail[0] == 'o' && tail[1] == 'l' && tail[2] == 'o';
    assert ProperCase(cut) == ['H'] + tail;
  }

  // ----- previous games -----

  /** A game of `previous_games`: the rating change and when it was played,
      in milliseconds since the epoch. */
  datatype Game = Game(change: real, time: int)

  datatype Outcome = Win | Loss

  /** The colours the rows and the streak are drawn in. */
  datatype Colour = WinColour | LoseColour | Secondary

  /** A drawn row: its number text, the result with its colour, the sign
      in front of the change, and the time column. The change's digits
      (`toFixed(1)`) are not modelled. */
  datatype Row = Row(number: string, result: Outcome, colour: Colour, sign: string, ago: string)

  const MaxGames: nat := 5

  /** The row of game `i`, `now` being the time of drawing. */
  function GameRow(g: Game, i: nat, now: int): Row {
    var won := g.change > 0.0;
    Row(NatToString(i + 1) + ".",
        if won then Win else Loss,
        if won then WinColour else LoseColour,
        if won then "+" else "",
        TimeAgo.TimeAgoText(now - g.time))
  }

  /** The loop of `drawPreviousGames`: five slots, a row for each slot that
      has a game. */
  method PreviousGameRows(games: seq<Game>, now: int) returns (rows: seq<Row>)
    ensures |rows| == if |games| < MaxGames then |games| else MaxGames
    ensures forall i :: 0 <= i < |rows| ==> rows[i] == GameRow(games[i], i, now)
  {
    rows := [];
    for i := 0 to MaxGames
      invariant |rows| == if |games| < i then |games| else i
      invariant forall k :: 0 <= k < |rows| ==> rows[k] == GameRow(games[k], k, now)
    {
      if i < |games| {
        rows := rows + [GameRow(games[i], i, now)];
      }
    }
  }

  /** A row reads "WIN", in the win colour and with a plus sign, exactly
      when the rating went up; a change of 0 is a loss. Its number reads
      back as its place in the list, and its time column is the `timeAgo`
      of the game. */
  lemma GameRowRules(g: Game, i: nat, now: int)
    ensures GameRow(g, i, now).result == Win <==> g.change > 0.0
    ensures GameRow(g, i, now).colour == WinColour <==> g.change > 0.0
    ensures GameRow(g, i, now).sign == "+" <==> g.change > 0.0
    ensures ParseInt(GameRow(g, i, now).number) == Some(i + 1)
    ensures GameRow(g, i, now).ago == TimeAgo.ThresholdText(now - g.time)
  {
    assert GameRow(g, i, now).number == IntToString(i + 1) + ".";
    ParseIntOfIntPrefix(i + 1, ".");
    TimeAgo.TimeAgoByThresholds(now - g.time);
  }

  /** The colour of `win_streak`. */
  function StreakColour(streak: int): Colour {
    if streak > 0 then WinColour else if streak < 0 then LoseColour else Secondary
  }

  /** A winning streak is drawn like a won game, a losing one like a lost
      game, and no streak in the neutral colour. */
  lemma StreakColours(streak: int, g: Game, i: nat, now: int)
    ensures StreakColour(streak) == Secondary <==> streak == 0
    ensures streak != 0 ==>
      (StreakColour(streak) == GameRow(g, i, now).colour <==> (streak > 0 <==> g.change > 0.0))
  {
  }
}

=== FILE: teams.dfy ===
/** The roster of a match as `getTeamsInMatch` returns it: two teams, each an
    ordered list of players. */
module Teams {

  /** A chat-platform user id (a snowflake kept as text). */
  type UserId = string

  /** A team index; a match always has exactly two teams. */
  type TeamIndex = t: nat | t < 2

  datatype MatchTeams = MatchTeams(team0: seq<UserId>, team1: seq<UserId>) {

    function Players(t: TeamIndex): seq<UserId> {
      if t == 0 then team0 else team1
    }

    /** `teams.flatMap(t => t.players.map(u => u.user_id))`: every player,
        team 0 first. */
    function Participants(): (ps: seq<UserId>)
      ensures forall u :: u in ps <==> u in team0 || u in team1
    {
      team0 + team1
    }
  }

  /** The other team: `1 - t`. */
  function Other(t: TeamIndex): (o: TeamIndex)
    ensures o != t
  {
    1 - t
  }
}

=== FILE: timeago.dfy ===
/** `timeAgo` of the stats card: how long ago a game was played, given the
    difference between now and the game's time in milliseconds. */
module TimeAgo {
  import opened Base
  import opened JsText

  /** The counts of the floor cascade. `Math.floor(x / d)` for a positive
      divisor `d` is Dafny's `x / d` on integers, negative `x` included. */
  datatype Cascade = Cascade(seconds: int, minutes: int, hours: int, days: int,
                             weeks: int, months: int, years: int)

  function Counts(diffMs: int): Cascade {
    var seconds := diffMs / 1000;
    var minutes := seconds / 60;
    var hours := minutes / 60;
    var days := hours / 24;
    Cascade(seconds, minutes, hours, days, days / 7, days / 30, days / 365)
  }

  /** `${n} unit${n > 1 ? 's' : ''} ago`. */
  function Ago(n: nat, unit: string): string {
    NatToString(n) + " " + unit + (if n > 1 then "s" else "") + " ago"
  }

  const LessThanAMinute: string := "<1 min ago"

  /** The largest unit whose count is positive, from years down to minutes. */
  function TimeAgoText(diffMs: int): string {
    var c := Counts(diffMs);
    if c.years > 0 then Ago(c.years, "year")
    else if c.months > 0 then Ago(c.months, "month")
    else if c.weeks > 0 then Ago(c.weeks, "week")
    else if c.days > 0 then Ago(c.days, "day")
    else if c.hours > 0 then Ago(c.hours, "hour")
    else if c.minutes > 0 then Ago(c.minutes, "min")
    else LessThanAMinute
  }

  // ----- a reference definition by millisecond thresholds -----

  datatype Unit = Year | Month | Week | Day | Hour | Minute

  function UnitName(u: Unit): string {
    match u
    case Year => "year"
    case Month => "month"
    case Week => "week"
    case Day => "day"
    case Hour => "hour"
    case Minute => "min"
  }

  /** The length of a unit in milliseconds: a month is 30 days, a year 365. */
  function UnitMs(u: Unit): (ms: nat)
    ensures ms >= 60000
  {
    match u
    case Year => 365 * 86400000
    case Month => 30 * 86400000
    case Week => 7 * 86400000
    case Day => 86400000
    case Hour => 3600000
    case Minute => 60000
  }

  /** The first unit, longest first, that fits at least once into the difference. */
  function Largest(diffMs: int): Option<Unit> {
    if diffMs >= UnitMs(Year) then Some(Year)
    else if diffMs >= UnitMs(Month) then Some(Month)
    else if diffMs >= UnitMs(Week) then Some(Week)
    else if diffMs >= UnitMs(Day) then Some(Day)
    else if diffMs >= UnitMs(Hour) then Some(Hour)
    else if diffMs >= UnitMs(Minute) then Some(Minute)
    else None
  }

  /** The text read off the thresholds: whole units of the largest one that fits. */
  function ThresholdText(diffMs: int): string {
    match Largest(diffMs)
    case None => LessThanAMinute
    case Some(u) => Ago(diffMs / UnitMs(u), UnitName(u))
  }

  /** Floor division of a floor division is floor division by the product. */
  lemma DivDiv(a: int, b: int, c: int)
    requires b > 0 && c > 0
    ensures (a / b) / c == a / (b * c)
  {
    var q, r := a / b, a % b;
    var q2, r2 := q / c, q % c;
    assert a == q * b + r;
    assert q == q2 * c + r2;
    MulAddRight(q2 * c, r2, b);
    MulAssoc(q2, c, b);
    assert a == q2 * (b * c) + (r2 * b + r);
    MulLeRight(r2, c - 1, b);
    MulAddRight(c, -1, b);
    DivUnique(a, b * c, q2, r2 * b + r);
  }

  lemma MulAddRight(x: int, y: int, b: int)
    ensures (x + y) * b == x * b + y * b
  {
  }

  lemma MulAssoc(x: int, c: int, b: int)
    ensures (x * c) * b == x * (b * c)
  {
  }

  lemma MulLeRight(x: int, y: int, b: int)
    requires x <= y && b >= 0
    ensures x * b <= y * b
  {
  }

  /** The quotient is the only one that leaves a remainder in range. */
  lemma DivUnique(a: int, m: int, q: int, r: int)
    requires m > 0 && a == q * m + r && 0 <= r < m
    ensures a / m == q
  {
    var q', r' := a / m, a % m;
    assert a == q' * m + r';
    if q' < q {
      MulLeRight(q' + 1, q, m);
      MulAddRight(q', 1, m);
    } else if q' > q {
      MulLeRight(q + 1, q', m);
      MulAddRight(q, 1, m);
    }
  }

  /** Every count of the cascade is the difference divided by its unit. */
  lemma CountsByUnit(diffMs: int)
    ensures Counts(diffMs).minutes == diffMs / UnitMs(Minute)
    ensures Counts(diffMs).hours == diffMs / UnitMs(Hour)
    ensures Counts(diffMs).days == diffMs / UnitMs(Day)
    ensures Counts(diffMs).weeks == diffMs / UnitMs(Week)
    ensures Counts(diffMs).months == diffMs / UnitMs(Month)
    ensures Counts(diffMs).years == diffMs / UnitMs(Year)
  {
    DivDiv(diffMs, 1000, 60);
    DivDiv(diffMs, 60000, 60);
    DivDiv(diffMs, 3600000, 24);
    DivDiv(diffMs, 86400000, 7);
    DivDiv(diffMs, 86400000, 30);
    DivDiv(diffMs, 86400000, 365);
  }

  /** A floor quotient by a positive divisor is positive exactly when the
      dividend reaches the divisor. */
  lemma PositiveQuotient(a: int, m: int)
    requires m > 0
    ensures a / m > 0 <==> a >= m
  {
    var q := a / m;
    assert a == q * m + a % m;
    if q <= 0 {
      MulLeRight(q, 0, m);
    } else {
      MulLeRight(1, q, m);
    }
  }

  /** The cascade picks the unit the thresholds pick, with the same count:
      the text is "<1 min ago" exactly when less than a minute has passed,
      negative differences included. */
  lemma TimeAgoByThresholds(diffMs: int)
    ensures TimeAgoText(diffMs) == ThresholdText(diffMs)
    ensures TimeAgoText(diffMs) == LessThanAMinute <==> diffMs < 60000
  {
    CountsByUnit(diffMs);
    PositiveQuotient(diffMs, UnitMs(Year));
    PositiveQuotient(diffMs, UnitMs(Month));
    PositiveQuotient(diffMs, UnitMs(Week));
    PositiveQuotient(diffMs, UnitMs(Day));
    PositiveQuotient(diffMs, UnitMs(Hour));
    PositiveQuotient(diffMs, UnitMs(Minute));
    if diffMs >= 60000 {
      assert TimeAgoText(diffMs)[0] != '<' by {
        var u := Largest(diffMs).value;
        var n := diffMs / UnitMs(u);
        assert Ago(n, UnitName(u))[0] == NatToString(n)[0];
      }
    }
  }

  /** A shown count is at least one and stays below the next unit up: at
      most 12 months (a year is 365 days, not 360), 4 weeks, 6 days, 23
      hours or 59 minutes. */
  lemma CountRange(diffMs: int)
    requires Largest(diffMs).Some?
    ensures 1 <= diffMs / UnitMs(Largest(diffMs).value)
    ensures Largest(diffMs) == Some(Month) ==> diffMs / UnitMs(Month) <= 12
    ensures Largest(diffMs) == Some(Week) ==> diffMs / UnitMs(Week) <= 4
    ensures Largest(diffMs) == Some(Day) ==> diffMs / UnitMs(Day) <= 6
    ensures Largest(diffMs) == Some(Hour) ==> diffMs / UnitMs(Hour) <= 23
    ensures Largest(diffMs) == Some(Minute) ==> diffMs / UnitMs(Minute) <= 59
  {
    var u := Largest(diffMs).value;
    PositiveQuotient(diffMs, UnitMs(u));
  }

  /** The count printed first reads back as the number of units. */
  lemma AgoCount(n: nat, unit: string)
    ensures ParseInt(Ago(n, unit)) == Some(n)
  {
    var rest := " " + unit + (if n > 1 then "s" else "") + " ago";
    assert Ago(n, unit) == IntToString(n) + rest;
    ParseIntOfIntPrefix(n, rest);
  }

  /** The unit gets its plural "s" exactly when the count is above one. */
  lemma AgoPlural(n: nat, unit: string)
    requires |unit| > 0 && unit[|unit| - 1] != 's'
    ensures var s := Ago(n, unit); s[|s| - 5..] == "s ago" <==> n > 1
  {
    var s := Ago(n, unit);
    if n <= 1 {
      assert s[|s| - 5] == unit[|unit| - 1];
    }
  }
}
